=== FILE: README.md ===
# rtdb_writer write path, in Dafny

This project models two parts of the rtdb_writer benchmark:

- **The Go write plugin** (`plugin_example/write_plugin.go`). A C host loads it as a shared library and uses it to write real-time, history and static point records into an IoTDB database.
- **The verification and seeding helpers** of the Go test program (`session_example/test.go`).

The plugin keeps its state in package variables. `login` fills them in, and that state becomes the fields of one `Plugin` object; the seven settings `login` parses (host, port, user, password, pool size, batch size, root) are held together in its `settings` field. Each exported `write_*` function takes an array of fixed-layout records. Every record becomes one database row: a device path `<root>.unit<unit>.A<P_NUM>` (or `.D…`), a timestamp, and parallel lists of measurement names, types and values. The rows are appended to a five-list `Data` batch. Batches are cut in one of three ways:

- **Fast path:** one batch per call.
- **Per-record rule:** a batch after index `i` when `i != 0 && i % batchSize == 0`, with the rest written synchronously. This applies to normal real-time, history and static writes.
- **Section lists:** whole sections, cut once the running count exceeds `batchSize`.

Each batch is either dispatched to the worker pool (`wg.Add(1)`; `Invoke`) or written directly. Either way it ends in `insertData`, which takes a session, writes the batch when it got one, and puts the session back (unless `InsertRecords` returns an error, which ends the process).

The model runs the worker pool sequentially, so a dispatch runs its worker at once. Every `insertData` call is appended to a ghost log of `Submission`s, which records:
- the batch;
- whether it was dispatched or written directly;
- whether `InsertRecords` was issued.

Each writer's `ensures` gives the exact log it appends. That log is an independent reference definition (`FastPlan`, `NormalPlan`, `SectionPlan`) built on the slicing definitions of `Slicing`. Lemmas then show the following about the model:
- every row is submitted exactly once, in input order;
- the first per-record batch has `|batchSize| + 1` rows and every later one `|batchSize|`;
- section batches are exactly the greedy grouping;
- decoding a row the model builds (`AnalogFromRow` and its siblings) gives back the record it came from.

On the test side:
- Record streams are sequences, so the channels between goroutines disappear.
- `verifyRecord` is a loop proved equal to a reference comparison, whose verdicts are characterised.
- The export and source normalisations are per-record functions composed into streams.
- `boolLower` is an in-place array loop.
- The His96 regrouping buffer is an array-backed loop, proved against a state-machine specification.
- The tablet fills are a `Tablet` class with array fields.
- The 400 ms gap fill is a nested loop proved to complete the 400 ms grid.
- The test-651 line windows are plain arithmetic.

Files:
- `wrappers.dfy`: `Option` and `Result`.
- `gostrings.dfy`: the Go `strings`/`strconv` behaviour relied on.
- `records.dfy`: records, values, rows and `Data`.
- `slicing.dfy`: batch slicing over plain sequences.
- `plugin.dfy`: the plugin.
- `verify.dfy`: the verification helpers.
- `seeding.dfy`: the seeding helpers and test-651 windows.

Two behaviours of the code worth noting:
- The static byte arrays `CHN`/`PN`/`DESC`/`UNIT` are sent whole, padding included, and are not trimmed (`plugin_example/write_plugin.go:594`, `:650`).
- The history writers keep no state between calls and slice exactly like the normal path (`plugin_example/write_plugin.go:465-545`). There is no history accumulation across calls and no sharding of points over virtual devices.

## Model

| member | source | states |
|---|---|---|
| GoStrings.Split | plugin_example/write_plugin.go:50-54 | `strings.Split` on one character gives one piece more than there are separators; no piece contains the separator; joining the pieces gives the input back |
| GoStrings.SplitNoSeparator | plugin_example/write_plugin.go:50-51 | a parameter without a comma splits into itself alone, so the default branch is taken |
| GoStrings.SplitJoin | plugin_example/write_plugin.go:50 | splitting comma-joined fields that contain no comma gives the fields back |
| GoStrings.FormatInt | plugin_example/write_plugin.go:195 | `%d` output is non-empty, has no `.` or `,`, and starts with a digit exactly when the number is non-negative |
| GoStrings.ParseUint | plugin_example/write_plugin.go:73-74 | a successful unsigned parse never exceeds 2^bitSize - 1 |
| GoStrings.ParseInt | plugin_example/write_plugin.go:73-74 | `strconv.ParseInt` base 10: the result is always in the signed range of `bitSize`; a syntax error yields 0; success needs a digit or a sign first |
| GoStrings.ParseFormatInt | plugin_example/write_plugin.go:73-74 | parsing what `%d` prints gives the number back with no error, for every value in range |
| GoStrings.FormatIntInjective | plugin_example/write_plugin.go:195 | two different integers never print the same, so distinct point numbers give distinct device paths |
| GoStrings.ToLower | session_example/test.go:626 | the result has the same length and no letter A-Z; each capital becomes the letter 32 code points above it, and every other character is unchanged |
| GoStrings.ToLowerIdempotent | session_example/test.go:626 | lower-casing twice equals lower-casing once |
| GoStrings.Contains | session_example/test.go:1115 | `strings.Contains` is true exactly when the substring occurs at some index |
| GoStrings.TrimSpace | session_example/test.go:984 | the result is the slice `s[i..j]` such that everything before `i` and from `j` on is white space and the slice neither starts nor ends with white space: exactly the leading and trailing white space is removed |
| Records.Data.Append | plugin_example/write_plugin.go:163-169 | appending one row to all five lists keeps them the same length and adds exactly one row |
| Records.FromRows | plugin_example/write_plugin.go:193-200 | a batch built by appending rows is aligned, and its row count is the number of rows appended |
| Records.FromRowsRows | plugin_example/write_plugin.go:193-200 | reading a built batch back gives exactly the appended rows, in order |
| Records.RowsFromRows | plugin_example/write_plugin.go:163-169 | every aligned batch is the one built from its own rows |
| Records.LastIndex | plugin_example/write_plugin.go:195 | finds the last occurrence of a character in a device path, or reports that there is none |
| Records.DevicePathRoundTrip | plugin_example/write_plugin.go:195 | the device path `<root>.unit<unit>.<kind><P_NUM>` parses back into root, unit, kind and point number, for any root |
| Records.DevicePathInjective | plugin_example/write_plugin.go:195 | different points of the same unit and kind get different device paths |
| Records.PointOfDevicePath | plugin_example/write_plugin.go:195 | the point number read from a device path is the record's P_NUM |
| Records.RuneBytes | plugin_example/write_plugin.go:199 | `string(TEW)` is one byte below 0x80 and two bytes from 0x80 on |
| Records.RuneRoundTrip | plugin_example/write_plugin.go:199 | the UTF-8 string of a TEW byte decodes back to that byte |
| Records.AnalogValues | plugin_example/write_plugin.go:198-199 | the nine analog values conform to the nine declared types FLOAT, FLOAT, BOOLEAN ×3, FLOAT, BOOLEAN, TEXT, INT32 |
| Records.DigitalValues | plugin_example/write_plugin.go:364-365 | the nine digital values conform to BOOLEAN ×7, TEXT, INT32 |
| Records.StaticAnalogValues | plugin_example/write_plugin.go:593-594 | the sixteen static analog values conform to INT32 ×2, BOOLEAN ×8, TEXT ×4, FLOAT ×2 |
| Records.StaticDigitalValues | plugin_example/write_plugin.go:649-650 | the five static digital values conform to INT32, TEXT ×4 |
| Records.AnalogRow | plugin_example/write_plugin.go:195-199 | an analog record becomes a well-typed row on device `<root>.unit<unit>.A<P_NUM>` with the call's timestamp, measurements AV, AVR, Q, BF, QF, FAI, MS, TEW, CST and their declared types |
| Records.DigitalRow | plugin_example/write_plugin.go:361-365 | a digital record becomes a well-typed row on device `<root>.unit<unit>.D<P_NUM>` with the call's timestamp, measurements DV, DVR, Q, BF, FQ, FAI, MS, TEW, CST and their declared types |
| Records.StaticAnalogRow | plugin_example/write_plugin.go:589-594 | a static analog record becomes a well-typed row on its `.A` device, timestamped with its own P_NUM, with measurements TAGT … MD and their declared types |
| Records.StaticDigitalRow | plugin_example/write_plugin.go:645-650 | a static digital record becomes a well-typed row on its `.D` device, timestamped with its own P_NUM, with measurements FACK, CHN, PN, DESC, UNIT and their declared types |
| Records.AnalogRoundTrip | plugin_example/write_plugin.go:195-199 | reading an analog row back recovers the record: P_NUM, float bits, flags, TEW and CST (GLOBAL_ID is not stored) |
| Records.DigitalRoundTrip | plugin_example/write_plugin.go:361-365 | reading a digital row back recovers every stored field of the record |
| Records.StaticAnalogRoundTrip | plugin_example/write_plugin.go:589-594 | reading a static analog row back recovers TAGT, FACK, all flags, the four byte arrays in full, MU and MD |
| Records.StaticDigitalRoundTrip | plugin_example/write_plugin.go:645-650 | reading a static digital row back recovers FACK and the four byte arrays in full |
| Slicing.GoRemNonNegative | plugin_example/write_plugin.go:212 | for a non-negative index, Go's truncated `i % batchSize` is the remainder by `abs(batchSize)` |
| Slicing.CountStep | plugin_example/write_plugin.go:212 | appending row `i` submits a batch exactly when `i != 0 && i % batchSize == 0`, and that batch ends right after row `i` |
| Slicing.NormalBatches | plugin_example/write_plugin.go:205-227 | the number of batches submitted inside the per-record loop is `(n - 1) / abs(batchSize)` for `n` rows |
| Slicing.NormalCover | plugin_example/write_plugin.go:205-230 | the submitted batches followed by the remainder are exactly the input rows: none lost, duplicated or reordered |
| Slicing.NormalSizes | plugin_example/write_plugin.go:212 | the first submitted batch has `abs(batchSize) + 1` rows, every later one exactly `abs(batchSize)` |
| Slicing.NormalRestBound | plugin_example/write_plugin.go:228-230 | the synchronous remainder has at most `abs(batchSize)` rows, and is empty exactly when there are no rows or the last row closed a batch |
| Slicing.FlattenLength | plugin_example/write_plugin.go:288-289 | the number of rows in a list of sections is the sum of the section sizes |
| Slicing.GroupGreedy | plugin_example/write_plugin.go:260-287 | the section loop cuts only at section ends; every submitted group exceeds `batchSize` rows but did not before its last section; the pending sections never exceed `batchSize` |
| Slicing.GreedyUnique | plugin_example/write_plugin.go:260-287 | any grouping with those properties is the one the loop computes |
| Slicing.GroupCover | plugin_example/write_plugin.go:260-291 | the rows of the submitted groups followed by the pending rows are all the rows of all sections, in order |
| Slicing.GroupTotal | plugin_example/write_plugin.go:284-289 | the rows counted into submitted groups plus the pending rows are all the rows |
| WritePlugin.Params | plugin_example/write_plugin.go:50-57 | `login` always has at least one field to index |
| WritePlugin.ParseParams | plugin_example/write_plugin.go:50-76 | parsing fails (Go panics) exactly when there are fewer than eight fields; pool and batch sizes stay in the 32-bit range and are 0 when unparseable |
| WritePlugin.ParseDefaults | plugin_example/write_plugin.go:51-76 | a name without a comma gives host `xty111`, port `6667`, user and password `root`, pool size 1000, batch size 5000, root `root.sg` |
| WritePlugin.DefaultParams | plugin_example/write_plugin.go:50-54 | a parameter without a comma yields itself followed by the seven default fields |
| WritePlugin.DefaultSizes | plugin_example/write_plugin.go:73-74 | the default pool size `1000` and batch size `5000` parse without error |
| WritePlugin.ParsePositional | plugin_example/write_plugin.go:50-76 | with eight or more comma-separated fields, the settings are fields 1 to 7 by position |
| WritePlugin.AnalogRows | plugin_example/write_plugin.go:193-199 | one row per analog record, in input order: row `k` has the call's timestamp and record `k`'s device, and decodes back to record `k` (global id reset) |
| WritePlugin.DigitalRows | plugin_example/write_plugin.go:360-365 | one row per digital record, in input order: row `k` has the call's timestamp and record `k`'s device, and decodes back to record `k` |
| WritePlugin.StaticAnalogRows | plugin_example/write_plugin.go:588-594 | one row per static analog record, in input order: row `k` is timestamped with record `k`'s P_NUM, lies on its device, and decodes back to it |
| WritePlugin.StaticDigitalRows | plugin_example/write_plugin.go:644-650 | one row per static digital record, in input order: row `k` is timestamped with record `k`'s P_NUM, lies on its device, and decodes back to it |
| WritePlugin.AnalogSections | plugin_example/write_plugin.go:262-273 | section `i` becomes as many rows as it has records; row `k` of it carries `times[i]` and record `k`'s device, and decodes back to that record |
| WritePlugin.DigitalSections | plugin_example/write_plugin.go:425-436 | section `i` becomes as many rows as it has digital records; row `k` of it carries `times[i]` and record `k`'s device, and decodes back to that record |
| WritePlugin.Dispatches | plugin_example/write_plugin.go:202-203 | one dispatched, aligned submission per batch, holding as many rows as the batch |
| WritePlugin.Remainder | plugin_example/write_plugin.go:228-230 | at most one synchronous submission, and only when rows are left over |
| WritePlugin.LoggedDispatches | plugin_example/write_plugin.go:212-226 | the dispatched submissions hold the batches' rows in batch order |
| WritePlugin.LoggedRemainder | plugin_example/write_plugin.go:228-230 | the synchronous write holds exactly the leftover rows |
| WritePlugin.FastPlanRows | plugin_example/write_plugin.go:192-203 | a fast call submits exactly one batch, even for zero records, and it holds every row in input order |
| WritePlugin.NormalPlanRows | plugin_example/write_plugin.go:205-230 | a per-record call submits every row exactly once, in input order |
| WritePlugin.SectionPlanRows | plugin_example/write_plugin.go:260-291 | a section-list call submits every row of every section exactly once, in input order |
| WritePlugin.SummaryString | plugin_example/write_plugin.go:147-161 | the summary starts with the fast/normal label and ends with `deviceCount * 9` and the word for measurement points |
| WritePlugin.Plugin.constructor | plugin_example/write_plugin.go:26-40 | before `login` only the root `root.sg` is set; nothing is logged and no session is taken |
| WritePlugin.Plugin.Login | plugin_example/write_plugin.go:46-89 | stores exactly the parsed settings and creates both pools with capacity `conMaxSize` |
| WritePlugin.Plugin.Configure | plugin_example/write_plugin.go:61-86 | stores the given settings, creates both pools with capacity `conMaxSize`, and logs nothing |
| WritePlugin.Plugin.Logout | plugin_example/write_plugin.go:91-98 | waits for the workers, then releases the worker pool, then closes the session pool, in that order; settings and log unchanged |
| WritePlugin.Plugin.InsertData | plugin_example/write_plugin.go:129-135 | one session taken and one put back; one submission logged, written only when a session was obtained |
| WritePlugin.Plugin.Dispatch | plugin_example/write_plugin.go:202-203 | `wg.Add(1)` is matched by the worker's `wg.Done()`; the batch is logged as dispatched; sessions stay balanced |
| WritePlugin.Plugin.SubmitFast | plugin_example/write_plugin.go:192-203 | the fast loop appends exactly `FastPlan` to the log |
| WritePlugin.Plugin.SubmitNormal | plugin_example/write_plugin.go:205-230 | the per-record loop appends exactly `NormalPlan`: the batches of the slicing rule, then the remainder |
| WritePlugin.NormalTurn | plugin_example/write_plugin.go:206-226 | appending row `i` either closes batch number `c`, which is exactly the pending rows plus row `i`, or leaves the batch count unchanged and extends the pending batch |
| WritePlugin.Plugin.NextRow | plugin_example/write_plugin.go:206-226 | one turn of the per-record loop keeps the loop's relation between the pending batch, the batch count and the dispatched batches |
| WritePlugin.Plugin.NormalRow | plugin_example/write_plugin.go:206-226 | the row is appended; when `i != 0 && i % batchSize == 0` the batch is dispatched and emptied, otherwise nothing is logged |
| WritePlugin.Plugin.SubmitSections | plugin_example/write_plugin.go:260-291 | the section loop appends exactly `SectionPlan` (the greedy groups, then the rest); `totalCount` ends as the sum of the section sizes |
| WritePlugin.SectionTurn | plugin_example/write_plugin.go:263-286 | one section turn on the loop's own variables is one step of the greedy grouping: a flush adds the pending rows plus the section as one dispatched group, otherwise the section joins the pending rows |
| WritePlugin.Plugin.NextSection | plugin_example/write_plugin.go:263-286 | one section turn: counters, pending batch and log move to the next step of the greedy grouping |
| WritePlugin.Plugin.AddSection | plugin_example/write_plugin.go:263-286 | the section's rows are appended; once the running count exceeds `batchSize` the batch is dispatched, counted into `totalCount`, and batch and count are reset; otherwise nothing is logged |
| WritePlugin.Plugin.WriteRest | plugin_example/write_plugin.go:228-230 | a non-empty leftover batch is written synchronously; an empty one is not |
| WritePlugin.Plugin.WriteRtAnalog | plugin_example/write_plugin.go:180-235 | logs `FastPlan` or `NormalPlan` of the analog rows and returns the summary for `count` records |
| WritePlugin.Plugin.WriteRtDigital | plugin_example/write_plugin.go:346-397 | the same for digital records |
| WritePlugin.Plugin.WriteRtAnalogList | plugin_example/write_plugin.go:246-293 | logs `SectionPlan` of the sections; the report counts the sum of `array_count` and is always labelled fast and analog |
| WritePlugin.Plugin.WriteRtDigitalList | plugin_example/write_plugin.go:408-456 | the same for digital sections; labelled fast |
| WritePlugin.Plugin.WriteHisAnalog | plugin_example/write_plugin.go:465-500 | logs `NormalPlan` of the rows and reports the record count |
| WritePlugin.Plugin.WriteHisDigital | plugin_example/write_plugin.go:509-545 | logs `NormalPlan` of the digital rows |
| WritePlugin.Plugin.WriteStaticAnalog | plugin_example/write_plugin.go:575-612 | logs `NormalPlan` of the static analog rows |
| WritePlugin.Plugin.WriteStaticDigital | plugin_example/write_plugin.go:631-668 | logs `NormalPlan` of the static digital rows |
| Verification.FirstDiffNone | session_example/test.go:949-955 | a record pair passes from field `j` on exactly when the rest of the first record is present in the second and equal |
| Verification.FirstDiffSome | session_example/test.go:949-955 | the reported field is the first one that differs or is missing; all earlier fields agree |
| Verification.RowPasses | session_example/test.go:949-955 | a pair passes exactly when the exported record is a prefix of the source record |
| Verification.CompareConsistent | session_example/test.go:938-958 | success exactly when every pair both streams supply passes; records beyond the shorter stream are never looked at |
| Verification.CompareMismatch | session_example/test.go:949-953 | a reported mismatch is the first differing field of the first failing pair, and the fields before it agree |
| Verification.CompareOutOfRange | session_example/test.go:950 | an index panic happens exactly at a source record that is a proper prefix of its exported record |
| Verification.VerifyRecord | session_example/test.go:938-958 | the lockstep loop returns the reference verdict `Compare` |
| Verification.Remain5 | session_example/test.go:592-598 | only fields 2, 3 and 7 are rewritten; the length is unchanged |
| Verification.Round | session_example/test.go:615-619 | rounding keeps the length; an analog record changes only in fields 2, 3 and 7, a digital record not at all |
| Verification.ExportRow | session_example/test.go:608-620 | skipped exactly when the first field is empty or `Time`; a panic exactly for an empty record, a time shorter than six characters, or an analog record left with fewer than eight fields; every other record is emitted: the time loses its last six characters, a 12-field record loses column 1, and every other field is kept, except that analog fields 2, 3 and 7 are rounded |
| Verification.Lowered | session_example/test.go:623-628 | lowering keeps the record's length |
| Verification.LoweredIdempotent | session_example/test.go:623-628 | applying `boolLower` twice equals applying it once |
| Verification.BoolLower | session_example/test.go:623-628 | the in-place loop leaves the record with exactly the listed fields lower-cased and all others unchanged |
| Verification.SourceRow | session_example/test.go:638-659 | a source record is kept exactly when it is a full data record and, for test 613, of point "1", with a timestamp at or after the start; kept records have their boolean fields lowered; it panics exactly when it is empty, or is a non-header record that reaches a missing field (field 1 for test 613, or fewer than nine fields once it has passed the point and time filters); every other record (blank, header, other point, too early) is skipped |
| Verification.Converted | session_example/test.go:647-648 | a selected record keeps its length, time and point fields, and has each boolean field lower-cased |
| Verification.StreamConcat | session_example/test.go:600-621 | reading two parts of a file sends what each part sends, in order; a panic in either part is a panic |
| Verification.StreamShorter | session_example/test.go:600-621 | a stream never sends more records than it reads |
| Verification.Stream | session_example/test.go:600-621 | a reader goroutine sends, in order, what each record it reads sends, and panics exactly when some record panics |
| Verification.StreamEmits | session_example/test.go:600-621 | when every record is sent, the stream is exactly those records, one per record, in order |
| Verification.StreamAfterHeader | session_example/test.go:600-621 | a skipped header followed by records that are all sent streams exactly those records, in order |
| Verification.ExportStream | session_example/test.go:600-621 | the export reader panics exactly when some record panics; an export file of a `Time` header and data records streams one record per data record, in order, with the nanoseconds dropped and the device column of a 12-field record removed (the digital reader, lines 674-693, is the same with `kind` digital) |
| Verification.SourceStream | session_example/test.go:630-661 | the source reader panics exactly when some record panics; a source file of a `TIME` header and kept records streams exactly the converted records, in order (the digital reader, lines 702-731, is the same with `kind` digital) |
| Verification.Classify | session_example/test.go:770-789 | a data record of 12 fields is Full exactly when its time has at least six characters (it then loses its nanoseconds and device column) and panics otherwise; one of 11 fields is always Short and gets time "0"; an empty record panics; every other length, a blank and a header record are skipped; `id` is the 32-bit parse of the point-number field |
| Verification.HisStepValid | session_example/test.go:775-798 | one record keeps the buffer size, keeps the counter in 1..slots+1, and sends whole buffers only |
| Verification.HisRun | session_example/test.go:756-800 | every reachable regrouping state is valid |
| Verification.HisFlushStep | session_example/test.go:770-796 | with the counter at `slots + 1`, the next 12-field record sends slots 1..`slots` of the buffer, is stored at its P_NUM (a P_NUM outside the buffer panics) and leaves the counter at 2; an 11-field record sends the same and is dropped, leaving the counter at 1 |
| Verification.HisRunNoneExtends | session_example/test.go:756-800 | once the regrouping goroutine panics, it stays panicked |
| Verification.Regroup | session_example/test.go:756-800 | the array-backed regrouping loop sends exactly the reference output, or panics exactly when it does |
| Verification.HisHandle | session_example/test.go:770-798 | one turn of the loop on the array and counter is one step of the reference state machine |
| Verification.SendSlots | session_example/test.go:776-779 | the flush sends slots 1 to `slots` in order |
| Verification.FillStep | session_example/test.go:782-783 | storing a record of a section causes no flush and keeps the records stored before it |
| Verification.SectionFill | session_example/test.go:770-783 | from a state holding the first `m` records of a section with the counter at `m + 1`, the records `m..j` are stored at their point numbers, the counter reaches `j + 1`, and nothing is sent |
| Verification.HisSection | session_example/test.go:756-800 | a section arriving at counter 1 (the file's first section, or one after an 11-field trigger) or at counter `slots + 1` (every later section of a 12-field export, whose first record flushes the section before) sends nothing of its own and leaves the counter at `slots + 1`, so the next section meets the same precondition; the next 11- or 12-field record sends all of it, each record at position P_NUM; records still buffered at the end are never sent |
| Verification.SectionStart | session_example/test.go:770-796 | after a whole section, from counter 1 or `slots + 1`, the counter is `slots + 1`, every record of the section sits at its P_NUM, and what was sent is what was sent before plus, from `slots + 1`, the previous buffer |
| Verification.FlushedStart | session_example/test.go:770-783 | a section arriving at counter `slots + 1`: its first record flushes the previous buffer and is stored, then the rest are stored |
| Verification.SectionTrigger | session_example/test.go:770-796 | with a full section stored at counter `slots + 1`, the next 11- or 12-field record appends exactly `slots` records to the output, record `k` at position P_NUM |
| Verification.HisRunAppend | session_example/test.go:756-800 | running the goroutine on further records is stepping through their classifications from the state reached so far |
| Seeding.WrapInt64 | session_example/test.go:986 | `int64` arithmetic: the result lies in the signed 64-bit range and differs from the exact value by a multiple of 2^64 |
| Seeding.Tablet.constructor | session_example/test.go:971 | a new tablet with the given device, measurements and capacity, and no rows |
| Seeding.Tablet.SetTimestamp | session_example/test.go:986 | sets the timestamp of one row and no other |
| Seeding.Tablet.SetValueAt | session_example/test.go:987 | sets one cell and no other |
| Seeding.DataRecords | session_example/test.go:979-981 | the data records are neither empty nor the header, and there are no more of them than records |
| Seeding.DataRecordsPrefix | session_example/test.go:974-991 | reading further only appends data records |
| Seeding.ParseInt64 | session_example/test.go:982 | a successful parse lies in the signed 64-bit range |
| Seeding.Fill | session_example/test.go:973-991 | data records fill consecutive rows from 0; `RowSize` ends as their count; each row holds its record's timestamp times 10^6 and its parsed values |
| Seeding.FillRow | session_example/test.go:982-988 | one record fills its row's timestamp and every value column and leaves earlier rows as they were |
| Seeding.InsertData43 | session_example/test.go:960-997 | a `.d43` tablet of capacity 100000 with one DOUBLE column `DATA`, filled as above |
| Seeding.InsertData45 | session_example/test.go:1061-1108 | a `.d45` tablet of capacity 105 with INT64 columns `DATA_A`, `DATA_B`, `DATA_C`, filled as above |
| Seeding.Device46 | session_example/test.go:1114-1119 | the device is `.d46A` if and only if the path contains `A.csv`, and `.d46B` otherwise |
| Seeding.InsertData46 | session_example/test.go:1110-1153 | a tablet of capacity 40 on `Device46`, filled as above |
| Seeding.GapSnoc | session_example/test.go:1026-1037 | one more step of the filler loop adds exactly one filler, 400 ms after the previous one |
| Seeding.GridStep | session_example/test.go:1025-1042 | the grid so far, the fillers up to the next record, and that record form the grid one record further |
| Seeding.TimelineIsGrid | session_example/test.go:1013-1042 | fillers and records together are exactly 0, 400, 800, … up to the last record, each step once |
| Seeding.FillersCount | session_example/test.go:1025-1041 | each grid step is either a record or a filler |
| Seeding.NanosAll | session_example/test.go:1029 | one nanosecond stamp per filler |
| Seeding.GapFill | session_example/test.go:1013-1042 | the filler loop writes exactly the reference fillers, in order, at `(pre + 400) * 1000000` |
| Seeding.FillGap | session_example/test.go:1025-1041 | the inner loop writes one filler at each 400 ms step strictly between the two timestamps |
| Seeding.InsertData44 | session_example/test.go:999-1059 | the fillers of the gap loop, then a `.d44` tablet filled like `insertData43` |
| Seeding.Times | session_example/test.go:1022 | one timestamp per data record |
| Seeding.WindowInSection | session_example/test.go:253-260 | the window `start..end` is 101 lines and lies inside the last section whenever a section has at least 101 lines |
| Seeding.Windows651 | session_example/test.go:253-260 | with 150, 350, 59850 and 139650 points per section, all four windows are 101 lines and start after the header |

## Left out

- The IoTDB client and its session pool are not modelled. This covers `GetSession`, `PutBack`, `InsertRecords`, `InsertRecord` and `InsertTablet`. A session is taken and put back by counters. Whether a session is obtained is the constant `serverUp`, an input from the environment. The tablet is built but never sent.
- The `ants` worker pool, `sync.WaitGroup`, goroutines and channels run sequentially. A dispatched batch is written before the call returns. Concurrent completion order, and back-pressure when the pool is full, are not modelled.
- The C pointer casts of the input arrays are not modelled; records arrive as sequences. `write_plugin.c` is not part of this model.
- Floating point is not modelled. `AV`, `AVR`, `FAI`, `MU` and `MD` are opaque 32-bit patterns, and the tablet doubles are opaque 64-bit patterns. `remain5`'s `ParseFloat` and `%.5f` formatting is the parameter `format`. `strconv.ParseFloat` is the parameter `parse`.
- The command-line flag overrides in `login` (`flag.StringVar`, `flag.Parse`) are not modelled: host, port, user and password are the positional fields. The printing, the timing (`time.Now`, `time.Sleep`), and `logout`'s elapsed-time message are also left out.
- `checkError`'s `log.Fatal` is modelled by preconditions that exclude the failing inputs, not as a process exit. This covers a timestamp or value that does not parse and a tablet row beyond its capacity. The `VerifySuccess` log line is left out.
- WritePlugin.Plugin.Login: a parameter with two to seven comma-separated fields makes one of `params[2]` … `params[7]` go out of range, and Go panics (`plugin_example/write_plugin.go:61-76`). The precondition `ParseParams(param).Success?` excludes it; `ParseParams` itself returns a failure for it.
- WritePlugin.Plugin.InsertData: an error returned by `InsertRecords` ends the process through `checkError`'s `log.Fatal` before `PutBack` (`plugin_example/write_plugin.go:132`, `:670-673`). The model treats every obtained session as written and always puts it back.
- WritePlugin.Plugin.Login: a second `login` (which redefines the flags and panics) is excluded by the precondition `phase == BeforeLogin`. Writes before `login` or after `logout` are excluded the same way.
- WritePlugin.Plugin.SubmitNormal: a zero `batchSize` with two or more rows divides by zero in Go. The precondition excludes it. A negative `batchSize` is modelled, and cuts at multiples of its absolute value.
- WritePlugin.Plugin.Login: a non-positive pool size is stored as given. What the client library does with such a pool is not modelled.
- Seeding.GapFill: the precondition `OnGrid` requires each timestamp to lie a positive multiple of 400 ms after the previous one. On any other file the Go loop in effect does not end: the timestamps 0 then 0 make it write fillers until `pretimestamp + 400` wraps around to 0, which takes 2^60 - 1 fillers (`session_example/test.go:1025-1041`). Filler stamps are computed without `int64` wrap-around of `pretimestamp + 400`.
- Seeding.Windows651: the section counts are unbounded integers; the `int64` overflow of `sectionCount * points` is not modelled. The `sed`, `tr` and `tac` pipeline that cuts and reverses the lines is shell I/O and is not modelled.
- Verification.BoolLower and `strings.ToLower` change only the ASCII letters A-Z. Non-ASCII case folding is not modelled.
- GoStrings.TrimSpace: removes only ASCII white space. Go's `strings.TrimSpace` also removes Unicode white space such as U+00A0, so a value like "12\u00A0" parses in Go but fails `Seeding.Fill`'s parse precondition here.
- `commonInsert`, `createMeasurements`, the CSV generators, the SQL helpers and the export script calls are not part of this model. They are file, shell or database I/O with no statable behaviour.

=== FILE: gostrings.dfy ===
/**
 * The few pieces of Go's `strings` and `strconv` packages that the plugin and
 * the test program rely on, with Go's own edge cases: `strings.Split` on a
 * one-character separator, `strconv.ParseInt` in base 10 (syntax and range
 * errors, clamping on overflow), the `%d` rendering of integers, ASCII
 * `strings.ToLower`, `strings.Contains` and `strings.TrimSpace`.
 */
module GoStrings {
  import opened Wrappers

  // ---------------------------------------------------------------------
  // strings.Split / join
  // ---------------------------------------------------------------------

  /** Number of occurrences of `c` in `s`. */
  function Count(s: string, c: char): nat
    decreases |s|
  {
    if |s| == 0 then 0 else (if s[0] == c then 1 else 0) + Count(s[1..], c)
  }

  /** The parts put back together with `sep` between them. */
  function Join(parts: seq<string>, sep: char): string
    decreases |parts|
  {
    if |parts| == 0 then ""
    else if |parts| == 1 then parts[0]
    else parts[0] + [sep] + Join(parts[1..], sep)
  }

  /**
   * `strings.Split(s, string(sep))`: the pieces between separators, so an
   * empty string yields one empty piece and there is always one piece more
   * than there are separators.
   */
  function Split(s: string, sep: char): (parts: seq<string>)
    ensures |parts| == Count(s, sep) + 1
    ensures forall k | 0 <= k < |parts| :: sep !in parts[k]
    ensures Join(parts, sep) == s
    decreases |s|
  {
    if |s| == 0 then [""]
    else
      var rest := Split(s[1..], sep);
      if s[0] == sep then
        assert Join([""] + rest, sep) == [sep] + Join(rest, sep);
        [""] + rest
      else
        var parts := [[s[0]] + rest[0]] + rest[1..];
        assert parts[1..] == rest[1..];
        assert Join(parts, sep) == [s[0]] + Join(rest, sep);
        parts
  }

  /** Without a separator in it, a string splits into itself alone. */
  lemma {:induction false} SplitNoSeparator(s: string, sep: char)
    requires sep !in s
    ensures Split(s, sep) == [s]
  {
    CountAbsent(s, sep);
  }

  lemma {:induction false} CountAbsent(s: string, c: char)
    requires c !in s
    ensures Count(s, c) == 0
    decreases |s|
  {
    if |s| > 0 {
      assert c !in s[1..];
      CountAbsent(s[1..], c);
    }
  }

  /** Splitting at the first separator peels off the leading field. */
  lemma {:induction false} SplitAfterField(a: string, sep: char, b: string)
    requires sep !in a
    ensures Split(a + [sep] + b, sep) == [a] + Split(b, sep)
    decreases |a|
  {
    var s := a + [sep] + b;
    if |a| == 0 {
      assert s[0] == sep && s[1..] == b;
    } else {
      assert s[0] == a[0] && s[0] != sep;
      assert s[1..] == a[1..] + [sep] + b;
      SplitAfterField(a[1..], sep, b);
      assert [a[0]] + a[1..] == a;
    }
  }

  /** Splitting fields joined by a separator none of them contains gives the fields back. */
  lemma {:induction false} SplitJoin(parts: seq<string>, sep: char)
    requires |parts| >= 1
    requires forall k | 0 <= k < |parts| :: sep !in parts[k]
    ensures Split(Join(parts, sep), sep) == parts
    decreases |parts|
  {
    if |parts| == 1 {
      SplitNoSeparator(parts[0], sep);
    } else {
      SplitJoin(parts[1..], sep);
      SplitAfterField(parts[0], sep, Join(parts[1..], sep));
    }
  }

  // ---------------------------------------------------------------------
  // Decimal digits, %d and strconv.Itoa
  // ---------------------------------------------------------------------

  predicate IsDigit(c: char) { '0' <= c <= '9' }

  function DigitValue(c: char): nat
    requires IsDigit(c)
  {
    (c as int - '0' as int) as nat
  }

  function DigitChar(d: nat): (c: char)
    requires d < 10
    ensures IsDigit(c) && DigitValue(c) == d
  {
    ('0' as int + d) as char
  }

  /** Decimal digits of a natural number, most significant first, no leading zeros. */
  function FormatNat(n: nat): (s: string)
    ensures |s| >= 1
    ensures forall k | 0 <= k < |s| :: IsDigit(s[k])
    decreases n
  {
    if n < 10 then [DigitChar(n)] else FormatNat(n / 10) + [DigitChar(n % 10)]
  }

  /** `%d` / `strconv.Itoa`: a minus sign in front of negative numbers. */
  function FormatInt(n: int): (s: string)
    ensures |s| >= 1 && '.' !in s && ',' !in s
    ensures n >= 0 <==> IsDigit(s[0])
  {
    var s := if n < 0 then "-" + FormatNat(-n) else FormatNat(n);
    assert forall k | 0 <= k < |s| :: s[k] == '-' || IsDigit(s[k]);
    s
  }

  // ---------------------------------------------------------------------
  // strconv.ParseInt(s, 10, bitSize)
  // ---------------------------------------------------------------------

  /** The error kinds of `strconv.NumError` that base-10 parsing can produce. */
  datatype NumError = ErrSyntax | ErrRange

  /** What `strconv.ParseUint`'s digit loop ends with. */
  datatype Scan = Digits(n: nat) | SyntaxError | RangeError

  /** 2^(bitSize-1): the magnitude of the most negative signed value. */
  function Cutoff(bitSize: nat): nat
    requires bitSize == 32 || bitSize == 64
  {
    if bitSize == 32 then 0x8000_0000 else 0x8000_0000_0000_0000
  }

  /** 2^bitSize - 1: the largest unsigned value. */
  function MaxUint(bitSize: nat): nat
    requires bitSize == 32 || bitSize == 64
  {
    2 * Cutoff(bitSize) - 1
  }

  /**
   * The digit loop of `strconv.ParseUint`: characters are read left to
   * right; a non-digit is a syntax error, and a running value above `max` is
   * a range error at once, whatever follows.
   */
  function ScanDigits(s: string, acc: nat, max: nat): Scan
    decreases |s|
  {
    if |s| == 0 then Digits(acc)
    else if !IsDigit(s[0]) then SyntaxError
    else
      var n := acc * 10 + DigitValue(s[0]);
      if n > max then RangeError else ScanDigits(s[1..], n, max)
  }

  /** `strconv.ParseUint(s, 10, bitSize)`, with the empty string a syntax error. */
  function ParseUint(s: string, bitSize: nat): (r: Scan)
    requires bitSize == 32 || bitSize == 64
    ensures r.Digits? ==> r.n <= MaxUint(bitSize)
  {
    if |s| == 0 then SyntaxError else ScanBounded(s, 0, MaxUint(bitSize)); ScanDigits(s, 0, MaxUint(bitSize))
  }

  lemma {:induction false} ScanBounded(s: string, acc: nat, max: nat)
    requires acc <= max
    ensures ScanDigits(s, acc, max).Digits? ==> ScanDigits(s, acc, max).n <= max
    decreases |s|
  {
    if |s| > 0 && IsDigit(s[0]) && acc * 10 + DigitValue(s[0]) <= max {
      ScanBounded(s[1..], acc * 10 + DigitValue(s[0]), max);
    }
  }

  /**
   * `strconv.ParseInt(s, 10, bitSize)`: the value and the error it reports.
   * A syntax error gives 0; a value out of the signed range gives the bound
   * nearest to it, with a range error.
   */
  function ParseInt(s: string, bitSize: nat): (r: (int, Option<NumError>))
    requires bitSize == 32 || bitSize == 64
    ensures -(Cutoff(bitSize) as int) <= r.0 < Cutoff(bitSize)
    ensures r.1 == Some(ErrSyntax) ==> r.0 == 0
    ensures r.1 == None ==> s != "" && (IsDigit(s[0]) || s[0] == '+' || s[0] == '-')
  {
    if |s| == 0 then (0, Some(ErrSyntax))
    else
      var neg := s[0] == '-';
      var body := if s[0] == '+' || s[0] == '-' then s[1..] else s;
      var cutoff: int := Cutoff(bitSize);
      var scan := ParseUint(body, bitSize);
      if scan.SyntaxError? then (0, Some(ErrSyntax))
      else
        var un: int := if scan.RangeError? then MaxUint(bitSize) else scan.n;
        if !neg && un >= cutoff then (cutoff - 1, Some(ErrRange))
        else if neg && un > cutoff then (-cutoff, Some(ErrRange))
        else (if neg then -un else un, if scan.RangeError? then Some(ErrRange) else None)
  }

  /** `v, _ := strconv.ParseInt(s, 10, bitSize)`: the error thrown away. */
  function ParseIntLossy(s: string, bitSize: nat): int
    requires bitSize == 32 || bitSize == 64
  {
    ParseInt(s, bitSize).0
  }

  /** Scanning a concatenation scans the first part, then carries on. */
  lemma {:induction false} ScanAppend(a: string, b: string, acc: nat, max: nat)
    ensures ScanDigits(a + b, acc, max) ==
      (match ScanDigits(a, acc, max)
       case Digits(m) => ScanDigits(b, m, max)
       case other => other)
    decreases |a|
  {
    if |a| > 0 {
      assert (a + b)[0] == a[0] && (a + b)[1..] == a[1..] + b;
      if IsDigit(a[0]) && acc * 10 + DigitValue(a[0]) <= max {
        ScanAppend(a[1..], b, acc * 10 + DigitValue(a[0]), max);
      }
    } else {
      assert a + b == b;
    }
  }

  /** The digits of `n` scan back to `n`. */
  lemma {:induction false} ScanFormatNat(n: nat, max: nat)
    requires n <= max
    ensures ScanDigits(FormatNat(n), 0, max) == Digits(n)
    decreases n
  {
    if n >= 10 {
      ScanFormatNat(n / 10, max);
      ScanAppend(FormatNat(n / 10), [DigitChar(n % 10)], 0, max);
      assert ScanDigits([DigitChar(n % 10)], n / 10, max) == ScanDigits([], n, max);
    } else {
      assert ScanDigits([DigitChar(n)], 0, max) == ScanDigits([], n, max);
    }
  }

  /** Parsing what `%d` printed gives the number back, without error. */
  lemma ParseFormatInt(n: int, bitSize: nat)
    requires bitSize == 32 || bitSize == 64
    requires -(Cutoff(bitSize) as int) <= n < Cutoff(bitSize)
    ensures ParseInt(FormatInt(n), bitSize) == (n, None)
  {
    var s := FormatInt(n);
    if n < 0 {
      assert s[1..] == FormatNat(-n);
      ScanFormatNat(-n, MaxUint(bitSize));
    } else {
      ScanFormatNat(n, MaxUint(bitSize));
    }
  }

  /** `%d` never prints two numbers the same way. */
  lemma FormatIntInjective(m: int, n: int)
    requires FormatInt(m) == FormatInt(n)
    ensures m == n
  {
    var bound := (if m < 0 then -m else m) + (if n < 0 then -n else n);
    ParseFormatWide(m, bound);
    ParseFormatWide(n, bound);
  }

  /** The digits of any integer scan back to its magnitude. */
  lemma ParseFormatWide(n: int, bound: nat)
    requires (if n < 0 then -n else n) <= bound
    ensures var s := FormatInt(n);
      if n < 0 then s[0] == '-' && ScanDigits(s[1..], 0, bound) == Digits(-n)
      else ScanDigits(s, 0, bound) == Digits(n)
  {
    var s := FormatInt(n);
    if n < 0 {
      assert s[1..] == FormatNat(-n);
      ScanFormatNat(-n, bound);
    } else {
      ScanFormatNat(n, bound);
    }
  }

  // ---------------------------------------------------------------------
  // strings.ToLower, strings.Contains, strings.TrimSpace
  // ---------------------------------------------------------------------

  /** Lower-case of one character; only the ASCII letters A-Z change. */
  function LowerChar(c: char): char
  {
    if 'A' <= c <= 'Z' then (c as int - 'A' as int + 'a' as int) as char else c
  }

  /** `strings.ToLower`, restricted to the ASCII letters. */
  function ToLower(s: string): (r: string)
    ensures |r| == |s|
    ensures forall k | 0 <= k < |r| :: !('A' <= r[k] <= 'Z')
    ensures forall k | 0 <= k < |s| :: 'A' <= s[k] <= 'Z' ==> r[k] as int == s[k] as int + 32
    ensures forall k | 0 <= k < |s| :: !('A' <= s[k] <= 'Z') ==> r[k] == s[k]
  {
    seq(|s|, k requires 0 <= k < |s| => LowerChar(s[k]))
  }

  /** Lower-casing twice is lower-casing once. */
  lemma ToLowerIdempotent(s: string)
    ensures ToLower(ToLower(s)) == ToLower(s)
  {
    var once := ToLower(s);
    assert forall k | 0 <= k < |s| :: LowerChar(once[k]) == once[k];
  }

  /** `sub` occurs in `s` starting at index `k`. */
  predicate OccursAt(s: string, sub: string, k: int)
  {
    0 <= k <= |s| - |sub| && s[k..k + |sub|] == sub
  }

  /** `strings.Contains(s, sub)`. */
  function Contains(s: string, sub: string): (r: bool)
    ensures r <==> exists k :: OccursAt(s, sub, k)
    decreases |s|
  {
    if |sub| > |s| then false
    else if s[..|sub|] == sub then assert OccursAt(s, sub, 0); true
    else
      var r := Contains(s[1..], sub);
      assert r ==> exists k :: OccursAt(s, sub, k) by {
        if r {
          var j :| OccursAt(s[1..], sub, j);
          assert s[j + 1..j + 1 + |sub|] == s[1..][j..j + |sub|];
          assert OccursAt(s, sub, j + 1);
        }
      }
      assert (exists k :: OccursAt(s, sub, k)) ==> r by {
        if exists k :: OccursAt(s, sub, k) {
          var k :| OccursAt(s, sub, k);
          assert k != 0;
          assert s[1..][k - 1..k - 1 + |sub|] == s[k..k + |sub|];
          assert OccursAt(s[1..], sub, k - 1);
        }
      }
      r
  }

  /** The ASCII white space that `strings.TrimSpace` removes. */
  predicate IsSpace(c: char)
  {
    c == ' ' || c == '\t' || c == '\n' || c == '\r' || c == '\U{0B}' || c == '\U{0C}'
  }

  /** `s[i..j]` is what is left once every character outside it, at both ends, is white space. */
  predicate TrimmedAt(s: string, i: int, j: int)
  {
    0 <= i <= j <= |s|
    && (forall k | 0 <= k < i :: IsSpace(s[k]))
    && (forall k | j <= k < |s| :: IsSpace(s[k]))
  }

  /**
   * `strings.TrimSpace`, for ASCII white space: the slice left after removing
   * all leading and all trailing white space, and no more.
   */
  function TrimSpace(s: string): (r: string)
    ensures |r| <= |s|
    ensures r != [] ==> !IsSpace(r[0]) && !IsSpace(r[|r| - 1])
    ensures exists i, j :: TrimmedAt(s, i, j) && r == s[i..j]
    decreases |s|
  {
    if |s| > 0 && IsSpace(s[0]) then
      var r := TrimSpace(s[1..]);
      ghost var i, j :| TrimmedAt(s[1..], i, j) && r == s[1..][i..j];
      TrimmedOfTail(s, i, j);
      r
    else if |s| > 0 && IsSpace(s[|s| - 1]) then
      var r := TrimSpace(s[..|s| - 1]);
      ghost var i, j :| TrimmedAt(s[..|s| - 1], i, j) && r == s[..|s| - 1][i..j];
      TrimmedOfInit(s, i, j);
      r
    else
      assert TrimmedAt(s, 0, |s|) && s == s[0..|s|];
      s
  }

  lemma TrimmedOfTail(s: string, i: int, j: int)
    requires |s| > 0 && IsSpace(s[0]) && TrimmedAt(s[1..], i, j)
    ensures TrimmedAt(s, i + 1, j + 1) && s[1..][i..j] == s[i + 1..j + 1]
  {
    forall k | 0 < k < i + 1
      ensures IsSpace(s[k])
    {
      assert s[k] == s[1..][k - 1];
    }
    forall k | j + 1 <= k < |s|
      ensures IsSpace(s[k])
    {
      assert s[k] == s[1..][k - 1];
    }
  }

  lemma TrimmedOfInit(s: string, i: int, j: int)
    requires |s| > 0 && IsSpace(s[|s| - 1]) && TrimmedAt(s[..|s| - 1], i, j)
    ensures TrimmedAt(s, i, j) && s[..|s| - 1][i..j] == s[i..j]
  {
    forall k | 0 <= k < i
      ensures IsSpace(s[k])
    {
      assert s[k] == s[..|s| - 1][k];
    }
    forall k | j <= k < |s| - 1
      ensures IsSpace(s[k])
    {
      assert s[k] == s[..|s| - 1][k];
    }
  }
}

=== FILE: plugin.dfy ===
/**
 * The write plugin: the package-level state that `login` sets up, the
 * `insertData` wrapper around one session, and the eight `write_*` entry
 * points that turn C record arrays into batches of rows.
 *
 * The package globals become the fields of one `Plugin` object.  The worker
 * pool runs sequentially here: a dispatch (`wg.Add(1)`, `Invoke`) runs the
 * worker at once, which calls `insertData` and then `wg.Done()`.  Every call
 * of `insertData` is recorded in the ghost log `log`, marked as dispatched
 * to the pool or written synchronously, and with whether a session was
 * obtained so that `InsertRecords` was issued.
 */
module WritePlugin {
  import opened Wrappers
  import opened GoStrings
  import opened Records
  import opened Slicing

  // ---------------------------------------------------------------------
  // login's parameter string
  // ---------------------------------------------------------------------

  /** The fields appended to a parameter that names nothing else: host, port, user, password, pool size, batch size, root. */
  const DefaultFields: seq<string> := ["xty111", "6667", "root", "root", "1000", "5000", "root.sg"]

  /** What `login` takes from its parameter; the leading name is only printed. */
  datatype Config = Config(
    host: string, port: string, user: string, password: string,
    conMaxSize: int, batchSize: int, baseRoot: string)

  /** The fields `login` indexes: the parameter split at commas, or, without a comma, the parameter followed by the defaults. */
  function Params(param: string): (ps: seq<string>)
    ensures |ps| >= 1
  {
    var ps := Split(param, ',');
    if |ps| == 1 then Split(param + [','] + Join(DefaultFields, ','), ',') else ps
  }

  /**
   * The configuration `login` reads from its parameter.  With fewer than
   * eight fields Go indexes past the end of the slice and panics; pool and
   * batch sizes are parsed as 32-bit integers with the error discarded.
   */
  function ParseParams(param: string): (r: Result<Config, string>)
    ensures r.Success? <==> |Params(param)| >= 8
    ensures r.Success? ==> -0x8000_0000 <= r.value.conMaxSize < 0x8000_0000
    ensures r.Success? ==> -0x8000_0000 <= r.value.batchSize < 0x8000_0000
    ensures r.Success? && ParseInt(Params(param)[5], 32).1 == Some(ErrSyntax) ==> r.value.conMaxSize == 0
    ensures r.Success? && ParseInt(Params(param)[6], 32).1 == Some(ErrSyntax) ==> r.value.batchSize == 0
  {
    var ps := Params(param);
    if |ps| < 8 then Failure("index out of range")
    else Success(Config(ps[1], ps[2], ps[3], ps[4], ParseIntLossy(ps[5], 32), ParseIntLossy(ps[6], 32), ps[7]))
  }

  /** A parameter without a comma gets host `xty111`, port `6667`, user and password `root`, pool size 1000, batch size 5000 and root `root.sg`. */
  lemma ParseDefaults(name: string)
    requires ',' !in name
    ensures ParseParams(name) == Success(Config("xty111", "6667", "root", "root", 1000, 5000, "root.sg"))
  {
    DefaultParams(name);
    DefaultSizes();
  }

  /** Without a comma the fields are the parameter followed by the defaults. */
  lemma DefaultParams(name: string)
    requires ',' !in name
    ensures Params(name) == [name] + DefaultFields
  {
    SplitNoSeparator(name, ',');
    var fields := [name] + DefaultFields;
    assert fields[1..] == DefaultFields;
    assert Join(fields, ',') == name + [','] + Join(DefaultFields, ',');
    SplitJoin(fields, ',');
  }

  /** The default pool and batch sizes parse without error. */
  lemma DefaultSizes()
    ensures ParseIntLossy(DefaultFields[4], 32) == 1000
    ensures ParseIntLossy(DefaultFields[5], 32) == 5000
  {
    assert FormatInt(1000) == DefaultFields[4];
    ParseFormatInt(1000, 32);
    assert FormatInt(5000) == DefaultFields[5];
    ParseFormatInt(5000, 32);
  }


  /** With commas, the fields are taken by position, whatever follows the eighth. */
  lemma ParsePositional(fields: seq<string>)
    requires |fields| >= 8
    requires forall k | 0 <= k < |fields| :: ',' !in fields[k]
    ensures ParseParams(Join(fields, ',')) == Success(Config(fields[1], fields[2], fields[3], fields[4],
      ParseIntLossy(fields[5], 32), ParseIntLossy(fields[6], 32), fields[7]))
  {
    SplitJoin(fields, ',');
  }

  // ---------------------------------------------------------------------
  // Rows of a call, and the submissions they turn into
  // ---------------------------------------------------------------------

  /**
   * The rows of one call: row `k` carries the call's timestamp and the device of
   * record `k`, and reading it back gives record `k` (without its global id).
   */
  function AnalogRows(root: string, unit: int64, timestamp: int, analogs: seq<Analog>): (rows: seq<Row>)
    ensures |rows| == |analogs|
    ensures forall k | 0 <= k < |rows| :: (rows[k].timestamp == timestamp
        && rows[k].device == DevicePath(root, unit, 'A', analogs[k].pNum)
        && AnalogFromRow(rows[k]) == Some(analogs[k].(globalId := 0)))
  {
    var rs := seq(|analogs|, k requires 0 <= k < |analogs| => AnalogRow(root, unit, timestamp, analogs[k]));
    assert forall k | 0 <= k < |rs| :: AnalogFromRow(rs[k]) == Some(analogs[k].(globalId := 0)) by {
      forall k | 0 <= k < |rs| {
        AnalogRoundTrip(root, unit, timestamp, analogs[k]);
      }
    }
    rs
  }

  function DigitalRows(root: string, unit: int64, timestamp: int, digitals: seq<Digital>): (rows: seq<Row>)
    ensures |rows| == |digitals|
    ensures forall k | 0 <= k < |rows| :: (rows[k].timestamp == timestamp
        && rows[k].device == DevicePath(root, unit, 'D', digitals[k].pNum)
        && DigitalFromRow(rows[k]) == Some(digitals[k].(globalId := 0)))
  {
    var rs := seq(|digitals|, k requires 0 <= k < |digitals| => DigitalRow(root, unit, timestamp, digitals[k]));
    assert forall k | 0 <= k < |rs| :: DigitalFromRow(rs[k]) == Some(digitals[k].(globalId := 0)) by {
      forall k | 0 <= k < |rs| {
        DigitalRoundTrip(root, unit, timestamp, digitals[k]);
      }
    }
    rs
  }

  /** Static rows: each is stamped with its own record's P_NUM instead of a call time. */
  function StaticAnalogRows(root: string, unit: int64, records: seq<StaticAnalog>): (rows: seq<Row>)
    ensures |rows| == |records|
    ensures forall k | 0 <= k < |rows| :: (rows[k].timestamp == records[k].pNum
        && rows[k].device == DevicePath(root, unit, 'A', records[k].pNum)
        && StaticAnalogFromRow(rows[k]) == Some(records[k].(globalId := 0)))
  {
    var rs := seq(|records|, k requires 0 <= k < |records| => StaticAnalogRow(root, unit, records[k]));
    assert forall k | 0 <= k < |rs| :: StaticAnalogFromRow(rs[k]) == Some(records[k].(globalId := 0)) by {
      forall k | 0 <= k < |rs| {
        StaticAnalogRoundTrip(root, unit, records[k]);
      }
    }
    rs
  }

  function StaticDigitalRows(root: string, unit: int64, records: seq<StaticDigital>): (rows: seq<Row>)
    ensures |rows| == |records|
    ensures forall k | 0 <= k < |rows| :: (rows[k].timestamp == records[k].pNum
        && rows[k].device == DevicePath(root, unit, 'D', records[k].pNum)
        && StaticDigitalFromRow(rows[k]) == Some(records[k].(globalId := 0)))
  {
    var rs := seq(|records|, k requires 0 <= k < |records| => StaticDigitalRow(root, unit, records[k]));
    assert forall k | 0 <= k < |rs| :: StaticDigitalFromRow(rs[k]) == Some(records[k].(globalId := 0)) by {
      forall k | 0 <= k < |rs| {
        StaticDigitalRoundTrip(root, unit, records[k]);
      }
    }
    rs
  }

  /**
   * The rows of each section of a section list: every row of section `i` is
   * stamped with that section's time and reads back as its record.
   */
  function AnalogSections(root: string, unit: int64, times: seq<int64>, sections: seq<seq<Analog>>): (secs: seq<seq<Row>>)
    requires |times| == |sections|
    ensures |secs| == |sections|
    ensures forall i | 0 <= i < |secs| :: |secs[i]| == |sections[i]|
    ensures forall i, k | 0 <= i < |secs| && 0 <= k < |secs[i]| :: (secs[i][k].timestamp == times[i]
        && secs[i][k].device == DevicePath(root, unit, 'A', sections[i][k].pNum)
        && AnalogFromRow(secs[i][k]) == Some(sections[i][k].(globalId := 0)))
  {
    seq(|sections|, i requires 0 <= i < |sections| => AnalogRows(root, unit, times[i], sections[i]))
  }

  function DigitalSections(root: string, unit: int64, times: seq<int64>, sections: seq<seq<Digital>>): (secs: seq<seq<Row>>)
    requires |times| == |sections|
    ensures |secs| == |sections|
    ensures forall i | 0 <= i < |secs| :: |secs[i]| == |sections[i]|
    ensures forall i, k | 0 <= i < |secs| && 0 <= k < |secs[i]| :: (secs[i][k].timestamp == times[i]
        && secs[i][k].device == DevicePath(root, unit, 'D', sections[i][k].pNum)
        && DigitalFromRow(secs[i][k]) == Some(sections[i][k].(globalId := 0)))
  {
    seq(|sections|, i requires 0 <= i < |sections| => DigitalRows(root, unit, times[i], sections[i]))
  }

  /** One call of `insertData`: the batch, whether it went through the worker pool, and whether `InsertRecords` was issued. */
  datatype Submission = Submission(data: Data, async: bool, written: bool)

  /** The submissions of a sequence of dispatched batches. */
  function Dispatches(batches: seq<seq<Row>>, written: bool): (log: seq<Submission>)
    ensures |log| == |batches|
    ensures forall k | 0 <= k < |log| :: log[k].async && log[k].data.Aligned() && log[k].data.RowCount() == |batches[k]|
  {
    seq(|batches|, k requires 0 <= k < |batches| => Submission(FromRows(batches[k]), true, written))
  }

  lemma DispatchesPrefix(batches: seq<seq<Row>>, written: bool, c: nat)
    requires c < |batches|
    ensures Dispatches(batches[..c + 1], written) ==
      Dispatches(batches[..c], written) + [Submission(FromRows(batches[c]), true, written)]
  {
  }

  /** The synchronous write of what is left after the loop, if anything is. */
  function Remainder(rest: seq<Row>, written: bool): (log: seq<Submission>)
    ensures |log| <= 1
    ensures forall k | 0 <= k < |log| :: !log[k].async && log[k].data.Aligned() && log[k].data.RowCount() == |rest| > 0
  {
    if |rest| > 0 then [Submission(FromRows(rest), false, written)] else []
  }

  /** The submissions of a fast real-time call: one dispatched batch with every row, even an empty one. */
  function FastPlan(rows: seq<Row>, written: bool): seq<Submission>
  {
    Dispatches([rows], written)
  }

  /** The submissions of a per-record call: batches cut by `i % batchSize`, then the rest. */
  function NormalPlan(rows: seq<Row>, b: int, written: bool): seq<Submission>
    requires |rows| <= 1 || b != 0
  {
    Dispatches(NormalBatches(rows, b), written) + Remainder(NormalRest(rows, b), written)
  }

  /** The rows of each group of sections. */
  function GroupRows(groups: seq<seq<seq<Row>>>): (bs: seq<seq<Row>>)
    ensures |bs| == |groups|
  {
    seq(|groups|, k requires 0 <= k < |groups| => Flatten(groups[k]))
  }

  lemma GroupRowsAppend(groups: seq<seq<seq<Row>>>, p: seq<seq<Row>>)
    ensures GroupRows(groups + [p]) == GroupRows(groups) + [Flatten(p)]
  {
  }

  /** The submissions of a section-list call: greedy groups of whole sections, then the rest. */
  function SectionPlan(secs: seq<seq<Row>>, b: int, written: bool): seq<Submission>
  {
    var g := Group(secs, b);
    Dispatches(GroupRows(g.groups), written) + Remainder(Flatten(g.pending), written)
  }

  /** The plan split at the end of the loop: the dispatched groups, then the pending rows. */
  lemma SectionPlanSplit(secs: seq<seq<Row>>, b: int, written: bool, before: seq<Submission>)
    ensures var g := Group(secs, b);
      before + SectionPlan(secs, b, written)
        == (before + Dispatches(GroupRows(g.groups), written)) + Remainder(Flatten(g.pending), written)
  {
  }

  /** The rows of a log, in submission order. */
  function LoggedRows(log: seq<Submission>): seq<Row>
    requires forall k | 0 <= k < |log| :: log[k].data.Aligned()
    decreases |log|
  {
    if |log| == 0 then [] else LoggedRows(log[..|log| - 1]) + log[|log| - 1].data.Rows()
  }

  lemma {:induction false} LoggedRowsConcat(a: seq<Submission>, b: seq<Submission>)
    requires forall k | 0 <= k < |a| :: a[k].data.Aligned()
    requires forall k | 0 <= k < |b| :: b[k].data.Aligned()
    ensures LoggedRows(a + b) == LoggedRows(a) + LoggedRows(b)
    decreases |b|
  {
    if |b| > 0 {
      var n := |b| - 1;
      assert (a + b)[..|a + b| - 1] == a + b[..n];
      LoggedRowsConcat(a, b[..n]);
    } else {
      assert a + b == a;
    }
  }

  lemma {:induction false} LoggedDispatches(batches: seq<seq<Row>>, written: bool)
    ensures LoggedRows(Dispatches(batches, written)) == Flatten(batches)
    decreases |batches|
  {
    if |batches| > 0 {
      var n := |batches| - 1;
      DispatchesPrefix(batches, written, n);
      assert batches[..n + 1] == batches;
      LoggedDispatches(batches[..n], written);
      FromRowsRows(batches[n]);
      LoggedRowsConcat(Dispatches(batches[..n], written), [Submission(FromRows(batches[n]), true, written)]);
      assert LoggedRows([Submission(FromRows(batches[n]), true, written)]) == batches[n];
    }
  }

  lemma LoggedRemainder(rest: seq<Row>, written: bool)
    ensures LoggedRows(Remainder(rest, written)) == rest
  {
    if |rest| > 0 {
      FromRowsRows(rest);
      assert LoggedRows(Remainder(rest, written)) == LoggedRows([]) + rest;
    }
  }

  /** A fast call submits all its rows, in input order, in its single batch. */
  lemma FastPlanRows(rows: seq<Row>, written: bool)
    ensures |FastPlan(rows, written)| == 1
    ensures LoggedRows(FastPlan(rows, written)) == rows
  {
    LoggedDispatches([rows], written);
    assert Flatten([rows]) == Flatten([rows][..0]) + rows;
  }

  /** A per-record call submits every row once, in input order. */
  lemma NormalPlanRows(rows: seq<Row>, b: int, written: bool)
    requires |rows| <= 1 || b != 0
    ensures LoggedRows(NormalPlan(rows, b, written)) == rows
  {
    LoggedDispatches(NormalBatches(rows, b), written);
    LoggedRemainder(NormalRest(rows, b), written);
    LoggedRowsConcat(Dispatches(NormalBatches(rows, b), written), Remainder(NormalRest(rows, b), written));
    NormalCover(rows, b);
  }

  lemma {:induction false} FlattenEach(groups: seq<seq<seq<Row>>>)
    ensures Flatten(GroupRows(groups)) == Flatten(Flatten(groups))
    decreases |groups|
  {
    if |groups| > 0 {
      var n := |groups| - 1;
      assert groups == groups[..n] + [groups[n]];
      GroupRowsAppend(groups[..n], groups[n]);
      FlattenEach(groups[..n]);
      FlattenAppend(GroupRows(groups[..n]), Flatten(groups[n]));
      FlattenAppend(groups[..n], groups[n]);
      FlattenConcat(Flatten(groups[..n]), groups[n]);
    }
  }

  lemma LoggedGroups(g: Grouping<Row>, written: bool)
    ensures LoggedRows(Dispatches(GroupRows(g.groups), written)) == Flatten(Flatten(g.groups))
  {
    LoggedDispatches(GroupRows(g.groups), written);
    FlattenEach(g.groups);
  }

  /** A section-list call submits every row of every section once, in input order. */
  lemma SectionPlanRows(secs: seq<seq<Row>>, b: int, written: bool)
    ensures LoggedRows(SectionPlan(secs, b, written)) == Flatten(secs)
  {
    var g := Group(secs, b);
    LoggedGroups(g, written);
    LoggedRemainder(Flatten(g.pending), written);
    LoggedRowsConcat(Dispatches(GroupRows(g.groups), written), Remainder(Flatten(g.pending), written));
    GroupCover(secs, b);
  }

  // ---------------------------------------------------------------------
  // What the writers print
  // ---------------------------------------------------------------------

  /** The summary line of a real-time write: it reports `deviceCount * 9` measurements. */
  function SummaryString(deviceCount: int, isFast: bool, isAnalog: bool): (s: string)
    ensures |s| > |FormatInt(deviceCount * 9)| + 6
    ensures s[..3] == (if isFast then "快采点" else "普通点")
    ensures s[|s| - |FormatInt(deviceCount * 9)| - 3..] == FormatInt(deviceCount * 9) + " 测点"
  {
    var name := if isFast then "快采点" else "普通点";
    var kind := if isAnalog then "模拟量" else "数字量";
    var middle := " 写实时 " + kind + " OK，插入 " + FormatInt(deviceCount) + " 条数据，即IoTDB中的 ";
    var tail := FormatInt(deviceCount * 9) + " 测点";
    var s := name + middle + tail;
    assert |name| == 3 && s[..3] == name;
    assert s[|s| - |tail|..] == tail;
    s
  }

  // ---------------------------------------------------------------------
  // The plugin's package state
  // ---------------------------------------------------------------------

  datatype Phase = BeforeLogin | LoggedIn | LoggedOut

  /** What `logout` does to the pools, in order. */
  datatype Event = WaitAll | ReleaseWorkers | CloseSessions

  /** The complete shutdown sequence. */
  const Shutdown: seq<Event> := [WaitAll, ReleaseWorkers, CloseSessions]

  class Plugin {
    /** The globals `login` assigns: host, port, user, password, pool size, batch size and root. */
    var settings: Config
    var phase: Phase
    /** Capacities the session pool and the worker pool were created with. */
    var sessionCapacity: int
    var workerCapacity: int
    /** Whether the database accepts sessions; an input from the environment. */
    const serverUp: bool
    /** `GetSession` and `PutBack` calls. */
    var gets: nat
    var puts: nat
    /** `wg.Add(1)` and `wg.Done()` calls. */
    var added: nat
    var done: nat
    var events: seq<Event>
    ghost var log: seq<Submission>

    /**
     * Between calls every session taken has been put back, every dispatch has
     * been matched by its `Done`, one session was taken per logged write, and
     * both pools were created with `conMaxSize`.
     */
    ghost predicate Valid()
      reads this
    {
      && gets == puts
      && added == done
      && |log| == gets
      && (phase != BeforeLogin ==> sessionCapacity == settings.conMaxSize && workerCapacity == settings.conMaxSize)
      && events == (if phase == LoggedOut then Shutdown else [])
    }

    /** The package before `login`: only `baseRoot` has an initial value. */
    constructor (serverUp: bool)
      ensures Valid() && phase == BeforeLogin && this.serverUp == serverUp
      ensures settings.baseRoot == "root.sg" && settings.batchSize == 0 && settings.conMaxSize == 0
      ensures log == [] && gets == 0 && added == 0
    {
      settings := Config("", "", "", "", 0, 0, "root.sg");
      phase := BeforeLogin;
      sessionCapacity, workerCapacity := 0, 0;
      this.serverUp := serverUp;
      gets, puts, added, done := 0, 0, 0, 0;
      events := [];
      log := [];
    }

    /**
     * `login`: stores the parsed settings and creates both pools with
     * capacity `conMaxSize`.  A second call would define the command-line
     * flags again, which panics; so does a parameter with fewer than eight
     * fields.
     */
    method Login(param: string)
      requires Valid() && phase == BeforeLogin
      requires ParseParams(param).Success?
      modifies this
      ensures Valid() && phase == LoggedIn
      ensures settings == ParseParams(param).value
      ensures sessionCapacity == settings.conMaxSize && workerCapacity == settings.conMaxSize
      ensures log == old(log)
    {
      var config := ParseParams(param).value;
      Configure(config);
    }

    /** The assignments `login` makes once the parameter is parsed: the settings, then both pools. */
    method Configure(config: Config)
      requires Valid() && phase == BeforeLogin
      modifies this
      ensures Valid() && phase == LoggedIn
      ensures settings == config
      ensures sessionCapacity == settings.conMaxSize && workerCapacity == settings.conMaxSize
      ensures log == old(log)
    {
      settings := config;
      sessionCapacity := config.conMaxSize;
      workerCapacity := config.conMaxSize;
      phase := LoggedIn;
    }

    /** `logout`: waits for every dispatched batch, then releases the worker pool, then closes the session pool. */
    method Logout()
      requires Valid() && phase == LoggedIn
      modifies this
      ensures Valid() && phase == LoggedOut
      ensures events == old(events) + Shutdown
      ensures settings == old(settings) && log == old(log)
    {
      // wg.Wait() returns at once: added == done.
      events := events + [WaitAll];
      events := events + [ReleaseWorkers];
      events := events + [CloseSessions];
      phase := LoggedOut;
    }

    /** `insertData`: takes a session, writes the batch if that succeeded, and always puts the session back. */
    method InsertData(d: Data, ghost async: bool)
      requires phase == LoggedIn
      modifies this
      ensures gets == old(gets) + 1 && puts == old(puts) + 1
      ensures log == old(log) + [Submission(d, async, serverUp)]
      ensures settings == old(settings) && phase == old(phase) && events == old(events)
      ensures sessionCapacity == old(sessionCapacity) && workerCapacity == old(workerCapacity)
      ensures added == old(added) && done == old(done)
    {
      gets := gets + 1;
      var acquired := serverUp;
      log := log + [Submission(d, async, acquired)];
      puts := puts + 1;
    }

    /** `wg.Add(1); threadPool.Invoke(d)`, with the worker's `insertData(d); wg.Done()` run to completion. */
    method Dispatch(d: Data)
      requires Valid() && phase == LoggedIn
      modifies this
      ensures Valid()
      ensures log == old(log) + [Submission(d, true, serverUp)]
      ensures settings == old(settings) && phase == old(phase)
      ensures added == old(added) + 1
    {
      added := added + 1;
      InsertData(d, true);
      done := done + 1;
    }

    /** The fast path: every row goes into one batch, dispatched once. */
    method SubmitFast(rows: seq<Row>)
      requires Valid() && phase == LoggedIn
      modifies this
      ensures Valid() && settings == old(settings) && phase == old(phase)
      ensures log == old(log) + FastPlan(rows, serverUp)
    {
      var d := EmptyData;
      for i := 0 to |rows|
        invariant d == FromRows(rows[..i])
      {
        assert rows[..i + 1][..i] == rows[..i];
        d := d.Append(rows[i]);
      }
      assert rows[..|rows|] == rows;
      Dispatch(d);
    }

    /** The per-record loop: dispatch after row `i` when `i != 0 && i % batchSize == 0`, then write the rest. */
    method SubmitNormal(rows: seq<Row>)
      requires Valid() && phase == LoggedIn
      requires |rows| <= 1 || settings.batchSize != 0
      modifies this
      ensures Valid() && settings == old(settings) && phase == old(phase)
      ensures log == old(log) + NormalPlan(rows, old(settings.batchSize), serverUp)
    {
      var b := settings.batchSize;
      ghost var batches := NormalBatches(rows, b);
      ghost var c, start := 0, 0;
      var d := EmptyData;
      var i := 0;
      while i < |rows|
        invariant 0 <= start <= i <= |rows|
        invariant Valid() && settings == old(settings) && phase == old(phase)
        invariant c == BatchCount(i, b) && start == Cut(c, b) && c <= |batches|
        invariant d == FromRows(rows[start..i])
        invariant log == old(log) + Dispatches(batches[..c], serverUp)
      {
        d, c, start := NextRow(rows, b, i, d, c, start, old(log));
        i := i + 1;
      }
      assert batches[..c] == batches;
      assert rows[start..i] == rows[start..];
      WriteRest(d, rows[start..]);
    }

    /** One turn of the per-record loop, with the ghost batch count and batch start it advances. */
    method NextRow(rows: seq<Row>, b: int, i: nat, d: Data, ghost c: nat, ghost start: nat, ghost before: seq<Submission>)
      returns (d': Data, ghost c': nat, ghost start': nat)
      requires Valid() && phase == LoggedIn && b == settings.batchSize
      requires start <= i < |rows| && (|rows| <= 1 || b != 0)
      requires c == BatchCount(i, b) && start == Cut(c, b) && c <= |NormalBatches(rows, b)|
      requires d == FromRows(rows[start..i])
      requires log == before + Dispatches(NormalBatches(rows, b)[..c], serverUp)
      modifies this
      ensures Valid() && settings == old(settings) && phase == old(phase)
      ensures start' <= i + 1 && c' == BatchCount(i + 1, b) && start' == Cut(c', b)
      ensures c' <= |NormalBatches(rows, b)|
      ensures d' == FromRows(rows[start'..i + 1])
      ensures log == before + Dispatches(NormalBatches(rows, b)[..c'], serverUp)
    {
      NormalTurn(rows, b, i, d, c, start, serverUp);
      d' := NormalRow(d, rows[i], i, b);
      c', start' := c, start;
      if Fires(i, b) {
        c', start' := c + 1, i + 1;
      }
    }

    /** One turn of the per-record loop: append row `i`, and dispatch the batch when `i != 0 && i % batchSize == 0`. */
    method NormalRow(d: Data, row: Row, i: nat, b: int) returns (d': Data)
      requires Valid() && phase == LoggedIn && b == settings.batchSize
      requires i == 0 || b != 0
      modifies this
      ensures Valid() && settings == old(settings) && phase == old(phase)
      ensures Fires(i, b) ==> log == old(log) + [Submission(d.Append(row), true, serverUp)] && d' == EmptyData
      ensures !Fires(i, b) ==> log == old(log) && d' == d.Append(row)
    {
      d' := d.Append(row);
      if i != 0 && GoRem(i, b) == 0 {
        Dispatch(d');
        d' := EmptyData;
      }
    }

    /** The section-list loop: whole sections, dispatched once the running count exceeds `batchSize`; returns `totalCount`. */
    method SubmitSections(secs: seq<seq<Row>>) returns (totalCount: int)
      requires Valid() && phase == LoggedIn
      modifies this
      ensures Valid() && settings == old(settings) && phase == old(phase)
      ensures log == old(log) + SectionPlan(secs, old(settings.batchSize), serverUp)
      ensures totalCount == RowTotal(secs)
    {
      var b := settings.batchSize;
      var d := EmptyData;
      var tempCount := 0;
      totalCount := 0;
      ghost var g: Grouping<Row> := Grouping([], []);
      ghost var before := log;
      for i := 0 to |secs|
        invariant Valid() && settings == old(settings) && phase == old(phase)
        invariant g == Group(secs[..i], b)
        invariant d == FromRows(Flatten(g.pending))
        invariant tempCount == RowTotal(g.pending)
        invariant totalCount == RowTotal(Flatten(g.groups))
        invariant log == before + Dispatches(GroupRows(g.groups), serverUp)
      {
        GroupPrefix(secs, i, b);
        d, tempCount, totalCount := NextSection(d, tempCount, totalCount, secs[i], g, before);
        g := GroupStep(g, secs[i], b);
      }
      assert secs[..|secs|] == secs;
      totalCount := FinishSections(secs, d, totalCount, g, before);
    }

    /** After the section loop: count and write the pending rows, if any. */
    method FinishSections(secs: seq<seq<Row>>, d: Data, totalCount: int, ghost g: Grouping<Row>, ghost before: seq<Submission>)
      returns (total: int)
      requires Valid() && phase == LoggedIn
      requires g == Group(secs, settings.batchSize)
      requires d == FromRows(Flatten(g.pending)) && totalCount == RowTotal(Flatten(g.groups))
      requires log == before + Dispatches(GroupRows(g.groups), serverUp)
      modifies this
      ensures Valid() && settings == old(settings) && phase == old(phase)
      ensures log == before + SectionPlan(secs, settings.batchSize, serverUp)
      ensures total == RowTotal(secs)
    {
      ghost var rest := Flatten(g.pending);
      SectionPlanSplit(secs, settings.batchSize, serverUp, before);
      FlattenLength(g.pending);
      total := totalCount;
      if d.RowCount() > 0 {
        total := total + d.RowCount();
      }
      WriteRest(d, rest);
      GroupTotal(secs, settings.batchSize);
    }

    /** One turn of the section loop, with the ghost grouping it advances. */
    method NextSection(d: Data, tempCount: int, totalCount: int, sec: seq<Row>, ghost g: Grouping<Row>, ghost before: seq<Submission>)
      returns (d': Data, tempCount': int, totalCount': int)
      requires Valid() && phase == LoggedIn
      requires d == FromRows(Flatten(g.pending))
      requires tempCount == RowTotal(g.pending) && totalCount == RowTotal(Flatten(g.groups))
      requires log == before + Dispatches(GroupRows(g.groups), serverUp)
      modifies this
      ensures Valid() && settings == old(settings) && phase == old(phase)
      ensures var g' := GroupStep(g, sec, settings.batchSize);
        && d' == FromRows(Flatten(g'.pending))
        && tempCount' == RowTotal(g'.pending) && totalCount' == RowTotal(Flatten(g'.groups))
        && log == before + Dispatches(GroupRows(g'.groups), serverUp)
    {
      SectionTurn(g, sec, settings.batchSize, serverUp, d, tempCount, totalCount);
      d', tempCount', totalCount' := AddSection(d, tempCount, totalCount, sec);
    }

    /** One turn of the section loop: append the section's rows, and dispatch them once the running count exceeds `batchSize`. */
    method AddSection(d: Data, tempCount: int, totalCount: int, sec: seq<Row>)
      returns (d': Data, tempCount': int, totalCount': int)
      requires Valid() && phase == LoggedIn
      modifies this
      ensures Valid() && settings == old(settings) && phase == old(phase)
      ensures tempCount + |sec| > settings.batchSize ==>
        && log == old(log) + [Submission(AppendRows(d, sec), true, serverUp)]
        && d' == EmptyData && tempCount' == 0 && totalCount' == totalCount + tempCount + |sec|
      ensures tempCount + |sec| <= settings.batchSize ==>
        && log == old(log)
        && d' == AppendRows(d, sec) && tempCount' == tempCount + |sec| && totalCount' == totalCount
    {
      tempCount' := tempCount + |sec|;
      totalCount' := totalCount;
      d' := AppendRows(d, sec);
      if tempCount' > settings.batchSize {
        Dispatch(d');
        d' := EmptyData;
        totalCount' := totalCount' + tempCount';
        tempCount' := 0;
      }
    }

    /** After the loop: `if len(d.timestamps) > 0 { insertData(d) }`, synchronously. */
    method WriteRest(d: Data, ghost rest: seq<Row>)
      requires Valid() && phase == LoggedIn
      requires d == FromRows(rest)
      modifies this
      ensures Valid() && settings == old(settings) && phase == old(phase)
      ensures log == old(log) + Remainder(rest, serverUp)
    {
      if d.RowCount() > 0 {
        InsertData(d, false);
      }
    }

    // -------------------------------------------------------------------
    // The eight exported write functions
    // -------------------------------------------------------------------

    /** `write_rt_analog`: one batch on the fast path, `i % batchSize` slicing otherwise; returns the printed summary. */
    method WriteRtAnalog(unit: int64, timestamp: int64, analogs: seq<Analog>, isFast: bool) returns (report: string)
      requires Valid() && phase == LoggedIn
      requires isFast || |analogs| <= 1 || settings.batchSize != 0
      modifies this
      ensures Valid() && settings == old(settings) && phase == old(phase)
      ensures var rows := AnalogRows(settings.baseRoot, unit, timestamp, analogs);
        log == old(log) + (if isFast then FastPlan(rows, serverUp) else NormalPlan(rows, settings.batchSize, serverUp))
      ensures report == SummaryString(|analogs|, isFast, true)
    {
      var rows := AnalogRows(settings.baseRoot, unit, timestamp, analogs);
      if isFast {
        SubmitFast(rows);
      } else {
        SubmitNormal(rows);
      }
      report := SummaryString(|analogs|, isFast, true);
    }

    /** `write_rt_digital`: the digital counterpart. */
    method WriteRtDigital(unit: int64, timestamp: int64, digitals: seq<Digital>, isFast: bool) returns (report: string)
      requires Valid() && phase == LoggedIn
      requires isFast || |digitals| <= 1 || settings.batchSize != 0
      modifies this
      ensures Valid() && settings == old(settings) && phase == old(phase)
      ensures var rows := DigitalRows(settings.baseRoot, unit, timestamp, digitals);
        log == old(log) + (if isFast then FastPlan(rows, serverUp) else NormalPlan(rows, settings.batchSize, serverUp))
      ensures report == SummaryString(|digitals|, isFast, false)
    {
      var rows := DigitalRows(settings.baseRoot, unit, timestamp, digitals);
      if isFast {
        SubmitFast(rows);
      } else {
        SubmitNormal(rows);
      }
      report := SummaryString(|digitals|, isFast, false);
    }

    /** `write_rt_analog_list`: sections grouped greedily; the summary reports the sum of the section sizes. */
    method WriteRtAnalogList(unit: int64, times: seq<int64>, sections: seq<seq<Analog>>) returns (report: string)
      requires Valid() && phase == LoggedIn
      requires |times| == |sections|
      modifies this
      ensures Valid() && settings == old(settings) && phase == old(phase)
      ensures var secs := AnalogSections(settings.baseRoot, unit, times, sections);
        log == old(log) + SectionPlan(secs, settings.batchSize, serverUp)
        && report == "批量写实时模拟量断面OK " + SummaryString(RowTotal(sections), true, true)
    {
      var secs := AnalogSections(settings.baseRoot, unit, times, sections);
      var totalCount := SubmitSections(secs);
      SectionSizes(secs, sections);
      report := "批量写实时模拟量断面OK " + SummaryString(totalCount, true, true);
    }

    /** `write_rt_digital_list`: the digital counterpart. */
    method WriteRtDigitalList(unit: int64, times: seq<int64>, sections: seq<seq<Digital>>) returns (report: string)
      requires Valid() && phase == LoggedIn
      requires |times| == |sections|
      modifies this
      ensures Valid() && settings == old(settings) && phase == old(phase)
      ensures var secs := DigitalSections(settings.baseRoot, unit, times, sections);
        log == old(log) + SectionPlan(secs, settings.batchSize, serverUp)
        && report == "批量写实时数字量断面OK " + SummaryString(RowTotal(sections), true, false)
    {
      var secs := DigitalSections(settings.baseRoot, unit, times, sections);
      var totalCount := SubmitSections(secs);
      SectionSizes(secs, sections);
      report := "批量写实时数字量断面OK " + SummaryString(totalCount, true, false);
    }

    /** `write_his_analog`: the same slicing as the normal real-time path, nothing kept between calls. */
    method WriteHisAnalog(unit: int64, time: int64, analogs: seq<Analog>) returns (report: string)
      requires Valid() && phase == LoggedIn
      requires |analogs| <= 1 || settings.batchSize != 0
      modifies this
      ensures Valid() && settings == old(settings) && phase == old(phase)
      ensures log == old(log) + NormalPlan(AnalogRows(settings.baseRoot, unit, time, analogs), settings.batchSize, serverUp)
      ensures report == "写历史模拟量OK，插入" + FormatInt(|analogs|) + "条数据"
    {
      SubmitNormal(AnalogRows(settings.baseRoot, unit, time, analogs));
      report := "写历史模拟量OK，插入" + FormatInt(|analogs|) + "条数据";
    }

    /** `write_his_digital`. */
    method WriteHisDigital(unit: int64, time: int64, digitals: seq<Digital>) returns (report: string)
      requires Valid() && phase == LoggedIn
      requires |digitals| <= 1 || settings.batchSize != 0
      modifies this
      ensures Valid() && settings == old(settings) && phase == old(phase)
      ensures log == old(log) + NormalPlan(DigitalRows(settings.baseRoot, unit, time, digitals), settings.batchSize, serverUp)
      ensures report == "写历史数字量OK，插入" + FormatInt(|digitals|) + "条数据"
    {
      SubmitNormal(DigitalRows(settings.baseRoot, unit, time, digitals));
      report := "写历史数字量OK，插入" + FormatInt(|digitals|) + "条数据";
    }

    /** `write_static_analog`: rows timestamped with their own P_NUM, sliced like the normal path. */
    method WriteStaticAnalog(unit: int64, records: seq<StaticAnalog>) returns (report: string)
      requires Valid() && phase == LoggedIn
      requires |records| <= 1 || settings.batchSize != 0
      modifies this
      ensures Valid() && settings == old(settings) && phase == old(phase)
      ensures log == old(log) + NormalPlan(StaticAnalogRows(settings.baseRoot, unit, records), settings.batchSize, serverUp)
      ensures report == "写静态模拟量OK，插入" + FormatInt(|records|) + "条数据"
    {
      SubmitNormal(StaticAnalogRows(settings.baseRoot, unit, records));
      report := "写静态模拟量OK，插入" + FormatInt(|records|) + "条数据";
    }

    /** `write_static_digital`. */
    method WriteStaticDigital(unit: int64, records: seq<StaticDigital>) returns (report: string)
      requires Valid() && phase == LoggedIn
      requires |records| <= 1 || settings.batchSize != 0
      modifies this
      ensures Valid() && settings == old(settings) && phase == old(phase)
      ensures log == old(log) + NormalPlan(StaticDigitalRows(settings.baseRoot, unit, records), settings.batchSize, serverUp)
      ensures report == "写静态数字量OK，插入" + FormatInt(|records|) + "条数据"
    {
      SubmitNormal(StaticDigitalRows(settings.baseRoot, unit, records));
      report := "写静态数字量OK，插入" + FormatInt(|records|) + "条数据";
    }
  }

  // ---------------------------------------------------------------------
  // Helpers for the loops
  // ---------------------------------------------------------------------

  lemma CountMonotone(i: nat, n: nat, b: int)
    requires i <= n && (n <= 1 || b != 0)
    ensures BatchCount(i, b) <= BatchCount(n, b)
  {
    if i > 1 {
      var d := Abs(b);
      var q := (n - 1) / d;
      assert n - 1 == q * d + (n - 1) % d;
      var p := (i - 1) / d;
      assert i - 1 == p * d + (i - 1) % d;
      if p > q {
        MulStep(q, p, d);
      }
    }
  }

  /** One turn of the per-record loop, in terms of the batch count and the start of the open batch. */
  lemma NormalStep<T>(rows: seq<T>, b: int, i: nat)
    requires i < |rows| && (|rows| <= 1 || b != 0)
    ensures BatchCount(i, b) <= |NormalBatches(rows, b)| && Cut(BatchCount(i, b), b) <= i
    ensures !Fires(i, b) ==> BatchCount(i + 1, b) == BatchCount(i, b)
    ensures Fires(i, b) ==> var c := BatchCount(i, b);
      && BatchCount(i + 1, b) == c + 1 && c < |NormalBatches(rows, b)|
      && Cut(c + 1, b) == i + 1 && NormalBatches(rows, b)[c] == rows[Cut(c, b)..i + 1]
  {
    CountStep(i, b);
    CountMonotone(i + 1, |rows|, b);
  }

  /** What one turn of the per-record loop does to the batch count, the batch start and the dispatched batches. */
  lemma NormalTurn(rows: seq<Row>, b: int, i: nat, d: Data, c: nat, start: nat, written: bool)
    requires start <= i < |rows| && (|rows| <= 1 || b != 0)
    requires c == BatchCount(i, b) && start == Cut(c, b) && c <= |NormalBatches(rows, b)|
    requires d == FromRows(rows[start..i])
    ensures i == 0 || b != 0
    ensures Fires(i, b) ==>
      && c < |NormalBatches(rows, b)| && BatchCount(i + 1, b) == c + 1 && Cut(c + 1, b) == i + 1
      && Dispatches(NormalBatches(rows, b)[..c + 1], written)
        == Dispatches(NormalBatches(rows, b)[..c], written) + [Submission(d.Append(rows[i]), true, written)]
    ensures !Fires(i, b) ==> BatchCount(i + 1, b) == c && d.Append(rows[i]) == FromRows(rows[start..i + 1])
  {
    NormalStep(rows, b, i);
    FromRowsSnoc(rows, start, i);
    if Fires(i, b) {
      DispatchesPrefix(NormalBatches(rows, b), written, c);
    }
  }

  lemma FromRowsSnoc(rows: seq<Row>, start: nat, i: nat)
    requires start <= i < |rows|
    ensures FromRows(rows[start..i + 1]) == FromRows(rows[start..i]).Append(rows[i])
  {
    assert rows[start..i + 1][..i - start] == rows[start..i];
  }

  lemma GroupPrefix(secs: seq<seq<Row>>, i: nat, b: int)
    requires i < |secs|
    ensures Group(secs[..i + 1], b) == GroupStep(Group(secs[..i], b), secs[i], b)
  {
    assert secs[..i + 1][..i] == secs[..i];
  }

  /** What one more section does to the counters and the pending rows. */
  lemma GroupStepCounts(g: Grouping<Row>, sec: seq<Row>)
    ensures RowTotal(g.pending + [sec]) == RowTotal(g.pending) + |sec|
    ensures Flatten(g.pending + [sec]) == Flatten(g.pending) + sec
    ensures RowTotal(Flatten(g.groups + [g.pending + [sec]])) == RowTotal(Flatten(g.groups)) + RowTotal(g.pending) + |sec|
  {
    var p := g.pending + [sec];
    RowTotalAppend(g.pending, [sec]);
    FlattenAppend(g.pending, sec);
    FlattenAppend(g.groups, p);
    RowTotalAppend(Flatten(g.groups), p);
  }

  /** Submitting the pending sections with one more adds one dispatch to the log. */
  lemma GroupStepLog(g: Grouping<Row>, sec: seq<Row>, written: bool)
    ensures Dispatches(GroupRows(g.groups + [g.pending + [sec]]), written) ==
      Dispatches(GroupRows(g.groups), written) + [Submission(FromRows(Flatten(g.pending + [sec])), true, written)]
  {
    var p := g.pending + [sec];
    GroupRowsAppend(g.groups, p);
    var gr := GroupRows(g.groups + [p]);
    assert gr[..|g.groups|] == GroupRows(g.groups);
    assert gr[..|g.groups| + 1] == gr;
    DispatchesPrefix(gr, written, |g.groups|);
  }

  /** One turn of the section loop, in terms of the pending count before it. */
  lemma SectionStep(g: Grouping<Row>, sec: seq<Row>, b: int, written: bool)
    ensures var g' := GroupStep(g, sec, b);
      RowTotal(g.pending) + |sec| > b ==>
        && g'.pending == [] && Flatten(g'.pending) == [] && RowTotal(g'.pending) == 0
        && RowTotal(Flatten(g'.groups)) == RowTotal(Flatten(g.groups)) + RowTotal(g.pending) + |sec|
        && Dispatches(GroupRows(g'.groups), written) ==
          Dispatches(GroupRows(g.groups), written) + [Submission(FromRows(Flatten(g.pending) + sec), true, written)]
    ensures var g' := GroupStep(g, sec, b);
      RowTotal(g.pending) + |sec| <= b ==>
        && g'.groups == g.groups
        && Flatten(g'.pending) == Flatten(g.pending) + sec && RowTotal(g'.pending) == RowTotal(g.pending) + |sec|
  {
    GroupStepCounts(g, sec);
    GroupStepLog(g, sec, written);
  }
  /** What one turn of the section loop does to the ghost grouping, stated on the loop's own variables. */
  lemma SectionTurn(g: Grouping<Row>, sec: seq<Row>, b: int, written: bool, d: Data, tempCount: int, totalCount: int)
    requires d == FromRows(Flatten(g.pending))
    requires tempCount == RowTotal(g.pending) && totalCount == RowTotal(Flatten(g.groups))
    ensures var g' := GroupStep(g, sec, b);
      tempCount + |sec| > b ==>
        && EmptyData == FromRows(Flatten(g'.pending)) && RowTotal(g'.pending) == 0
        && totalCount + tempCount + |sec| == RowTotal(Flatten(g'.groups))
        && Dispatches(GroupRows(g'.groups), written) ==
          Dispatches(GroupRows(g.groups), written) + [Submission(AppendRows(d, sec), true, written)]
    ensures var g' := GroupStep(g, sec, b);
      tempCount + |sec| <= b ==>
        && AppendRows(d, sec) == FromRows(Flatten(g'.pending)) && tempCount + |sec| == RowTotal(g'.pending)
        && totalCount == RowTotal(Flatten(g'.groups)) && g'.groups == g.groups
  {
    SectionStep(g, sec, b, written);
    AppendAll(d, Flatten(g.pending), sec);
  }


  /** Appending rows one at a time, as the inner loop over a section does. */
  function AppendRows(d: Data, rows: seq<Row>): Data
    decreases |rows|
  {
    if |rows| == 0 then d else AppendRows(d, rows[..|rows| - 1]).Append(rows[|rows| - 1])
  }

  lemma {:induction false} AppendAll(d: Data, before: seq<Row>, rows: seq<Row>)
    requires d == FromRows(before)
    ensures AppendRows(d, rows) == FromRows(before + rows)
    decreases |rows|
  {
    if |rows| > 0 {
      var n := |rows| - 1;
      AppendAll(d, before, rows[..n]);
      assert (before + rows)[..|before + rows| - 1] == before + rows[..n];
    } else {
      assert before + rows == before;
    }
  }

  lemma {:induction false} SectionSizes<R, T>(secs: seq<seq<R>>, sections: seq<seq<T>>)
    requires |secs| == |sections|
    requires forall i | 0 <= i < |secs| :: |secs[i]| == |sections[i]|
    ensures RowTotal(secs) == RowTotal(sections)
    decreases |secs|
  {
    if |secs| > 0 {
      SectionSizes(secs[..|secs| - 1], sections[..|sections| - 1]);
    }
  }
}

=== FILE: records.dfy ===
/**
 * The fixed-layout point records handed across the C boundary, the typed
 * values the database client accepts, and the conversion of one record into
 * one database row (device path, timestamp, and parallel measurement-name,
 * type and value lists), together with the `Data` batch of parallel lists
 * that the write functions fill.
 */
module Records {
  import opened Wrappers
  import opened GoStrings

  // ---------------------------------------------------------------------
  // Machine integers and opaque floats
  // ---------------------------------------------------------------------

  type byte = x: int | 0 <= x < 0x100
  type uint16 = x: int | 0 <= x < 0x1_0000
  type int32 = x: int | -0x8000_0000 <= x < 0x8000_0000
  type int64 = x: int | -0x8000_0000_0000_0000 <= x < 0x8000_0000_0000_0000

  /** An IEEE-754 single, carried bit for bit; no arithmetic is done on it. */
  datatype Float32 = Float32(bits: bv32)

  /** A byte array of a fixed width. */
  function Zeros(n: nat): (s: seq<byte>)
    ensures |s| == n
  {
    seq(n, _ => 0)
  }

  type Bytes32 = s: seq<byte> | |s| == 32 witness Zeros(32)
  type Bytes128 = s: seq<byte> | |s| == 128 witness Zeros(128)

  // ---------------------------------------------------------------------
  // The four record layouts (write_plugin.go)
  // ---------------------------------------------------------------------

  datatype Analog = Analog(
    globalId: int64, pNum: int32,
    av: Float32, avr: Float32,
    q: bool, bf: bool, qf: bool,
    fai: Float32, ms: bool,
    tew: byte, cst: uint16)

  datatype Digital = Digital(
    globalId: int64, pNum: int32,
    dv: bool, dvr: bool, q: bool, bf: bool, fq: bool, fai: bool, ms: bool,
    tew: byte, cst: uint16)

  datatype StaticAnalog = StaticAnalog(
    globalId: int64, pNum: int32,
    tagt: uint16, fack: uint16,
    l4ar: bool, l3ar: bool, l2ar: bool, l1ar: bool,
    h4ar: bool, h3ar: bool, h2ar: bool, h1ar: bool,
    chn: Bytes32, pn: Bytes32, desc: Bytes128, unit: Bytes32,
    mu: Float32, md: Float32)

  datatype StaticDigital = StaticDigital(
    globalId: int64, pNum: int32,
    fack: uint16,
    chn: Bytes32, pn: Bytes32, desc: Bytes128, unit: Bytes32)

  // ---------------------------------------------------------------------
  // Typed values and rows, as the database client receives them
  // ---------------------------------------------------------------------

  /** The client's `TSDataType` constants that the plugin uses. */
  datatype DataType = Float | Boolean | Text | Int32

  /** A value of a row; TEXT values are Go strings, that is, byte strings. */
  datatype Value =
    | FloatValue(f: Float32)
    | BoolValue(b: bool)
    | TextValue(bytes: seq<byte>)
    | Int32Value(i: int32)

  function TypeOf(v: Value): DataType
  {
    match v
    case FloatValue(_) => Float
    case BoolValue(_) => Boolean
    case TextValue(_) => Text
    case Int32Value(_) => Int32
  }

  /** One record of an `InsertRecords` call. */
  datatype Row = Row(
    device: string, timestamp: int,
    measurements: seq<string>, types: seq<DataType>, values: seq<Value>)

  /** Each value has the type declared at the same position. */
  predicate Conforms(values: seq<Value>, types: seq<DataType>)
  {
    |values| == |types| && forall j | 0 <= j < |values| :: TypeOf(values[j]) == types[j]
  }

  lemma ConformsConcat(a: seq<Value>, s: seq<DataType>, b: seq<Value>, t: seq<DataType>)
    requires Conforms(a, s) && Conforms(b, t)
    ensures Conforms(a + b, s + t)
  {
    forall j | 0 <= j < |a + b|
      ensures TypeOf((a + b)[j]) == (s + t)[j]
    {
      if j >= |a| {
        assert (a + b)[j] == b[j - |a|];
      }
    }
  }

  /** The three lists of a row are parallel and each value has its declared type. */
  predicate WellTyped(r: Row)
  {
    |r.measurements| == |r.types| && Conforms(r.values, r.types)
  }

  // ---------------------------------------------------------------------
  // The `Data` batch: five parallel lists
  // ---------------------------------------------------------------------

  datatype Data = Data(
    devices: seq<string>,
    timestamps: seq<int>,
    measurementLists: seq<seq<string>>,
    typeLists: seq<seq<DataType>>,
    valueLists: seq<seq<Value>>)
  {
    /** The five lists have the same length. */
    predicate Aligned()
    {
      |devices| == |timestamps| == |measurementLists| == |typeLists| == |valueLists|
    }

    /** Number of rows, as `len(d.timestamps)`. */
    function RowCount(): nat
    {
      |timestamps|
    }

    /** One `append` to each of the five lists. */
    function Append(r: Row): (d: Data)
      ensures Aligned() ==> d.Aligned() && d.RowCount() == RowCount() + 1
    {
      Data(devices + [r.device], timestamps + [r.timestamp],
        measurementLists + [r.measurements], typeLists + [r.types], valueLists + [r.values])
    }

    /** Row `k` read across the five lists. */
    function RowAt(k: nat): Row
      requires Aligned() && k < RowCount()
    {
      Row(devices[k], timestamps[k], measurementLists[k], typeLists[k], valueLists[k])
    }

    /** The rows of the batch, in order. */
    function Rows(): (rows: seq<Row>)
      requires Aligned()
      ensures |rows| == RowCount()
      ensures forall k | 0 <= k < |rows| :: rows[k] == RowAt(k)
    {
      seq(RowCount(), k requires 0 <= k < RowCount() => RowAt(k))
    }
  }

  /** `Data{}` with all five lists nil. */
  const EmptyData := Data([], [], [], [], [])

  /** The batch obtained by appending `rows` one by one to an empty `Data`. */
  function FromRows(rows: seq<Row>): (d: Data)
    ensures d.Aligned() && d.RowCount() == |rows|
    decreases |rows|
  {
    if |rows| == 0 then EmptyData else FromRows(rows[..|rows| - 1]).Append(rows[|rows| - 1])
  }

  /** Reading a built batch back gives the rows that were appended, in order. */
  lemma {:induction false} FromRowsRows(rows: seq<Row>)
    ensures FromRows(rows).Rows() == rows
    decreases |rows|
  {
    if |rows| > 0 {
      var init := rows[..|rows| - 1];
      FromRowsRows(init);
      var d := FromRows(rows);
      forall k | 0 <= k < |rows|
        ensures d.Rows()[k] == rows[k]
      {
        if k < |init| {
          assert FromRows(init).Rows()[k] == init[k];
        }
      }
    }
  }

  /** A batch is determined by its rows: building from them gives it back. */
  lemma {:induction false} RowsFromRows(d: Data)
    requires d.Aligned()
    ensures FromRows(d.Rows()) == d
    decreases d.RowCount()
  {
    var n := d.RowCount();
    if n > 0 {
      var prev := DropLast(d);
      RowsFromRows(prev);
      DropLastRows(d);
      DropLastAppend(d);
    } else {
      assert d.devices == [] && d.timestamps == [] && d.measurementLists == [];
      assert d.typeLists == [] && d.valueLists == [];
    }
  }

  /** The batch without its last row. */
  function DropLast(d: Data): (prev: Data)
    requires d.Aligned() && d.RowCount() > 0
    ensures prev.Aligned() && prev.RowCount() == d.RowCount() - 1
  {
    var n := d.RowCount();
    Data(d.devices[..n - 1], d.timestamps[..n - 1],
      d.measurementLists[..n - 1], d.typeLists[..n - 1], d.valueLists[..n - 1])
  }

  lemma DropLastAppend(d: Data)
    requires d.Aligned() && d.RowCount() > 0
    ensures DropLast(d).Append(d.RowAt(d.RowCount() - 1)) == d
  {
  }

  lemma DropLastRows(d: Data)
    requires d.Aligned() && d.RowCount() > 0
    ensures d.Rows()[..d.RowCount() - 1] == DropLast(d).Rows()
  {
  }

  // ---------------------------------------------------------------------
  // Device paths: fmt.Sprintf("%s.unit%d.A%d", baseRoot, unit_id, P_NUM)
  // ---------------------------------------------------------------------

  /** The path of a point's device; `kind` is 'A' for analog and 'D' for digital. */
  function DevicePath(root: string, unit: int, kind: char, pNum: int): string
  {
    root + ".unit" + FormatInt(unit) + "." + [kind] + FormatInt(pNum)
  }

  /** The parts a device path is built from. */
  datatype DeviceName = DeviceName(root: string, unit: int, kind: char, pNum: int)

  /** Index of the last occurrence of `c` in `s`. */
  function LastIndex(s: string, c: char): (r: Option<nat>)
    ensures r.Some? ==> r.value < |s| && s[r.value] == c
    ensures r.Some? ==> forall k | r.value < k < |s| :: s[k] != c
    ensures r.None? ==> c !in s
    decreases |s|
  {
    if |s| == 0 then None
    else if s[|s| - 1] == c then Some(|s| - 1)
    else
      var r := LastIndex(s[..|s| - 1], c);
      assert r.None? ==> s == s[..|s| - 1] + [s[|s| - 1]];
      r
  }

  /** The last `c` of `a + [c] + b` is the one after `a` when `b` has none. */
  lemma LastIndexOfSeparator(a: string, c: char, b: string)
    requires c !in b
    ensures LastIndex(a + [c] + b, c) == Some(|a|)
  {
    var s := a + [c] + b;
    assert s[|a|] == c;
    assert forall k | |a| < k < |s| :: s[k] == b[k - |a| - 1];
  }

  /** Reads `<kind><number>`, the last component of a device path. */
  function ParseLeaf(leaf: string): Option<(char, int)>
  {
    if |leaf| < 1 then None
    else
      var (n, err) := ParseInt(leaf[1..], 64);
      if err.Some? then None else Some((leaf[0], n))
  }

  /** Reads `<root>.unit<number>`, what precedes the last component. */
  function ParseUnitPath(head: string): Option<(string, int)>
  {
    match LastIndex(head, '.')
    case None => None
    case Some(k) =>
      var mid := head[k + 1..];
      if |mid| < 4 || mid[..4] != "unit" then None
      else
        var (unit, err) := ParseInt(mid[4..], 64);
        if err.Some? then None else Some((head[..k], unit))
  }

  /** Reads a device path back into its parts, splitting at its last two dots. */
  function ParseDevicePath(path: string): Option<DeviceName>
  {
    match LastIndex(path, '.')
    case None => None
    case Some(j) =>
      match (ParseUnitPath(path[..j]), ParseLeaf(path[j + 1..]))
      case (Some((root, unit)), Some((kind, pNum))) => Some(DeviceName(root, unit, kind, pNum))
      case _ => None
  }

  lemma ParseLeafRoundTrip(kind: char, pNum: int64)
    ensures ParseLeaf([kind] + FormatInt(pNum)) == Some((kind, pNum))
  {
    assert ([kind] + FormatInt(pNum))[1..] == FormatInt(pNum);
    ParseFormatInt(pNum, 64);
  }

  lemma ParseUnitPathRoundTrip(root: string, unit: int64)
    ensures ParseUnitPath(root + ".unit" + FormatInt(unit)) == Some((root, unit))
  {
    var digits := FormatInt(unit);
    assert '.' !in digits;
    ParseFormatInt(unit, 64);
    assert root + ".unit" + digits == root + ['.'] + ("unit" + digits);
    ParseUnitPathOf(root, digits, unit);
  }

  /** A path whose last segment is `unit` followed by digits that parse to `n`. */
  lemma ParseUnitPathOf(root: string, digits: string, n: int)
    requires '.' !in digits
    requires ParseInt(digits, 64) == (n, None)
    ensures ParseUnitPath(root + ['.'] + ("unit" + digits)) == Some((root, n))
  {
    var mid := "unit" + digits;
    var head := root + ['.'] + mid;
    assert '.' !in mid by {
      assert forall k | 4 <= k < |mid| :: mid[k] == digits[k - 4];
    }
    LastIndexOfSeparator(root, '.', mid);
    assert head[|root| + 1..] == mid && head[..|root|] == root;
    assert mid[..4] == "unit" && mid[4..] == digits;
  }

  /** A path splits at its last dot into the part before it and the leaf. */
  lemma ParseJoined(head: string, leaf: string)
    requires '.' !in leaf
    ensures ParseDevicePath(head + ['.'] + leaf) ==
      match (ParseUnitPath(head), ParseLeaf(leaf))
      case (Some((root, unit)), Some((kind, pNum))) => Some(DeviceName(root, unit, kind, pNum))
      case _ => None
  {
    var path := head + ['.'] + leaf;
    LastIndexOfSeparator(head, '.', leaf);
    assert path[|head| + 1..] == leaf && path[..|head|] == head;
  }

  /** A device path parses back into what it was built from. */
  lemma DevicePathRoundTrip(root: string, unit: int64, kind: char, pNum: int64)
    requires kind != '.'
    ensures ParseDevicePath(DevicePath(root, unit, kind, pNum)) == Some(DeviceName(root, unit, kind, pNum))
  {
    var head := root + ".unit" + FormatInt(unit);
    var leaf := [kind] + FormatInt(pNum);
    assert DevicePath(root, unit, kind, pNum) == head + ['.'] + leaf;
    assert '.' !in leaf by {
      assert forall k | 1 <= k < |leaf| :: leaf[k] == FormatInt(pNum)[k - 1];
    }
    ParseLeafRoundTrip(kind, pNum);
    ParseUnitPathRoundTrip(root, unit);
    ParseJoined(head, leaf);
  }

  /** Different points of one unit and kind get different device paths. */
  lemma DevicePathInjective(root: string, unit: int64, kind: char, p: int64, q: int64)
    requires kind != '.'
    requires DevicePath(root, unit, kind, p) == DevicePath(root, unit, kind, q)
    ensures p == q
  {
    DevicePathRoundTrip(root, unit, kind, p);
    DevicePathRoundTrip(root, unit, kind, q);
  }

  // ---------------------------------------------------------------------
  // string(byte): the UTF-8 encoding of the rune with that code point
  // ---------------------------------------------------------------------

  /** Go's `string(b)` for a byte `b`: one byte below 0x80, two bytes from 0x80 on. */
  function RuneBytes(b: byte): (s: seq<byte>)
    ensures 1 <= |s| <= 2
    ensures |s| == 1 <==> b < 0x80
  {
    if b < 0x80 then [b] else [0xC0 + b / 64, 0x80 + b % 64]
  }

  /** Decodes a one-rune UTF-8 string whose code point fits in a byte. */
  function DecodeRune(s: seq<byte>): Option<byte>
  {
    if |s| == 1 && s[0] < 0x80 then Some(s[0])
    else if |s| == 2 && 0xC2 <= s[0] <= 0xC3 && 0x80 <= s[1] < 0xC0 then
      Some((s[0] - 0xC0) * 64 + (s[1] - 0x80))
    else None
  }

  lemma RuneRoundTrip(b: byte)
    ensures DecodeRune(RuneBytes(b)) == Some(b)
  {
  }

  // ---------------------------------------------------------------------
  // Record -> row
  // ---------------------------------------------------------------------

  const AnalogMeasurements: seq<string> := ["AV", "AVR", "Q", "BF", "QF", "FAI", "MS", "TEW", "CST"]
  const AnalogTypes: seq<DataType> := [Float, Float, Boolean, Boolean, Boolean, Float, Boolean, Text, Int32]
  const DigitalMeasurements: seq<string> := ["DV", "DVR", "Q", "BF", "FQ", "FAI", "MS", "TEW", "CST"]
  const DigitalTypes: seq<DataType> := [Boolean, Boolean, Boolean, Boolean, Boolean, Boolean, Boolean, Text, Int32]
  const StaticAnalogMeasurements: seq<string> :=
    ["TAGT", "FACK", "L4AR", "L3AR", "L2AR", "L1AR", "H4AR", "H3AR", "H2AR", "H1AR",
     "CHN", "PN", "DESC", "UNIT", "MU", "MD"]
  const StaticAnalogTypes: seq<DataType> := StaticAnalogFirstTypes + StaticAnalogSecondTypes
  /** The types of the first eight and of the last eight static analog fields. */
  const StaticAnalogFirstTypes: seq<DataType> := [Int32, Int32, Boolean, Boolean, Boolean, Boolean, Boolean, Boolean]
  const StaticAnalogSecondTypes: seq<DataType> := [Boolean, Boolean, Text, Text, Text, Text, Float, Float]
  const StaticDigitalMeasurements: seq<string> := ["FACK", "CHN", "PN", "DESC", "UNIT"]
  const StaticDigitalTypes: seq<DataType> := [Int32, Text, Text, Text, Text]

  /** The nine values of an analog record; CST widened to INT32, TEW as the one-rune string of its code point. */
  function AnalogValues(a: Analog): (vs: seq<Value>)
    ensures Conforms(vs, AnalogTypes)
  {
    [FloatValue(a.av), FloatValue(a.avr), BoolValue(a.q), BoolValue(a.bf), BoolValue(a.qf),
     FloatValue(a.fai), BoolValue(a.ms), TextValue(RuneBytes(a.tew)), Int32Value(a.cst)]
  }

  /** The nine values of a digital record. */
  function DigitalValues(d: Digital): (vs: seq<Value>)
    ensures Conforms(vs, DigitalTypes)
  {
    [BoolValue(d.dv), BoolValue(d.dvr), BoolValue(d.q), BoolValue(d.bf), BoolValue(d.fq),
     BoolValue(d.fai), BoolValue(d.ms), TextValue(RuneBytes(d.tew)), Int32Value(d.cst)]
  }

  /** The sixteen values of a static analog record; the byte arrays go in whole, padding included. */
  function StaticAnalogValues(s: StaticAnalog): (vs: seq<Value>)
    ensures Conforms(vs, StaticAnalogTypes)
  {
    var first := [Int32Value(s.tagt), Int32Value(s.fack),
      BoolValue(s.l4ar), BoolValue(s.l3ar), BoolValue(s.l2ar), BoolValue(s.l1ar),
      BoolValue(s.h4ar), BoolValue(s.h3ar)];
    var second := [BoolValue(s.h2ar), BoolValue(s.h1ar),
      TextValue(s.chn), TextValue(s.pn), TextValue(s.desc), TextValue(s.unit),
      FloatValue(s.mu), FloatValue(s.md)];
    ConformsConcat(first, StaticAnalogFirstTypes, second, StaticAnalogSecondTypes);
    first + second
  }

  /** The five values of a static digital record. */
  function StaticDigitalValues(s: StaticDigital): (vs: seq<Value>)
    ensures Conforms(vs, StaticDigitalTypes)
  {
    [Int32Value(s.fack), TextValue(s.chn), TextValue(s.pn), TextValue(s.desc), TextValue(s.unit)]
  }

  /** The row an analog record becomes: device `<root>.unit<unit>.A<P_NUM>` and the call's timestamp. */
  function AnalogRow(root: string, unit: int, timestamp: int, a: Analog): (r: Row)
    ensures WellTyped(r) && r.device == DevicePath(root, unit, 'A', a.pNum) && r.timestamp == timestamp
    ensures r.measurements == AnalogMeasurements && r.types == AnalogTypes
  {
    Row(DevicePath(root, unit, 'A', a.pNum), timestamp, AnalogMeasurements, AnalogTypes, AnalogValues(a))
  }

  /** The digital counterpart: device `<root>.unit<unit>.D<P_NUM>`. */
  function DigitalRow(root: string, unit: int, timestamp: int, d: Digital): (r: Row)
    ensures WellTyped(r) && r.device == DevicePath(root, unit, 'D', d.pNum) && r.timestamp == timestamp
    ensures r.measurements == DigitalMeasurements && r.types == DigitalTypes
  {
    Row(DevicePath(root, unit, 'D', d.pNum), timestamp, DigitalMeasurements, DigitalTypes, DigitalValues(d))
  }

  /** A static analog record: its timestamp is its own P_NUM. */
  function StaticAnalogRow(root: string, unit: int, s: StaticAnalog): (r: Row)
    ensures WellTyped(r) && r.device == DevicePath(root, unit, 'A', s.pNum) && r.timestamp == s.pNum
    ensures r.measurements == StaticAnalogMeasurements && r.types == StaticAnalogTypes
  {
    Row(DevicePath(root, unit, 'A', s.pNum), s.pNum, StaticAnalogMeasurements, StaticAnalogTypes,
      StaticAnalogValues(s))
  }

  /** A static digital record: timestamp P_NUM. */
  function StaticDigitalRow(root: string, unit: int, s: StaticDigital): (r: Row)
    ensures WellTyped(r) && r.device == DevicePath(root, unit, 'D', s.pNum) && r.timestamp == s.pNum
    ensures r.measurements == StaticDigitalMeasurements && r.types == StaticDigitalTypes
  {
    Row(DevicePath(root, unit, 'D', s.pNum), s.pNum, StaticDigitalMeasurements, StaticDigitalTypes,
      StaticDigitalValues(s))
  }

  // ---------------------------------------------------------------------
  // Row -> record: what a reader of the database gets back
  // ---------------------------------------------------------------------

  /** The point number named by a device path of the given kind, if it is one. */
  function PointOf(device: string, kind: char): Option<int32>
  {
    match ParseDevicePath(device)
    case Some(name) =>
      if name.kind == kind && -0x8000_0000 <= name.pNum < 0x8000_0000 then Some(name.pNum) else None
    case None => None
  }

  function AsUint16(v: Value): Option<uint16>
  {
    if v.Int32Value? && 0 <= v.i < 0x1_0000 then Some(v.i) else None
  }

  function AsRune(v: Value): Option<byte>
  {
    if v.TextValue? then DecodeRune(v.bytes) else None
  }

  function AsBytes(v: Value, n: nat): Option<seq<byte>>
  {
    if v.TextValue? && |v.bytes| == n then Some(v.bytes) else None
  }

  function AnalogFromValues(p: int32, v: seq<Value>): Option<Analog>
  {
    if |v| == 9 && v[0].FloatValue? && v[1].FloatValue? && v[2].BoolValue? && v[3].BoolValue?
      && v[4].BoolValue? && v[5].FloatValue? && v[6].BoolValue?
      && AsRune(v[7]).Some? && AsUint16(v[8]).Some?
    then Some(Analog(0, p, v[0].f, v[1].f, v[2].b, v[3].b, v[4].b, v[5].f, v[6].b,
      AsRune(v[7]).value, AsUint16(v[8]).value))
    else None
  }

  function DigitalFromValues(p: int32, v: seq<Value>): Option<Digital>
  {
    if |v| == 9 && v[0].BoolValue? && v[1].BoolValue? && v[2].BoolValue? && v[3].BoolValue?
      && v[4].BoolValue? && v[5].BoolValue? && v[6].BoolValue?
      && AsRune(v[7]).Some? && AsUint16(v[8]).Some?
    then Some(Digital(0, p, v[0].b, v[1].b, v[2].b, v[3].b, v[4].b, v[5].b, v[6].b,
      AsRune(v[7]).value, AsUint16(v[8]).value))
    else None
  }

  function StaticAnalogFromValues(p: int32, v: seq<Value>): Option<StaticAnalog>
  {
    if |v| == 16 && AsUint16(v[0]).Some? && AsUint16(v[1]).Some?
      && v[2].BoolValue? && v[3].BoolValue? && v[4].BoolValue? && v[5].BoolValue?
      && v[6].BoolValue? && v[7].BoolValue? && v[8].BoolValue? && v[9].BoolValue?
      && AsBytes(v[10], 32).Some? && AsBytes(v[11], 32).Some?
      && AsBytes(v[12], 128).Some? && AsBytes(v[13], 32).Some?
      && v[14].FloatValue? && v[15].FloatValue?
    then Some(StaticAnalog(0, p, AsUint16(v[0]).value, AsUint16(v[1]).value,
      v[2].b, v[3].b, v[4].b, v[5].b, v[6].b, v[7].b, v[8].b, v[9].b,
      v[10].bytes, v[11].bytes, v[12].bytes, v[13].bytes, v[14].f, v[15].f))
    else None
  }

  function StaticDigitalFromValues(p: int32, v: seq<Value>): Option<StaticDigital>
  {
    if |v| == 5 && AsUint16(v[0]).Some? && AsBytes(v[1], 32).Some? && AsBytes(v[2], 32).Some?
      && AsBytes(v[3], 128).Some? && AsBytes(v[4], 32).Some?
    then Some(StaticDigital(0, p, AsUint16(v[0]).value, v[1].bytes, v[2].bytes, v[3].bytes, v[4].bytes))
    else None
  }

  /** Recovers an analog record from its row; GLOBAL_ID is not stored and reads as 0. */
  function AnalogFromRow(r: Row): Option<Analog>
  {
    match PointOf(r.device, 'A')
    case Some(p) => AnalogFromValues(p, r.values)
    case None => None
  }

  function DigitalFromRow(r: Row): Option<Digital>
  {
    match PointOf(r.device, 'D')
    case Some(p) => DigitalFromValues(p, r.values)
    case None => None
  }

  function StaticAnalogFromRow(r: Row): Option<StaticAnalog>
  {
    match PointOf(r.device, 'A')
    case Some(p) => StaticAnalogFromValues(p, r.values)
    case None => None
  }

  function StaticDigitalFromRow(r: Row): Option<StaticDigital>
  {
    match PointOf(r.device, 'D')
    case Some(p) => StaticDigitalFromValues(p, r.values)
    case None => None
  }

  /** The point number of a device path built from it. */
  lemma PointOfDevicePath(root: string, unit: int64, kind: char, pNum: int32)
    requires kind != '.'
    ensures PointOf(DevicePath(root, unit, kind, pNum), kind) == Some(pNum)
  {
    DevicePathRoundTrip(root, unit, kind, pNum);
  }

  lemma AnalogValuesRoundTrip(a: Analog)
    ensures AnalogFromValues(a.pNum, AnalogValues(a)) == Some(a.(globalId := 0))
  {
    var v := AnalogValues(a);
    RuneRoundTrip(a.tew);
    assert v[0].f == a.av && v[1].f == a.avr && v[2].b == a.q && v[3].b == a.bf && v[4].b == a.qf;
    assert v[5].f == a.fai && v[6].b == a.ms && AsRune(v[7]) == Some(a.tew) && AsUint16(v[8]) == Some(a.cst);
  }

  lemma DigitalValuesRoundTrip(d: Digital)
    ensures DigitalFromValues(d.pNum, DigitalValues(d)) == Some(d.(globalId := 0))
  {
    var v := DigitalValues(d);
    RuneRoundTrip(d.tew);
    assert v[0].b == d.dv && v[1].b == d.dvr && v[2].b == d.q && v[3].b == d.bf && v[4].b == d.fq;
    assert v[5].b == d.fai && v[6].b == d.ms && AsRune(v[7]) == Some(d.tew) && AsUint16(v[8]) == Some(d.cst);
  }

  lemma StaticAnalogValuesRoundTrip(s: StaticAnalog)
    ensures StaticAnalogFromValues(s.pNum, StaticAnalogValues(s)) == Some(s.(globalId := 0))
  {
    StaticAnalogValuesAt(s);
  }

  /** The value at each of the sixteen positions of a static analog row. */
  lemma StaticAnalogValuesAt(s: StaticAnalog)
    ensures var v := StaticAnalogValues(s);
      && |v| == 16
      && v[0] == Int32Value(s.tagt) && v[1] == Int32Value(s.fack)
      && v[2] == BoolValue(s.l4ar) && v[3] == BoolValue(s.l3ar)
      && v[4] == BoolValue(s.l2ar) && v[5] == BoolValue(s.l1ar)
      && v[6] == BoolValue(s.h4ar) && v[7] == BoolValue(s.h3ar)
      && v[8] == BoolValue(s.h2ar) && v[9] == BoolValue(s.h1ar)
      && v[10] == TextValue(s.chn) && v[11] == TextValue(s.pn)
      && v[12] == TextValue(s.desc) && v[13] == TextValue(s.unit)
      && v[14] == FloatValue(s.mu) && v[15] == FloatValue(s.md)
  {
  }

  lemma StaticDigitalValuesRoundTrip(s: StaticDigital)
    ensures StaticDigitalFromValues(s.pNum, StaticDigitalValues(s)) == Some(s.(globalId := 0))
  {
    var v := StaticDigitalValues(s);
    assert AsUint16(v[0]) == Some(s.fack) && AsBytes(v[1], 32) == Some(s.chn);
    assert AsBytes(v[2], 32) == Some(s.pn) && AsBytes(v[3], 128) == Some(s.desc);
    assert AsBytes(v[4], 32) == Some(s.unit);
  }

  /**
   * Converting an analog record and reading the row back preserves the point
   * number, every float bit for bit, every flag, TEW and CST.
   */
  lemma AnalogRoundTrip(root: string, unit: int64, timestamp: int, a: Analog)
    ensures AnalogFromRow(AnalogRow(root, unit, timestamp, a)) == Some(a.(globalId := 0))
  {
    PointOfDevicePath(root, unit, 'A', a.pNum);
    AnalogValuesRoundTrip(a);
  }

  lemma DigitalRoundTrip(root: string, unit: int64, timestamp: int, d: Digital)
    ensures DigitalFromRow(DigitalRow(root, unit, timestamp, d)) == Some(d.(globalId := 0))
  {
    PointOfDevicePath(root, unit, 'D', d.pNum);
    DigitalValuesRoundTrip(d);
  }

  /** The byte arrays of a static record come back exactly, padding and all. */
  lemma StaticAnalogRoundTrip(root: string, unit: int64, s: StaticAnalog)
    ensures StaticAnalogFromRow(StaticAnalogRow(root, unit, s)) == Some(s.(globalId := 0))
  {
    PointOfDevicePath(root, unit, 'A', s.pNum);
    StaticAnalogValuesRoundTrip(s);
  }

  lemma StaticDigitalRoundTrip(root: string, unit: int64, s: StaticDigital)
    ensures StaticDigitalFromRow(StaticDigitalRow(root, unit, s)) == Some(s.(globalId := 0))
  {
    PointOfDevicePath(root, unit, 'D', s.pNum);
    StaticDigitalValuesRoundTrip(s);
  }
}

=== FILE: seeding.dfy ===
/**
 * The seeding side of the test program: filling a tablet with the records of
 * a CSV file (`insertData43`, `insertData45`, `insertData46`), the gap-filling
 * loop of `insertData44` that writes a zero record for every missing 400 ms
 * step, and the line windows of test 651.
 *
 * A record is one CSV line as a sequence of fields.  The tablet is the
 * client's column buffer with the fields the fill loops touch; sending it
 * (`InsertTablet`) is not part of this model.  `strconv.ParseFloat` is the
 * parameter `parse` where a column holds doubles.
 */
module Seeding {
  import opened Wrappers
  import opened GoStrings

  type Record = seq<string>

  /** A Go `float64`, kept as its bits. */
  datatype Float64 = Float64(bits: bv64)

  const Zero := Float64(0)

  /** Go's `int64` arithmetic wraps around. */
  function WrapInt64(x: int): (r: int)
    ensures -0x8000_0000_0000_0000 <= r < 0x8000_0000_0000_0000
    ensures (x - r) % 0x1_0000_0000_0000_0000 == 0
  {
    var m := x % 0x1_0000_0000_0000_0000;
    if m >= 0x8000_0000_0000_0000 then m - 0x1_0000_0000_0000_0000 else m
  }

  /** A millisecond timestamp as the nanoseconds stored: `ms * 1000000` in `int64`. */
  function Nanos(ms: int): int
  {
    WrapInt64(ms * 1000000)
  }

  // ---------------------------------------------------------------------
  // The tablet
  // ---------------------------------------------------------------------

  /** `client.Tablet`: a device, its measurements, and `capacity` rows of timestamps and values. */
  class Tablet<V(0)> {
    const device: string
    const measurements: seq<string>
    const capacity: nat
    const timestamps: array<int>
    const values: array2<V>
    var rowSize: nat

    ghost predicate Valid()
      reads this
    {
      && timestamps.Length == capacity
      && values.Length0 == capacity && values.Length1 == |measurements|
      && rowSize <= capacity
    }

    /** `client.NewTablet(device, schemas, capacity)`: no rows yet. */
    constructor (device: string, measurements: seq<string>, capacity: nat)
      ensures Valid() && rowSize == 0
      ensures this.device == device && this.measurements == measurements && this.capacity == capacity
      ensures fresh(timestamps) && fresh(values)
    {
      this.device := device;
      this.measurements := measurements;
      this.capacity := capacity;
      timestamps := new int[capacity];
      values := new V[capacity, |measurements|];
      rowSize := 0;
    }

    /** `SetTimestamp(t, row)`. */
    method SetTimestamp(t: int, row: nat)
      requires Valid() && row < capacity
      modifies timestamps
      ensures timestamps[..] == old(timestamps[..])[row := t]
    {
      timestamps[row] := t;
    }

    /** `SetValueAt(v, column, row)`; a column or row outside the tablet is an error the callers treat as fatal. */
    method SetValueAt(v: V, column: nat, row: nat)
      requires Valid() && column < |measurements| && row < capacity
      modifies values
      ensures values[row, column] == v
      ensures forall r, c | 0 <= r < capacity && 0 <= c < |measurements| && (r != row || c != column) ::
        values[r, c] == old(values[r, c])
    {
      values[row, column] := v;
    }
  }

  // ---------------------------------------------------------------------
  // Filling a tablet from a CSV file
  // ---------------------------------------------------------------------

  /** A record the fill loops use: neither empty nor the `TIME` header. */
  predicate IsData(rec: Record)
  {
    |rec| > 0 && rec[0] != "TIME"
  }

  /** The data records of a file, in order. */
  function DataRecords(recs: seq<Record>): (ds: seq<Record>)
    ensures |ds| <= |recs|
    ensures forall k | 0 <= k < |ds| :: IsData(ds[k])
    decreases |recs|
  {
    if |recs| == 0 then []
    else DataRecords(recs[..|recs| - 1]) + (if IsData(recs[|recs| - 1]) then [recs[|recs| - 1]] else [])
  }

  /** Reading further only appends data records. */
  lemma {:induction false} DataRecordsPrefix(recs: seq<Record>, i: nat)
    requires i <= |recs|
    ensures DataRecords(recs[..i]) <= DataRecords(recs)
    decreases |recs| - i
  {
    if i < |recs| {
      DataRecordsPrefix(recs, i + 1);
      assert recs[..i + 1][..i] == recs[..i];
    } else {
      assert recs[..i] == recs;
    }
  }

  /** `strconv.ParseInt(s, 10, 64)` with its error. */
  function ParseInt64(s: string): (r: Option<int>)
    ensures r.Some? ==> -0x8000_0000_0000_0000 <= r.value < 0x8000_0000_0000_0000
  {
    var (v, err) := ParseInt(s, 64);
    if err.None? then Some(v) else None
  }

  /** A data record whose timestamp and `width` values parse, so that no `checkError` stops the program. */
  predicate Parses<V>(rec: Record, width: nat, parse: string -> Option<V>)
  {
    && |rec| > width && ParseInt64(rec[0]).Some?
    && forall c | 1 <= c <= width :: parse(TrimSpace(rec[c])).Some?
  }

  /** The timestamp a data record is stored with: its first field, in nanoseconds. */
  function StampOf(rec: Record): int
  {
    if |rec| > 0 && ParseInt64(rec[0]).Some? then Nanos(ParseInt64(rec[0]).value) else 0
  }

  /** The value of column `c` of a record: field `c + 1`, trimmed and parsed. */
  function ValueOf<V>(rec: Record, c: nat, parse: string -> Option<V>): Option<V>
  {
    if c + 1 < |rec| then parse(TrimSpace(rec[c + 1])) else None
  }

  /** Tablet row `k` holds data record `k`: its timestamp in nanoseconds and its parsed values. */
  ghost predicate Holds<V(0)>(t: Tablet<V>, ds: seq<Record>, rows: nat, parse: string -> Option<V>)
    reads t, t.timestamps, t.values
    requires t.Valid() && rows <= |ds| && rows <= t.capacity
  {
    && (forall k | 0 <= k < rows :: t.timestamps[k] == StampOf(ds[k]))
    && (forall k, c | 0 <= k < rows && 0 <= c < |t.measurements| :: ValueOf(ds[k], c, parse) == Some(t.values[k, c]))
  }

  /**
   * The loop shared by `insertData43`, `45` and `46`: every data record goes
   * into the next row, from row 0, and `RowSize` counts them.
   */
  method Fill<V(0)>(t: Tablet<V>, recs: seq<Record>, parse: string -> Option<V>)
    requires t.Valid() && t.rowSize == 0
    requires |DataRecords(recs)| <= t.capacity
    requires forall k | 0 <= k < |DataRecords(recs)| :: Parses(DataRecords(recs)[k], |t.measurements|, parse)
    modifies t, t.timestamps, t.values
    ensures t.Valid() && t.rowSize == |DataRecords(recs)|
    ensures Holds(t, DataRecords(recs), t.rowSize, parse)
  {
    var width := |t.measurements|;
    ghost var all := DataRecords(recs);
    var rowNum := 0;
    for i := 0 to |recs|
      invariant t.Valid() && t.rowSize == rowNum == |DataRecords(recs[..i])|
      invariant DataRecords(recs[..i]) <= all
      invariant Holds(t, all, rowNum, parse)
    {
      DataRecordsPrefix(recs, i + 1);
      assert recs[..i + 1][..i] == recs[..i];
      var rec := recs[i];
      if IsData(rec) {
        assert all[rowNum] == rec;
        FillRow(t, rec, rowNum, all, parse);
        t.rowSize := t.rowSize + 1;
        rowNum := rowNum + 1;
      }
    }
    assert recs[..|recs|] == recs;
  }

  /** One data record into row `row`: its timestamp, then each of its values. */
  method FillRow<V(0)>(t: Tablet<V>, rec: Record, row: nat, ghost ds: seq<Record>, parse: string -> Option<V>)
    requires t.Valid() && row < t.capacity && row < |ds| && ds[row] == rec
    requires forall k | 0 <= k < |ds| :: Parses(ds[k], |t.measurements|, parse)
    requires Holds(t, ds, row, parse)
    modifies t.timestamps, t.values
    ensures t.Valid() && Holds(t, ds, row + 1, parse)
  {
    var width := |t.measurements|;
    var timestamp := ParseInt64(rec[0]).value;
    t.SetTimestamp(Nanos(timestamp), row);
    for c := 0 to width
      invariant forall k | 0 <= k <= row :: t.timestamps[k] == StampOf(ds[k])
      invariant forall k, c' | 0 <= k < row && 0 <= c' < width :: ValueOf(ds[k], c', parse) == Some(t.values[k, c'])
      invariant forall c' | 0 <= c' < c :: ValueOf(rec, c', parse) == Some(t.values[row, c'])
    {
      var data := parse(TrimSpace(rec[c + 1])).value;
      t.SetValueAt(data, c, row);
    }
  }

  /** `insertData43`: one DOUBLE column `DATA` on `<root>.d43`, up to 100000 rows. */
  method InsertData43(root: string, recs: seq<Record>, parse: string -> Option<Float64>) returns (t: Tablet<Float64>)
    requires |DataRecords(recs)| <= 100000
    requires forall k | 0 <= k < |DataRecords(recs)| :: Parses(DataRecords(recs)[k], 1, parse)
    ensures t.Valid() && t.device == root + ".d43" && t.measurements == ["DATA"] && t.capacity == 100000
    ensures t.rowSize == |DataRecords(recs)| && Holds(t, DataRecords(recs), t.rowSize, parse)
  {
    t := new Tablet(root + ".d43", ["DATA"], 100000);
    Fill(t, recs, parse);
  }

  /** `insertData45`: three INT64 columns on `<root>.d45`, up to 105 rows. */
  method InsertData45(root: string, recs: seq<Record>) returns (t: Tablet<int>)
    requires |DataRecords(recs)| <= 105
    requires forall k | 0 <= k < |DataRecords(recs)| :: Parses(DataRecords(recs)[k], 3, ParseInt64)
    ensures t.Valid() && t.device == root + ".d45" && t.measurements == ["DATA_A", "DATA_B", "DATA_C"] && t.capacity == 105
    ensures t.rowSize == |DataRecords(recs)| && Holds(t, DataRecords(recs), t.rowSize, ParseInt64)
  {
    t := new Tablet(root + ".d45", ["DATA_A", "DATA_B", "DATA_C"], 105);
    Fill(t, recs, ParseInt64);
  }

  /** The device `insertData46` writes to: `d46A` for a file whose path contains `A.csv`, `d46B` otherwise. */
  function Device46(root: string, path: string): (d: string)
    ensures d == root + ".d46A" <==> Contains(path, "A.csv")
    ensures d == root + ".d46B" <==> !Contains(path, "A.csv")
  {
    var a, b := root + ".d46A", root + ".d46B";
    assert a[|a| - 1] != b[|b| - 1];
    if Contains(path, "A.csv") then a else b
  }

  /** `insertData46`: one INT64 column on `d46A` or `d46B`, up to 40 rows. */
  method InsertData46(root: string, path: string, recs: seq<Record>) returns (t: Tablet<int>)
    requires |DataRecords(recs)| <= 40
    requires forall k | 0 <= k < |DataRecords(recs)| :: Parses(DataRecords(recs)[k], 1, ParseInt64)
    ensures t.Valid() && t.device == Device46(root, path) && t.measurements == ["DATA"] && t.capacity == 40
    ensures t.rowSize == |DataRecords(recs)| && Holds(t, DataRecords(recs), t.rowSize, ParseInt64)
  {
    t := new Tablet(Device46(root, path), ["DATA"], 40);
    Fill(t, recs, ParseInt64);
  }

  // ---------------------------------------------------------------------
  // insertData44: filling the gaps of a 400 ms grid
  // ---------------------------------------------------------------------

  /** The latest timestamp seen: the last one, or -400 before any. */
  function Last(times: seq<int>): int
  {
    if |times| == 0 then -400 else times[|times| - 1]
  }

  /** One step of the grid: a positive whole number of 400 ms. */
  predicate Step(pre: int, t: int)
  {
    pre < t && (t - pre) % 400 == 0
  }

  /** Each timestamp lies a positive whole number of 400 ms steps after the one before; otherwise the filler loop never ends. */
  predicate OnGrid(times: seq<int>)
    decreases |times|
  {
    |times| == 0 || (OnGrid(times[..|times| - 1]) && Step(Last(times[..|times| - 1]), times[|times| - 1]))
  }

  /** The fillers between two timestamps: `pre + 400`, `pre + 800`, ..., up to but not including `t`. */
  function Gap(pre: int, t: int): (g: seq<int>)
    requires Step(pre, t)
  {
    seq((t - pre) / 400 - 1, k requires 0 <= k < (t - pre) / 400 - 1 => pre + 400 * (k + 1))
  }

  lemma GapSnoc(pre: int, t: int)
    requires Step(pre, t)
    ensures Gap(pre, t + 400) == Gap(pre, t) + [t]
  {
    assert (t + 400 - pre) / 400 == (t - pre) / 400 + 1;
  }

  /** The filler timestamps of a file, in the order they are written. */
  function Fillers(times: seq<int>): seq<int>
    requires OnGrid(times)
    decreases |times|
  {
    if |times| == 0 then []
    else
      var n := |times| - 1;
      Fillers(times[..n]) + Gap(Last(times[..n]), times[n])
  }

  /** Fillers and records together, in time order. */
  function Timeline(times: seq<int>): seq<int>
    requires OnGrid(times)
    decreases |times|
  {
    if |times| == 0 then []
    else
      var n := |times| - 1;
      Timeline(times[..n]) + Gap(Last(times[..n]), times[n]) + [times[n]]
  }

  /** Every multiple of 400 from 0 below `400 * n`. */
  function Grid(n: nat): seq<int>
  {
    seq(n, k requires 0 <= k < n => 400 * k)
  }

  /** A grid followed by the gap to the next step and that step is the longer grid. */
  lemma GridStep(m: nat, pre: int, t: int)
    requires pre + 400 == 400 * m && Step(pre, t)
    ensures (t + 400) / 400 >= 0
    ensures Grid(m) + Gap(pre, t) + [t] == Grid((t + 400) / 400)
  {
    var m' := (t + 400) / 400;
    assert t + 400 == 400 * m' by {
      assert (t + 400) % 400 == 0;
    }
    var left := Grid(m) + Gap(pre, t) + [t];
    assert |left| == m';
    forall k | 0 <= k < m'
      ensures left[k] == 400 * k
    {
      if m <= k < m' - 1 {
        assert left[k] == Gap(pre, t)[k - m];
      }
    }
  }

  /**
   * With the fillers, the timestamps of the file become the full grid
   * 0, 400, 800, ... up to the last record, each step exactly once.
   */
  lemma {:induction false} TimelineIsGrid(times: seq<int>)
    requires OnGrid(times)
    ensures (Last(times) + 400) % 400 == 0 && Last(times) + 400 >= 0
    ensures Timeline(times) == Grid((Last(times) + 400) / 400)
    decreases |times|
  {
    if |times| > 0 {
      var n := |times| - 1;
      TimelineIsGrid(times[..n]);
      var pre := Last(times[..n]);
      GridStep((pre + 400) / 400, pre, times[n]);
    }
  }

  /** Every grid step up to the last record is either a record or a filler. */
  lemma {:induction false} FillersCount(times: seq<int>)
    requires OnGrid(times)
    ensures |Fillers(times)| + |times| == |Timeline(times)|
    decreases |times|
  {
    if |times| > 0 {
      FillersCount(times[..|times| - 1]);
    }
  }

  /** The nanosecond timestamps of a list of milliseconds. */
  function NanosAll(ms: seq<int>): (ns: seq<int>)
    ensures |ns| == |ms|
  {
    seq(|ms|, k requires 0 <= k < |ms| => Nanos(ms[k]))
  }

  lemma NanosAllConcat(a: seq<int>, b: seq<int>)
    ensures NanosAll(a + b) == NanosAll(a) + NanosAll(b)
  {
  }

  /**
   * The gap-filling loop of `insertData44`: before each record, one zero
   * `DATA2` record at every missing 400 ms step since the previous one.
   * Returns the nanosecond timestamps of those writes, in order.
   */
  method GapFill(times: seq<int>) returns (written: seq<int>)
    requires OnGrid(times)
    ensures written == NanosAll(Fillers(times))
  {
    var pretimestamp := -400;
    written := [];
    for i := 0 to |times|
      invariant OnGrid(times[..i])
      invariant pretimestamp == Last(times[..i])
      invariant written == NanosAll(Fillers(times[..i]))
    {
      OnGridPrefix(times, i + 1);
      assert times[..i + 1][..i] == times[..i];
      var timestamp := times[i];
      written := FillGap(written, pretimestamp, timestamp);
      NanosAllConcat(Fillers(times[..i]), Gap(pretimestamp, timestamp));
      pretimestamp := timestamp;
    }
    assert times[..|times|] == times;
  }

  /** The inner loop of `insertData44`: a filler at each 400 ms step strictly between `pretimestamp` and `timestamp`. */
  method FillGap(written: seq<int>, pretimestamp: int, timestamp: int) returns (written': seq<int>)
    requires Step(pretimestamp, timestamp)
    ensures written' == written + NanosAll(Gap(pretimestamp, timestamp))
  {
    written' := written;
    var pre := pretimestamp;
    while timestamp != pre + 400
      invariant pretimestamp <= pre && Step(pre, timestamp)
      invariant written' == written + NanosAll(Gap(pretimestamp, pre + 400))
      decreases timestamp - pre
    {
      GapSnoc(pretimestamp, pre + 400);
      NanosAllConcat(Gap(pretimestamp, pre + 400), [pre + 400]);
      written' := written' + [Nanos(pre + 400)];
      pre := pre + 400;
    }
  }

  lemma {:induction false} OnGridPrefix(times: seq<int>, i: nat)
    requires i <= |times| && OnGrid(times)
    ensures OnGrid(times[..i])
    decreases |times| - i
  {
    if i < |times| {
      OnGridPrefix(times[..|times| - 1], i);
      assert times[..|times| - 1][..i] == times[..i];
    } else {
      assert times[..i] == times;
    }
  }

  /** `insertData44`: the zero `DATA2` fillers, then the tablet of the records on `<root>.d44`. */
  method InsertData44(root: string, recs: seq<Record>, parse: string -> Option<Float64>)
    returns (fillers: seq<int>, t: Tablet<Float64>)
    requires |DataRecords(recs)| <= 100000
    requires forall k | 0 <= k < |DataRecords(recs)| :: Parses(DataRecords(recs)[k], 1, parse)
    requires OnGrid(Times(DataRecords(recs)))
    ensures fillers == NanosAll(Fillers(Times(DataRecords(recs))))
    ensures t.Valid() && t.device == root + ".d44" && t.measurements == ["DATA"] && t.capacity == 100000
    ensures t.rowSize == |DataRecords(recs)| && Holds(t, DataRecords(recs), t.rowSize, parse)
  {
    fillers := GapFill(Times(DataRecords(recs)));
    t := new Tablet(root + ".d44", ["DATA"], 100000);
    Fill(t, recs, parse);
  }

  /** The millisecond timestamps of data records whose first field parses. */
  function Times(ds: seq<Record>): (ts: seq<int>)
    ensures |ts| == |ds|
  {
    seq(|ds|, k requires 0 <= k < |ds| => if |ds[k]| > 0 && ParseInt64(ds[k][0]).Some? then ParseInt64(ds[k][0]).value else 0)
  }

  // ---------------------------------------------------------------------
  // Test 651: the window of source lines compared
  // ---------------------------------------------------------------------

  /** Source lines per section in the four files of test 651. */
  const FastAnalogPoints := 150
  const FastDigitalPoints := 350
  const NormalAnalogPoints := 59850
  const NormalDigitalPoints := 139650

  /** The inclusive line range `sed -n 'start,endp'` prints. */
  datatype Window = Window(start: int, end: int)

  /** The window ending at the last line of section `sections`, line 1 being the header. */
  function LineWindow(sections: int, points: int): Window
  {
    var end := sections * points + 1;
    Window(end - 100, end)
  }

  /**
   * The window is 101 lines long and, when a section has at least 101
   * lines, lies inside the last section: section `s` occupies lines
   * `(s - 1) * points + 2` to `s * points + 1`.
   */
  lemma WindowInSection(sections: int, points: int)
    requires sections >= 1 && points >= 101
    ensures var w := LineWindow(sections, points);
      && w.end - w.start + 1 == 101
      && (sections - 1) * points + 2 <= w.start && w.end == sections * points + 1
  {
    assert (sections - 1) * points == sections * points - points;
  }

  /** The analog and digital windows of the fast and the normal files. */
  function Windows(fastSections: int, normalSections: int): seq<Window>
  {
    [ LineWindow(fastSections, FastAnalogPoints), LineWindow(fastSections, FastDigitalPoints),
      LineWindow(normalSections, NormalAnalogPoints), LineWindow(normalSections, NormalDigitalPoints) ]
  }

  /** The four windows of test 651 each hold 101 lines of one section. */
  lemma Windows651(fastSections: int, normalSections: int)
    requires fastSections >= 1 && normalSections >= 1
    ensures forall w | w in Windows(fastSections, normalSections) :: w.end - w.start + 1 == 101 && w.start >= 2
  {
    WindowInSection(fastSections, FastAnalogPoints);
    WindowInSection(fastSections, FastDigitalPoints);
    WindowInSection(normalSections, NormalAnalogPoints);
    WindowInSection(normalSections, NormalDigitalPoints);
  }
}

=== FILE: slicing.dfy ===
/**
 * How the write functions cut a call's rows into batches.
 *
 * The per-record writers (normal real-time, history and static) submit the
 * batch built so far right after appending the row at index `i` whenever
 * `i != 0 && i % batchSize == 0`, and write what is left synchronously.
 * The section-list writers add whole sections and submit once the running
 * row count exceeds `batchSize`.  Both rules are given here as reference
 * definitions over plain sequences, with the facts the writers rely on.
 */
module Slicing {

  // ---------------------------------------------------------------------
  // Go integer division
  // ---------------------------------------------------------------------

  function Abs(x: int): nat
  {
    if x < 0 then -x else x
  }

  /** Go's `x / y`: the quotient truncated toward zero. */
  function GoQuo(x: int, y: int): int
    requires y != 0
  {
    if (x < 0) == (y < 0) then Abs(x) / Abs(y) else -(Abs(x) / Abs(y))
  }

  /** Go's `x % y`, which takes the sign of `x`. */
  function GoRem(x: int, y: int): int
    requires y != 0
  {
    x - GoQuo(x, y) * y
  }

  lemma {:induction false} MulMonotone(a: nat, c: nat, d: nat)
    requires a <= c
    ensures a * d <= c * d
    decreases c - a
  {
    if a < c {
      MulMonotone(a, c - 1, d);
      assert c * d == (c - 1) * d + d;
    }
  }

  /** Quotient and remainder are unique. */
  lemma DivModUnique(x: nat, d: nat, q: nat, r: nat)
    requires d > 0 && r < d && x == q * d + r
    ensures x / d == q && x % d == r
  {
    var q', r' := x / d, x % d;
    assert x == q' * d + r';
    if q > q' {
      MulStep(q', q, d);
    } else if q < q' {
      MulStep(q, q', d);
    }
  }

  lemma MulStep(a: nat, c: nat, d: nat)
    requires a < c
    ensures a * d + d <= c * d
  {
    MulMonotone(a + 1, c, d);
    assert (a + 1) * d == a * d + d;
  }

  /** For a non-negative dividend Go's remainder is the remainder by `|y|`. */
  lemma GoRemNonNegative(x: int, y: int)
    requires x >= 0 && y != 0
    ensures GoRem(x, y) == x % Abs(y)
  {
    if y < 0 {
      assert GoQuo(x, y) * y == (x / Abs(y)) * Abs(y);
    }
  }

  // ---------------------------------------------------------------------
  // Concatenation of batches
  // ---------------------------------------------------------------------

  function Flatten<T>(bs: seq<seq<T>>): (r: seq<T>)
    decreases |bs|
  {
    if |bs| == 0 then [] else Flatten(bs[..|bs| - 1]) + bs[|bs| - 1]
  }

  lemma FlattenPrefix<T>(bs: seq<seq<T>>, k: nat)
    requires k < |bs|
    ensures Flatten(bs[..k + 1]) == Flatten(bs[..k]) + bs[k]
  {
    assert bs[..k + 1][..k] == bs[..k];
  }

  lemma FlattenAppend<T>(bs: seq<seq<T>>, b: seq<T>)
    ensures Flatten(bs + [b]) == Flatten(bs) + b
  {
    assert (bs + [b])[..|bs|] == bs;
  }

  /** Sum of the lengths, as the section-list writers add up `array_count`. */
  function RowTotal<T>(secs: seq<seq<T>>): nat
    decreases |secs|
  {
    if |secs| == 0 then 0 else RowTotal(secs[..|secs| - 1]) + |secs[|secs| - 1]|
  }

  lemma {:induction false} FlattenLength<T>(secs: seq<seq<T>>)
    ensures |Flatten(secs)| == RowTotal(secs)
    decreases |secs|
  {
    if |secs| > 0 {
      FlattenLength(secs[..|secs| - 1]);
    }
  }

  lemma {:induction false} RowTotalAppend<T>(a: seq<seq<T>>, b: seq<seq<T>>)
    ensures RowTotal(a + b) == RowTotal(a) + RowTotal(b)
    decreases |b|
  {
    if |b| > 0 {
      var n := |b| - 1;
      assert (a + b)[..|a + b| - 1] == a + b[..n];
      RowTotalAppend(a, b[..n]);
    } else {
      assert a + b == a;
    }
  }

  // ---------------------------------------------------------------------
  // Per-record slicing: `i != 0 && i % batchSize == 0`
  // ---------------------------------------------------------------------

  /**
   * Whether the batch is submitted right after the row at index `i`.  Go
   * evaluates `i % batchSize` only when `i != 0`; a zero `batchSize` then
   * panics, which the precondition excludes.
   */
  predicate Fires(i: nat, b: int)
    requires i == 0 || b != 0
  {
    i != 0 && GoRem(i, b) == 0
  }

  /** Number of batches submitted inside the loop for `n` rows. */
  function BatchCount(n: nat, b: int): nat
    requires n <= 1 || b != 0
  {
    if n <= 1 then 0 else (n - 1) / Abs(b)
  }

  /** Rows that precede batch `k`: none before the first, then `k * |b| + 1`. */
  function Cut(k: nat, b: int): nat
  {
    if k == 0 then 0 else k * Abs(b) + 1
  }

  /**
   * Appending row `i` submits a batch exactly when the guard fires, and the
   * batch then ends right after that row.
   */
  lemma CountStep(i: nat, b: int)
    requires i == 0 || b != 0
    ensures BatchCount(i + 1, b) == BatchCount(i, b) + (if Fires(i, b) then 1 else 0)
    ensures Cut(BatchCount(i, b), b) <= i
    ensures Fires(i, b) ==> Cut(BatchCount(i + 1, b), b) == i + 1
  {
    if i > 0 {
      GoRemNonNegative(i, b);
      DivSucc(i - 1, Abs(b));
    }
  }

  /** Quotients grow by one exactly where the next number is a multiple of the divisor. */
  lemma DivSucc(k: nat, d: int)
    requires d > 0
    ensures (k + 1) / d == k / d + (if (k + 1) % d == 0 then 1 else 0)
    ensures (k / d) * d <= k
    ensures (k + 1) % d == 0 ==> ((k + 1) / d) * d == k + 1
  {
    var q, r := k / d, k % d;
    assert k == q * d + r;
    if r == d - 1 {
      assert k + 1 == (q + 1) * d;
      DivModUnique(k + 1, d, q + 1, 0);
    } else {
      DivModUnique(k + 1, d, q, r + 1);
    }
  }


  lemma CutMonotone(j: nat, k: nat, b: int)
    requires j <= k
    ensures Cut(j, b) <= Cut(k, b)
  {
    if 0 < j {
      assert j * Abs(b) <= k * Abs(b);
    }
  }

  /** Every batch lies inside the rows. */
  lemma CutInside(k: nat, n: nat, b: int)
    requires n <= 1 || b != 0
    requires k <= BatchCount(n, b)
    ensures Cut(k, b) <= n
  {
    if k > 0 {
      var m, d := BatchCount(n, b), Abs(b);
      assert n - 1 == m * d + (n - 1) % d;
      CutMonotone(k, m, b);
    }
  }

  /** The batches submitted inside the loop, in order. */
  function NormalBatches<T>(rows: seq<T>, b: int): (bs: seq<seq<T>>)
    requires |rows| <= 1 || b != 0
    ensures |bs| == BatchCount(|rows|, b)
  {
    var m := BatchCount(|rows|, b);
    seq(m, k requires 0 <= k < m =>
      CutMonotone(k, k + 1, b); CutInside(k + 1, |rows|, b);
      rows[Cut(k, b)..Cut(k + 1, b)])
  }

  /** The remainder written synchronously after the loop. */
  function NormalRest<T>(rows: seq<T>, b: int): seq<T>
    requires |rows| <= 1 || b != 0
  {
    CutInside(BatchCount(|rows|, b), |rows|, b);
    rows[Cut(BatchCount(|rows|, b), b)..]
  }

  lemma {:induction false} NormalPrefix<T>(rows: seq<T>, b: int, k: nat)
    requires |rows| <= 1 || b != 0
    requires k <= BatchCount(|rows|, b)
    ensures Cut(k, b) <= |rows|
    ensures Flatten(NormalBatches(rows, b)[..k]) == rows[..Cut(k, b)]
  {
    CutInside(k, |rows|, b);
    if k > 0 {
      NormalPrefix(rows, b, k - 1);
      FlattenPrefix(NormalBatches(rows, b), k - 1);
      CutMonotone(k - 1, k, b);
    }
  }

  /** No row is lost, duplicated or reordered: the batches and the rest put back together are the input. */
  lemma NormalCover<T>(rows: seq<T>, b: int)
    requires |rows| <= 1 || b != 0
    ensures Flatten(NormalBatches(rows, b)) + NormalRest(rows, b) == rows
  {
    var bs := NormalBatches(rows, b);
    NormalPrefix(rows, b, |bs|);
    assert bs[..|bs|] == bs;
  }

  /** The first submitted batch has `|batchSize| + 1` rows, every later one `|batchSize|`. */
  lemma NormalSizes<T>(rows: seq<T>, b: int, k: nat)
    requires |rows| <= 1 || b != 0
    requires k < BatchCount(|rows|, b)
    ensures |NormalBatches(rows, b)[k]| == if k == 0 then Abs(b) + 1 else Abs(b)
  {
    CutMonotone(k, k + 1, b);
    CutInside(k + 1, |rows|, b);
    assert (k + 1) * Abs(b) == k * Abs(b) + Abs(b);
  }

  /** The synchronous remainder holds at most `|batchSize|` rows, and is empty only when the input is or the last row closed a batch. */
  lemma NormalRestBound<T>(rows: seq<T>, b: int)
    requires b != 0
    ensures |NormalRest(rows, b)| <= Abs(b)
    ensures NormalRest(rows, b) == [] <==> |rows| == 0 || Fires(|rows| - 1, b)
  {
    var n := |rows|;
    if n > 1 {
      var d := Abs(b);
      GoRemNonNegative(n - 1, b);
      var q, r := (n - 1) / d, (n - 1) % d;
      assert n - 1 == q * d + r;
      assert BatchCount(n, b) == q;
      if q == 0 {
        assert |NormalRest(rows, b)| == n == r + 1;
      } else {
        assert |NormalRest(rows, b)| == r;
      }
    }
  }

  // ---------------------------------------------------------------------
  // Section lists: whole sections until the running count exceeds batchSize
  // ---------------------------------------------------------------------

  /** Sections grouped into submitted batches, and the sections still pending. */
  datatype Grouping<T> = Grouping(groups: seq<seq<seq<T>>>, pending: seq<seq<T>>)

  /** Adding one section to the pending ones, and submitting them all once they exceed `b` rows. */
  function GroupStep<T>(g: Grouping<T>, sec: seq<T>, b: int): Grouping<T>
  {
    var p := g.pending + [sec];
    if RowTotal(p) > b then Grouping(g.groups + [p], []) else Grouping(g.groups, p)
  }

  /** The grouping after the sections `secs`, in order. */
  function Group<T>(secs: seq<seq<T>>, b: int): Grouping<T>
    decreases |secs|
  {
    if |secs| == 0 then Grouping([], [])
    else GroupStep(Group(secs[..|secs| - 1], b), secs[|secs| - 1], b)
  }

  /**
   * What greedy grouping means: the groups and the pending sections are the
   * input cut at section boundaries; every group exceeds `b` rows while it
   * did not before its last section; the pending sections do not exceed `b`.
   */
  ghost predicate Greedy<T>(secs: seq<seq<T>>, b: int, g: Grouping<T>)
  {
    && Flatten(g.groups) + g.pending == secs
    && (forall k | 0 <= k < |g.groups| ::
          |g.groups[k]| > 0 && RowTotal(g.groups[k]) > b
          && (|g.groups[k]| == 1 || RowTotal(g.groups[k][..|g.groups[k]| - 1]) <= b))
    && (g.pending != [] ==> RowTotal(g.pending) <= b)
  }

  lemma PendingPrefix<T>(p: seq<seq<T>>, sec: seq<T>)
    ensures (p + [sec])[..|p + [sec]| - 1] == p
  {
  }

  /** Submitting the pending sections together with the new one keeps the grouping greedy. */
  lemma GreedyFlush<T>(secs: seq<seq<T>>, sec: seq<T>, b: int, g: Grouping<T>)
    requires Greedy(secs, b, g)
    requires RowTotal(g.pending + [sec]) > b
    ensures Greedy(secs + [sec], b, GroupStep(g, sec, b))
  {
    var p := g.pending + [sec];
    PendingPrefix(g.pending, sec);
    FlattenAppend(g.groups, p);
    var gs := g.groups + [p];
    forall k | 0 <= k < |gs|
      ensures |gs[k]| > 0 && RowTotal(gs[k]) > b
      ensures |gs[k]| == 1 || RowTotal(gs[k][..|gs[k]| - 1]) <= b
    {
      if k < |g.groups| {
        assert gs[k] == g.groups[k];
      }
    }
  }

  /** The grouping the writers compute is the greedy one. */
  lemma {:induction false} GroupGreedy<T>(secs: seq<seq<T>>, b: int)
    ensures Greedy(secs, b, Group(secs, b))
    decreases |secs|
  {
    if |secs| > 0 {
      var init, sec := secs[..|secs| - 1], secs[|secs| - 1];
      GroupGreedy(init, b);
      assert secs == init + [sec];
      var g := Group(init, b);
      if RowTotal(g.pending + [sec]) > b {
        GreedyFlush(init, sec, b, g);
      } else {
        GreedyKeep(init, sec, b, g);
      }
    }
  }

  lemma GreedyKeep<T>(secs: seq<seq<T>>, sec: seq<T>, b: int, g: Grouping<T>)
    requires Greedy(secs, b, g)
    requires RowTotal(g.pending + [sec]) <= b
    ensures Greedy(secs + [sec], b, GroupStep(g, sec, b))
  {
    assert Flatten(g.groups) + (g.pending + [sec]) == secs + [sec];
  }

  /** Greedy grouping is unique: any grouping with the greedy properties is the one the writers compute. */
  lemma {:induction false} GreedyUnique<T>(secs: seq<seq<T>>, b: int, g: Grouping<T>)
    requires Greedy(secs, b, g)
    ensures g == Group(secs, b)
    decreases |secs|
  {
    if |secs| == 0 {
      if |g.groups| > 0 {
        assert false;
      }
    } else {
      var init := secs[..|secs| - 1];
      if g.pending != [] {
        GreedyPreviousPending(secs, b, g);
      } else {
        GreedyPreviousFlushed(secs, b, g);
      }
      GreedyUnique(init, b, Previous(g));
    }
  }

  /** A greedy grouping one section earlier: without the last pending section, or without the last section of the last group. */
  ghost function Previous<T>(g: Grouping<T>): Grouping<T>
    requires g.pending != [] || (|g.groups| > 0 && |g.groups[|g.groups| - 1]| > 0)
  {
    if g.pending != [] then Grouping(g.groups, g.pending[..|g.pending| - 1])
    else
      var last := g.groups[|g.groups| - 1];
      Grouping(g.groups[..|g.groups| - 1], last[..|last| - 1])
  }

  lemma GreedyPreviousPending<T>(secs: seq<seq<T>>, b: int, g: Grouping<T>)
    requires Greedy(secs, b, g) && |secs| > 0 && g.pending != []
    ensures Greedy(secs[..|secs| - 1], b, Previous(g))
    ensures GroupStep(Previous(g), secs[|secs| - 1], b) == g
  {
    var init, sec := secs[..|secs| - 1], secs[|secs| - 1];
    var rest := g.pending[..|g.pending| - 1];
    assert g.pending == rest + [sec] by {
      assert (Flatten(g.groups) + g.pending)[|secs| - 1] == sec;
    }
    assert Flatten(g.groups) + rest == init;
  }

  lemma GreedyPreviousFlushed<T>(secs: seq<seq<T>>, b: int, g: Grouping<T>)
    requires Greedy(secs, b, g) && |secs| > 0 && g.pending == []
    ensures |g.groups| > 0 && |g.groups[|g.groups| - 1]| > 0
    ensures Greedy(secs[..|secs| - 1], b, Previous(g))
    ensures GroupStep(Previous(g), secs[|secs| - 1], b) == g
  {
    var init, sec := secs[..|secs| - 1], secs[|secs| - 1];
    assert Flatten(g.groups) == secs;
    var n := |g.groups|;
    if n == 0 {
      assert false;
    }
    var last := g.groups[n - 1];
    var lead := last[..|last| - 1];
    assert g.groups == g.groups[..n - 1] + [last];
    FlattenAppend(g.groups[..n - 1], last);
    assert last == lead + [sec] by {
      assert (Flatten(g.groups[..n - 1]) + last)[|secs| - 1] == sec;
    }
    assert Flatten(g.groups[..n - 1]) + lead == init;
    var g' := Grouping(g.groups[..n - 1], lead);
    forall k | 0 <= k < n - 1
      ensures |g'.groups[k]| > 0 && RowTotal(g'.groups[k]) > b
      ensures |g'.groups[k]| == 1 || RowTotal(g'.groups[k][..|g'.groups[k]| - 1]) <= b
    {
      assert g'.groups[k] == g.groups[k];
    }
  }


  /** The rows of the submitted batches and the pending rows are the input rows in order. */
  lemma GroupCover<T>(secs: seq<seq<T>>, b: int)
    ensures Flatten(Flatten(Group(secs, b).groups)) + Flatten(Group(secs, b).pending) == Flatten(secs)
  {
    GroupGreedy(secs, b);
    FlattenConcat(Flatten(Group(secs, b).groups), Group(secs, b).pending);
  }

  /** The grouped sections and the pending ones together hold every row. */
  lemma GroupTotal<T>(secs: seq<seq<T>>, b: int)
    ensures RowTotal(Flatten(Group(secs, b).groups)) + RowTotal(Group(secs, b).pending) == RowTotal(secs)
  {
    GroupGreedy(secs, b);
    RowTotalAppend(Flatten(Group(secs, b).groups), Group(secs, b).pending);
  }

  lemma {:induction false} FlattenConcat<T>(a: seq<seq<T>>, b: seq<seq<T>>)
    ensures Flatten(a + b) == Flatten(a) + Flatten(b)
    decreases |b|
  {
    if |b| > 0 {
      var n := |b| - 1;
      assert (a + b)[..|a + b| - 1] == a + b[..n];
      FlattenConcat(a, b[..n]);
    } else {
      assert a + b == a;
    }
  }
}

=== FILE: verify.dfy ===
/**
 * The checking side of the test program: the lockstep comparison of an
 * exported record stream with a source record stream (`verifyRecord`), the
 * normalisation each side applies before comparing, the in-place lowering of
 * boolean columns (`boolLower`), and the regrouping buffer of the 96-hour
 * history checks.
 *
 * A record is one CSV line as a sequence of fields.  The channels fed by the
 * reading goroutines become finite sequences; a Go runtime panic in a
 * goroutine (an index or a slice out of range) becomes `Panic` or `None`.
 * `remain5`'s float formatting is the parameter `format`.
 */
module Verification {
  import opened Wrappers
  import opened GoStrings
  import Slicing

  type Record = seq<string>

  datatype Kind = AnalogKind | DigitalKind

  // ---------------------------------------------------------------------
  // verifyRecord
  // ---------------------------------------------------------------------

  /** How a comparison ends: agreement, a pair that differs, or a panic reading past the end of the second record. */
  datatype Verdict = Consistent | Mismatch(row: nat, field: nat) | OutOfRange(row: nat, field: nat)

  /** The first field at or after `j`, below `|r1|`, where `r2` has ended or disagrees. */
  function FirstDiff(r1: Record, r2: Record, j: nat): Option<nat>
    requires j <= |r1|
    decreases |r1| - j
  {
    if j == |r1| then None
    else if j >= |r2| || r1[j] != r2[j] then Some(j)
    else FirstDiff(r1, r2, j + 1)
  }

  /** The verdict for the pairs from index `k` on, consumed in lockstep until either stream ends. */
  function Compare(s1: seq<Record>, s2: seq<Record>, k: nat): Verdict
    decreases |s1| - k
  {
    if k >= |s1| || k >= |s2| then Consistent
    else match FirstDiff(s1[k], s2[k], 0)
      case None => Compare(s1, s2, k + 1)
      case Some(j) => if j < |s2[k]| then Mismatch(k, j) else OutOfRange(k, j)
  }

  /** No difference from `j` on exactly when every later field of `r1` exists in `r2` and agrees. */
  lemma {:induction false} FirstDiffNone(r1: Record, r2: Record, j: nat)
    requires j <= |r1|
    ensures FirstDiff(r1, r2, j).None? <==> j == |r1| || (|r1| <= |r2| && r1[j..] == r2[j..|r1|])
    decreases |r1| - j
  {
    if j < |r1| {
      if j < |r2| && r1[j] == r2[j] {
        FirstDiffNone(r1, r2, j + 1);
        if |r1| <= |r2| {
          assert r1[j..] == [r1[j]] + r1[j + 1..];
          assert r2[j..|r1|] == [r2[j]] + r2[j + 1..|r1|];
        }
      } else if |r1| <= |r2| {
        assert r1[j..][0] != r2[j..|r1|][0];
      }
    }
  }

  /** A difference found at `i` is the first one: every field before it agrees. */
  lemma {:induction false} FirstDiffSome(r1: Record, r2: Record, j: nat)
    requires j <= |r1| && FirstDiff(r1, r2, j).Some?
    ensures var i := FirstDiff(r1, r2, j).value;
      && j <= i < |r1| && (i >= |r2| || r1[i] != r2[i])
      && forall m | j <= m < i :: m < |r2| && r1[m] == r2[m]
    decreases |r1| - j
  {
    if j < |r2| && r1[j] == r2[j] {
      FirstDiffSome(r1, r2, j + 1);
    }
  }

  /** A record passes exactly when it is a prefix of its partner. */
  lemma RowPasses(r1: Record, r2: Record)
    ensures FirstDiff(r1, r2, 0).None? <==> r1 <= r2
  {
    FirstDiffNone(r1, r2, 0);
    assert r1[0..] == r1;
  }

  /**
   * The comparison succeeds exactly when, over the pairs both streams
   * supply, each exported record is a prefix of its source record; extra
   * records in the longer stream are never looked at.
   */
  lemma {:induction false} CompareConsistent(s1: seq<Record>, s2: seq<Record>, k: nat)
    ensures Compare(s1, s2, k) == Consistent <==> forall m | k <= m < |s1| && m < |s2| :: s1[m] <= s2[m]
    decreases |s1| - k
  {
    if k < |s1| && k < |s2| {
      RowPasses(s1[k], s2[k]);
      CompareConsistent(s1, s2, k + 1);
    }
  }

  /** A reported mismatch is the first differing field of the first differing pair, and both rows have it. */
  lemma {:induction false} CompareMismatch(s1: seq<Record>, s2: seq<Record>, k: nat)
    requires Compare(s1, s2, k).Mismatch?
    ensures var v := Compare(s1, s2, k);
      && k <= v.row < |s1| && v.row < |s2|
      && (forall m | k <= m < v.row :: s1[m] <= s2[m])
      && v.field < |s1[v.row]| && v.field < |s2[v.row]|
      && s1[v.row][v.field] != s2[v.row][v.field]
      && s1[v.row][..v.field] == s2[v.row][..v.field]
    decreases |s1| - k
  {
    RowPasses(s1[k], s2[k]);
    if FirstDiff(s1[k], s2[k], 0).None? {
      CompareMismatch(s1, s2, k + 1);
    } else {
      FirstDiffSome(s1[k], s2[k], 0);
    }
  }

  /** A panic happens at a record of the second stream that is a proper prefix of its partner. */
  lemma {:induction false} CompareOutOfRange(s1: seq<Record>, s2: seq<Record>, k: nat)
    requires Compare(s1, s2, k).OutOfRange?
    ensures var v := Compare(s1, s2, k);
      && k <= v.row < |s1| && v.row < |s2|
      && (forall m | k <= m < v.row :: s1[m] <= s2[m])
      && v.field == |s2[v.row]| < |s1[v.row]|
      && s2[v.row] < s1[v.row]
    decreases |s1| - k
  {
    RowPasses(s1[k], s2[k]);
    if FirstDiff(s1[k], s2[k], 0).None? {
      CompareOutOfRange(s1, s2, k + 1);
    } else {
      var r1, r2 := s1[k], s2[k];
      FirstDiffSome(r1, r2, 0);
      var i := FirstDiff(r1, r2, 0).value;
      assert Compare(s1, s2, k) == OutOfRange(k, i) && i >= |r2|;
      if i > 0 {
        assert i - 1 < |r2| && r1[i - 1] == r2[i - 1];
      }
      assert r2 == r1[..i] by {
        forall m | 0 <= m < i
          ensures r2[m] == r1[..i][m]
        {
        }
      }
    }
  }

  /** `verifyRecord`: read a record from each stream, compare the fields of the first, stop at the first difference. */
  method VerifyRecord(s1: seq<Record>, s2: seq<Record>) returns (v: Verdict)
    ensures v == Compare(s1, s2, 0)
  {
    var k := 0;
    while k < |s1| && k < |s2|
      invariant k <= |s1| && Compare(s1, s2, 0) == Compare(s1, s2, k)
      decreases |s1| - k
    {
      var row1, row2 := s1[k], s2[k];
      var i := 0;
      while i < |row1|
        invariant i <= |row1| && FirstDiff(row1, row2, 0) == FirstDiff(row1, row2, i)
      {
        if i >= |row2| {
          return OutOfRange(k, i);
        }
        if row1[i] != row2[i] {
          return Mismatch(k, i);
        }
        i := i + 1;
      }
      k := k + 1;
    }
    return Consistent;
  }

  // ---------------------------------------------------------------------
  // Normalising the two streams
  // ---------------------------------------------------------------------

  /** What a reading goroutine does with one record: skip it, send it, or panic. */
  datatype Outcome = Skip | Emit(r: Record) | Panic

  /** `remain5`: fields 2, 3 and 7 rewritten by the float formatter. */
  function Remain5(r: Record, format: string -> string): (r': Record)
    requires |r| >= 8
    ensures |r'| == |r|
    ensures forall j | 0 <= j < |r| && j != 2 && j != 3 && j != 7 :: r'[j] == r[j]
  {
    r[2 := format(r[2])][3 := format(r[3])][7 := format(r[7])]
  }

  /** Analog records are rounded; digital ones are left alone. */
  function Round(kind: Kind, r: Record, format: string -> string): (r': Record)
    requires kind == AnalogKind ==> |r| >= 8
    ensures |r'| == |r|
    ensures kind != AnalogKind ==> r' == r
    ensures kind == AnalogKind ==> forall j | 0 <= j < |r| && j != 2 && j != 3 && j != 7 :: r'[j] == r[j]
  {
    if kind == AnalogKind then Remain5(r, format) else r
  }

  /**
   * One exported record: blank and header records are skipped, the time
   * loses its last six characters (the nanoseconds), and a 12-field record
   * loses its device column.
   */
  function ExportRow(row: Record, kind: Kind, format: string -> string): (o: Outcome)
    ensures o.Skip? <==> |row| >= 1 && (row[0] == "" || row[0] == "Time")
    ensures o.Panic? <==>
      (|row| == 0 || (row[0] != "" && row[0] != "Time"
        && (|row[0]| < 6 || (kind == AnalogKind && (if |row| == 12 then 11 else |row|) < 8))))
    ensures o.Emit? ==> |row| >= 1 && |o.r| == (if |row| == 12 then 11 else |row|)
    ensures o.Emit? ==> 6 <= |row[0]| && o.r[0] == row[0][..|row[0]| - 6]
    ensures o.Emit? && kind == DigitalKind ==> o.r[1..] == (if |row| == 12 then row[2..] else row[1..])
    ensures o.Emit? && kind == AnalogKind ==>
      forall j | 1 <= j < |o.r| && j != 2 && j != 3 && j != 7 :: o.r[j] == (if |row| == 12 then row[j + 1] else row[j])
  {
    if |row| == 0 then Panic
    else if row[0] == "" || row[0] == "Time" then Skip
    else if |row[0]| < 6 then Panic
    else
      var trimmed := [row[0][..|row[0]| - 6]] + row[1..];
      var r := if |row| == 12 then trimmed[..1] + trimmed[2..] else trimmed;
      if kind == AnalogKind && |r| < 8 then Panic else Emit(Round(kind, r, format))
  }

  /** The columns `boolLower` lowers. */
  function BoolFields(kind: Kind): (fs: seq<nat>)
    ensures forall k | 0 <= k < |fs| :: 2 <= fs[k] <= 8
  {
    if kind == AnalogKind then [4, 5, 6, 8] else [2, 3, 4, 5, 6, 7, 8]
  }

  /** A record with the listed fields lower-cased. */
  function Lowered(r: Record, fields: seq<nat>): (r': Record)
    ensures |r'| == |r|
  {
    seq(|r|, j requires 0 <= j < |r| => if j in fields then ToLower(r[j]) else r[j])
  }

  /** Lowering the same fields twice is lowering them once. */
  lemma LoweredIdempotent(r: Record, fields: seq<nat>)
    ensures Lowered(Lowered(r, fields), fields) == Lowered(r, fields)
  {
    forall j | 0 <= j < |r| && j in fields
      ensures ToLower(ToLower(r[j])) == ToLower(r[j])
    {
      ToLowerIdempotent(r[j]);
    }
  }

  /** `boolLower`: lower-cases the listed fields of the record in place. */
  method BoolLower(row: array<string>, fields: seq<nat>)
    requires forall k | 0 <= k < |fields| :: fields[k] < row.Length
    modifies row
    ensures row[..] == Lowered(old(row[..]), fields)
  {
    ghost var original := row[..];
    for k := 0 to |fields|
      invariant row[..] == Lowered(original, fields[..k])
    {
      var f := fields[k];
      assert fields[..k + 1] == fields[..k] + [f];
      ToLowerIdempotent(original[f]);
      row[f] := ToLower(row[f]);
    }
    assert fields[..|fields|] == fields;
  }

  /**
   * One source record: blank and header records are skipped; for test 613
   * only point "1" is kept; then only records at or after `start`.  Kept
   * records are rounded (analog) and have their boolean columns lowered.
   */
  function SourceRow(row: Record, kind: Kind, testID: int, start: int, format: string -> string): (o: Outcome)
    ensures o.Emit? <==>
      && |row| >= 9 && row[0] != "" && row[0] != "TIME"
      && (testID == 613 ==> row[1] == "1")
      && ParseIntLossy(row[0], 64) >= start
    ensures o.Panic? <==>
      (|row| == 0 || (row[0] != "" && row[0] != "TIME"
        && ((testID == 613 && |row| < 2)
          || (|row| < 9 && (testID == 613 ==> row[1] == "1") && ParseIntLossy(row[0], 64) >= start))))
    ensures o.Emit? ==> |o.r| == |row| && o.r[0] == row[0] && o.r[1] == row[1]
    ensures o.Emit? ==> forall k | 0 <= k < |BoolFields(kind)| :: o.r[BoolFields(kind)[k]] == ToLower(row[BoolFields(kind)[k]])
  {
    if |row| == 0 then Panic
    else if row[0] == "" || row[0] == "TIME" then Skip
    else if testID == 613 && |row| < 2 then Panic
    else if testID == 613 && row[1] != "1" then Skip
    else if ParseIntLossy(row[0], 64) < start then Skip
    else if |row| < 9 then Panic
    else Emit(Converted(row, kind, format))
  }

  /** A selected row as written to the output file: rounded, then its boolean fields lower-cased. */
  function Converted(row: Record, kind: Kind, format: string -> string): (r: Record)
    requires |row| >= 9
    ensures |r| == |row| && r[0] == row[0] && r[1] == row[1]
    ensures forall k | 0 <= k < |BoolFields(kind)| :: r[BoolFields(kind)[k]] == ToLower(row[BoolFields(kind)[k]])
  {
    Lowered(Round(kind, row, format), BoolFields(kind))
  }

  /** What a reading goroutine sends, in order; `None` when it panics. */
  /**
   * A reader goroutine: each record read is skipped, sent, or panics; the
   * stream is `None` exactly when some record panics.
   */
  function Stream(rows: seq<Record>, f: Record -> Outcome): (r: Option<seq<Record>>)
    ensures r.None? <==> exists k | 0 <= k < |rows| :: f(rows[k]).Panic?
    decreases |rows|
  {
    if |rows| == 0 then Some([])
    else match Stream(rows[..|rows| - 1], f)
      case None => None
      case Some(out) =>
        match f(rows[|rows| - 1])
        case Skip => Some(out)
        case Emit(r) => Some(out + [r])
        case Panic => None
  }

  /** Reading two files one after the other sends what each would send, in order. */
  lemma {:induction false} StreamConcat(a: seq<Record>, b: seq<Record>, f: Record -> Outcome)
    ensures Stream(a + b, f) ==
      if Stream(a, f).Some? && Stream(b, f).Some? then Some(Stream(a, f).value + Stream(b, f).value) else None
    decreases |b|
  {
    if |b| == 0 {
      assert a + b == a;
      if Stream(a, f).Some? {
        assert Stream(a, f).value + [] == Stream(a, f).value;
      }
    } else {
      var n := |b| - 1;
      assert (a + b)[..|a + b| - 1] == a + b[..n];
      assert (a + b)[|a + b| - 1] == b[n];
      StreamConcat(a, b[..n], f);
      if Stream(a, f).Some? && Stream(b[..n], f).Some? {
        var x, y := Stream(a, f).value, Stream(b[..n], f).value;
        match f(b[n])
        case Emit(r) =>
          assert x + y + [r] == x + (y + [r]);
        case Skip =>
        case Panic =>
      }
    }
  }

  /** The stream never sends more records than it reads. */
  lemma {:induction false} StreamShorter(rows: seq<Record>, f: Record -> Outcome)
    ensures Stream(rows, f).Some? ==> |Stream(rows, f).value| <= |rows|
    decreases |rows|
  {
    if |rows| > 0 {
      StreamShorter(rows[..|rows| - 1], f);
    }
  }

  /** When every record is sent, the stream is those records in order. */
  lemma {:induction false} StreamEmits(rows: seq<Record>, f: Record -> Outcome)
    requires forall k | 0 <= k < |rows| :: f(rows[k]).Emit?
    ensures Stream(rows, f).Some? && |Stream(rows, f).value| == |rows|
    ensures forall k | 0 <= k < |rows| :: f(rows[k]) == Emit(Stream(rows, f).value[k])
    decreases |rows|
  {
    if |rows| > 0 {
      var init := rows[..|rows| - 1];
      StreamEmits(init, f);
    }
  }

  /** A header record followed by records that are all sent: the stream is those records in order. */
  lemma StreamAfterHeader(rows: seq<Record>, f: Record -> Outcome)
    requires |rows| >= 1 && f(rows[0]).Skip?
    requires forall k | 1 <= k < |rows| :: f(rows[k]).Emit?
    ensures Stream(rows, f).Some? && |Stream(rows, f).value| == |rows| - 1
    ensures forall k | 1 <= k < |rows| :: f(rows[k]) == Emit(Stream(rows, f).value[k - 1])
  {
    var rest := rows[1..];
    assert rows == [rows[0]] + rest;
    assert [rows[0]][..0] == [];
    StreamEmits(rest, f);
    StreamConcat([rows[0]], rest, f);
  }

  /** An exported data record that the export goroutine sends. */
  predicate Exported(row: Record, kind: Kind)
  {
    && |row| >= 1 && row[0] != "" && row[0] != "Time" && |row[0]| >= 6
    && (kind == AnalogKind ==> (if |row| == 12 then 11 else |row|) >= 8)
  }

  /**
   * The exported stream of `verifyAnalogData` / `verifyDigitalData`: an
   * export file of a "Time" header and data records streams one record
   * per data record, in order, each with its nanoseconds dropped and its
   * device column removed.
   */
  function ExportStream(rows: seq<Record>, kind: Kind, format: string -> string): (r: Option<seq<Record>>)
    ensures r.None? <==> exists k | 0 <= k < |rows| :: ExportRow(rows[k], kind, format).Panic?
    ensures |rows| >= 1 && |rows[0]| >= 1 && rows[0][0] == "Time" && (forall k | 1 <= k < |rows| :: Exported(rows[k], kind)) ==>
      && r.Some? && |r.value| == |rows| - 1
      && forall k | 1 <= k < |rows| ::
        (&& ExportRow(rows[k], kind, format) == Emit(r.value[k - 1])
         && |r.value[k - 1]| == (if |rows[k]| == 12 then 11 else |rows[k]|)
         && r.value[k - 1][0] == rows[k][0][..|rows[k][0]| - 6])
  {
    var f := (row: Record) => ExportRow(row, kind, format);
    if |rows| >= 1 && |rows[0]| >= 1 && rows[0][0] == "Time" && (forall k | 1 <= k < |rows| :: Exported(rows[k], kind)) then
      StreamAfterHeader(rows, f);
      Stream(rows, f)
    else
      Stream(rows, f)
  }

  /** A source record that the source goroutine keeps. */
  predicate Kept(row: Record, testID: int, start: int)
  {
    && |row| >= 9 && row[0] != "" && row[0] != "TIME"
    && (testID == 613 ==> row[1] == "1")
    && ParseIntLossy(row[0], 64) >= start
  }

  /**
   * The source stream of `verifyAnalogData` / `verifyDigitalData`: a source
   * file of a "TIME" header and kept records streams exactly the converted
   * records, in order.
   */
  function SourceStream(rows: seq<Record>, kind: Kind, testID: int, start: int, format: string -> string): (r: Option<seq<Record>>)
    ensures r.None? <==> exists k | 0 <= k < |rows| :: SourceRow(rows[k], kind, testID, start, format).Panic?
    ensures |rows| >= 1 && |rows[0]| >= 1 && rows[0][0] == "TIME" && (forall k | 1 <= k < |rows| :: Kept(rows[k], testID, start)) ==>
      && r.Some? && |r.value| == |rows| - 1
      && forall k | 1 <= k < |rows| :: r.value[k - 1] == Converted(rows[k], kind, format)
  {
    var f := (row: Record) => SourceRow(row, kind, testID, start, format);
    if |rows| >= 1 && |rows[0]| >= 1 && rows[0][0] == "TIME" && (forall k | 1 <= k < |rows| :: Kept(rows[k], testID, start)) then
      StreamAfterHeader(rows, f);
      Stream(rows, f)
    else
      Stream(rows, f)
  }

  // ---------------------------------------------------------------------
  // The 96-hour history regrouping buffer
  // ---------------------------------------------------------------------

  /** Point slots of the analog and the digital buffer; slot 0 is unused. */
  const AnalogSlots := 30
  const DigitalSlots := 70

  /** An exported record as the regrouping goroutine sees it. */
  datatype HisInput = HisSkip | HisPanic | Full(r: Record, id: int) | Short(r: Record, id: int)

  /**
   * A 12-field record loses its nanoseconds and its device column; an
   * 11-field record (exported without its zero timestamp) gets time "0".
   * Either is keyed by the point number in its second field.
   */
  function Classify(row: Record, kind: Kind, format: string -> string): (h: HisInput)
    ensures h.Full? ==> |row| == 12 && |h.r| == 11 && |row[0]| >= 6 && h.r[0] == row[0][..|row[0]| - 6] && h.r[1] == row[2]
    ensures h.Short? ==> |row| == 11 && |h.r| == 11 && h.r[0] == "0" && h.r[1] == row[1]
    ensures h.HisSkip? <==> |row| >= 1 && (row[0] == "" || row[0] == "Time" || (|row| != 11 && |row| != 12))
    ensures h.HisPanic? <==> |row| == 0 || (|row| == 12 && row[0] != "" && row[0] != "Time" && |row[0]| < 6)
    ensures h.Full? <==> |row| == 12 && row[0] != "" && row[0] != "Time" && |row[0]| >= 6
    ensures h.Short? <==> |row| == 11 && row[0] != "" && row[0] != "Time"
    ensures h.Full? || h.Short? ==> h.id == ParseIntLossy(h.r[1], 32)
  {
    if |row| == 0 then HisPanic
    else if row[0] == "" || row[0] == "Time" then HisSkip
    else if |row| == 12 then
      if |row[0]| < 6 then HisPanic
      else
        var r := Round(kind, [row[0][..|row[0]| - 6]] + row[2..], format);
        Full(r, ParseIntLossy(r[1], 32))
    else if |row| == 11 then
      var r := Round(kind, ["0"] + row[1..], format);
      Short(r, ParseIntLossy(r[1], 32))
    else HisSkip
  }

  /** The buffer `rowTmp`, the counter `count`, and what has been sent. */
  datatype HisState = HisState(buf: seq<Record>, count: int, out: seq<Record>)

  function HisInit(slots: nat): HisState
  {
    HisState(seq(slots + 1, _ => []), 1, [])
  }

  /** The buffer is sent, slots 1 to `slots` in order, and the counter restarts. */
  function Flush(st: HisState): HisState
    requires |st.buf| >= 1
  {
    HisState(st.buf, 1, st.out + st.buf[1..])
  }

  /**
   * One record: when the counter has reached `slots + 1` the buffer is
   * flushed first; a 12-field record is then stored, an 11-field one only
   * when there was no flush.  Storing at a point number outside the buffer
   * panics.
   */
  function HisStep(st: HisState, h: HisInput, slots: nat): Option<HisState>
    requires |st.buf| == slots + 1
  {
    match h
    case HisSkip => Some(st)
    case HisPanic => None
    case Full(r, id) =>
      var st' := if st.count == slots + 1 then Flush(st) else st;
      if 0 <= id <= slots then Some(HisState(st'.buf[id := r], st'.count + 1, st'.out)) else None
    case Short(r, id) =>
      if st.count == slots + 1 then Some(Flush(st))
      else if 0 <= id <= slots then Some(HisState(st.buf[id := r], st.count + 1, st.out))
      else None
  }

  /** The buffer keeps its size, the counter stays in 1..slots+1, and whole buffers are sent. */
  predicate HisValid(st: HisState, slots: nat)
    requires slots >= 1
  {
    |st.buf| == slots + 1 && 1 <= st.count <= slots + 1 && |st.out| % slots == 0
  }

  lemma HisStepValid(st: HisState, h: HisInput, slots: nat)
    requires slots >= 1 && HisValid(st, slots)
    ensures HisStep(st, h, slots).Some? ==> HisValid(HisStep(st, h, slots).value, slots)
  {
    if st.count == slots + 1 && (h.Full? || h.Short?) {
      var n, q := |st.out|, |st.out| / slots;
      assert n == q * slots;
      assert |Flush(st).out| == n + slots == (q + 1) * slots;
      Slicing.DivModUnique(n + slots, slots, q + 1, 0);
    }
  }

  /** The state after the records `rows`, or `None` once the goroutine has panicked. */
  function HisRun(rows: seq<Record>, slots: nat, kind: Kind, format: string -> string): (r: Option<HisState>)
    requires slots >= 1
    ensures r.Some? ==> HisValid(r.value, slots)
    decreases |rows|
  {
    if |rows| == 0 then Some(HisInit(slots))
    else match HisRun(rows[..|rows| - 1], slots, kind, format)
      case None => None
      case Some(st) =>
        var h := Classify(rows[|rows| - 1], kind, format);
        HisStepValid(st, h, slots);
        HisStep(st, h, slots)
  }

  lemma HisRunSnoc(rows: seq<Record>, x: Record, slots: nat, kind: Kind, format: string -> string)
    requires slots >= 1
    ensures HisRun(rows + [x], slots, kind, format) ==
      if HisRun(rows, slots, kind, format).None? then None
      else HisStep(HisRun(rows, slots, kind, format).value, Classify(x, kind, format), slots)
  {
    assert (rows + [x])[..|rows|] == rows;
  }

  /**
   * A record arriving when the counter stands at `slots + 1`: the buffer's
   * slots 1 to `slots` are sent first; a 12-field record is then stored and
   * the counter becomes 2, an 11-field record is dropped and the counter
   * becomes 1.
   */
  lemma HisFlushStep(rows: seq<Record>, x: Record, slots: nat, kind: Kind, format: string -> string)
    requires slots >= 1
    requires HisRun(rows, slots, kind, format).Some? && HisRun(rows, slots, kind, format).value.count == slots + 1
    ensures var st, h, r := HisRun(rows, slots, kind, format).value, Classify(x, kind, format), HisRun(rows + [x], slots, kind, format);
      (h.Full? ==> (r.Some? <==> 0 <= h.id <= slots))
      && (h.Full? && 0 <= h.id <= slots ==> r == Some(HisState(st.buf[h.id := h.r], 2, st.out + st.buf[1..])))
      && (h.Short? ==> r == Some(HisState(st.buf, 1, st.out + st.buf[1..])))
      && (h.HisSkip? ==> r == Some(st))
      && (h.HisPanic? ==> r.None?)
  {
    HisRunSnoc(rows, x, slots, kind, format);
  }

  function HisOutput(rows: seq<Record>, slots: nat, kind: Kind, format: string -> string): Option<seq<Record>>
    requires slots >= 1
  {
    match HisRun(rows, slots, kind, format)
    case None => None
    case Some(st) => Some(st.out)
  }

  lemma {:induction false} HisRunNoneExtends(rows: seq<Record>, i: nat, slots: nat, kind: Kind, format: string -> string)
    requires slots >= 1 && i <= |rows| && HisRun(rows[..i], slots, kind, format).None?
    ensures HisRun(rows, slots, kind, format).None?
    decreases |rows| - i
  {
    if i < |rows| {
      assert rows[..i + 1][..i] == rows[..i];
      HisRunNoneExtends(rows, i + 1, slots, kind, format);
    } else {
      assert rows[..i] == rows;
    }
  }

  /** The regrouping goroutine of `verifyAnalogDataHis96` / `verifyDigitalDataHis96`. */
  method Regroup(rows: seq<Record>, slots: nat, kind: Kind, format: string -> string) returns (sent: Option<seq<Record>>)
    requires slots >= 1
    ensures sent == HisOutput(rows, slots, kind, format)
  {
    var rowTmp := new Record[slots + 1](_ => []);
    var count := 1;
    var out: seq<Record> := [];
    assert rowTmp[..] == HisInit(slots).buf;
    for i := 0 to |rows|
      invariant rowTmp.Length == slots + 1
      invariant HisRun(rows[..i], slots, kind, format) == Some(HisState(rowTmp[..], count, out))
    {
      assert rows[..i + 1] == rows[..i] + [rows[i]];
      HisRunSnoc(rows[..i], rows[i], slots, kind, format);
      var ok;
      ok, count, out := HisHandle(rowTmp, count, out, Classify(rows[i], kind, format));
      if !ok {
        HisRunNoneExtends(rows, i + 1, slots, kind, format);
        return None;
      }
    }
    assert rows[..|rows|] == rows;
    return Some(out);
  }

  /** The body of the regrouping loop for one record; `ok` is false when it panics. */
  method HisHandle(rowTmp: array<Record>, count: int, out: seq<Record>, h: HisInput) returns (ok: bool, count': int, out': seq<Record>)
    requires rowTmp.Length >= 1
    modifies rowTmp
    ensures var r := HisStep(HisState(old(rowTmp[..]), count, out), h, rowTmp.Length - 1);
      && (ok <==> r.Some?)
      && (ok ==> r.value == HisState(rowTmp[..], count', out'))
  {
    var slots := rowTmp.Length - 1;
    ok, count', out' := true, count, out;
    match h
    case HisSkip =>
    case HisPanic =>
      ok := false;
    case Full(r, id) =>
      if count == slots + 1 {
        out' := SendSlots(rowTmp, out);
        count' := 1;
      }
      if id < 0 || id > slots {
        ok := false;
        return;
      }
      rowTmp[id] := r;
      count' := count' + 1;
    case Short(r, id) =>
      if count == slots + 1 {
        out' := SendSlots(rowTmp, out);
        count' := 1;
      } else {
        if id < 0 || id > slots {
          ok := false;
          return;
        }
        rowTmp[id] := r;
        count' := count' + 1;
      }
  }

  /** `for i := 1; i <= slots; i++ { row1Ch <- rowTmp[i] }` */
  method SendSlots(rowTmp: array<Record>, out: seq<Record>) returns (out': seq<Record>)
    requires rowTmp.Length >= 1
    ensures out' == out + rowTmp[1..]
  {
    out' := out;
    for p := 1 to rowTmp.Length
      invariant out' == out + rowTmp[1..p]
    {
      assert rowTmp[1..p + 1] == rowTmp[1..p] + [rowTmp[p]];
      out' := out' + [rowTmp[p]];
    }
  }

  /** How the regrouping goroutine sees each record of `block`. */
  function Inputs(block: seq<Record>, kind: Kind, format: string -> string): (hs: seq<HisInput>)
    ensures |hs| == |block| && forall k | 0 <= k < |block| :: hs[k] == Classify(block[k], kind, format)
  {
    seq(|block|, k requires 0 <= k < |block| => Classify(block[k], kind, format))
  }

  /** Full records with point numbers in 1..slots, all different. */
  predicate Section(hs: seq<HisInput>, slots: nat)
  {
    && (forall k | 0 <= k < |hs| :: hs[k].Full? && 1 <= hs[k].id <= slots)
    && (forall k, l | 0 <= k < l < |hs| :: hs[k].id != hs[l].id)
  }

  /** Storing the `j`-th record of a section: no flush, and the records stored so far stay where they are. */
  lemma FillStep(prev: HisState, hs: seq<HisInput>, j: nat, slots: nat)
    requires slots >= 1 && 0 < j <= |hs| <= slots && Section(hs, slots)
    requires |prev.buf| == slots + 1 && prev.count == j
    requires Stored(prev, hs, j - 1)
    ensures var buf := prev.buf[hs[j - 1].id := hs[j - 1].r];
      && HisStep(prev, hs[j - 1], slots) == Some(HisState(buf, j + 1, prev.out))
      && Stored(HisState(buf, j + 1, prev.out), hs, j)
  {
    var h := hs[j - 1];
    var buf := prev.buf[h.id := h.r];
    forall k | 0 <= k < j
      ensures buf[hs[k].id] == hs[k].r
    {
      if k < j - 1 {
        assert hs[k].id != h.id;
      }
    }
  }

  /** The first `n` records of a section sit at their point numbers in the buffer. */
  predicate Stored(st: HisState, hs: seq<HisInput>, n: nat)
    requires n <= |hs|
  {
    forall k | 0 <= k < n :: hs[k].Full? && 0 <= hs[k].id < |st.buf| && st.buf[hs[k].id] == hs[k].r
  }

  /** The steps for the inputs `hs`, one after another, from the state `st`. */
  function HisSteps(st: HisState, hs: seq<HisInput>, slots: nat): (r: Option<HisState>)
    requires |st.buf| == slots + 1
    ensures r.Some? ==> |r.value.buf| == slots + 1
    decreases |hs|
  {
    if |hs| == 0 then Some(st)
    else match HisSteps(st, hs[..|hs| - 1], slots)
      case None => None
      case Some(s) => HisStep(s, hs[|hs| - 1], slots)
  }

  /** Running on after `rows` is stepping through how the further records are classified. */
  lemma {:induction false} HisRunAppend(rows: seq<Record>, block: seq<Record>, slots: nat, kind: Kind, format: string -> string)
    requires slots >= 1 && HisRun(rows, slots, kind, format).Some?
    ensures HisRun(rows + block, slots, kind, format) ==
      HisSteps(HisRun(rows, slots, kind, format).value, Inputs(block, kind, format), slots)
    decreases |block|
  {
    if |block| == 0 {
      assert rows + block == rows;
    } else {
      var init := block[..|block| - 1];
      HisRunAppend(rows, init, slots, kind, format);
      assert rows + block == rows + init + [block[|block| - 1]];
      HisRunSnoc(rows + init, block[|block| - 1], slots, kind, format);
      assert Inputs(block, kind, format)[..|block| - 1] == Inputs(init, kind, format);
    }
  }

  /**
   * Storing records `m..j` of a section from a state that holds its first
   * `m` records with the counter at `m + 1`: nothing is sent, the counter
   * reaches `j + 1`, and every record so far sits at its point number.
   */
  lemma {:induction false} SectionFill(st: HisState, hs: seq<HisInput>, m: nat, j: nat, slots: nat)
    requires slots >= 1 && m <= j <= |hs| <= slots && Section(hs, slots)
    requires |st.buf| == slots + 1 && st.count == m + 1 && Stored(st, hs, m)
    ensures var r := HisSteps(st, hs[m..j], slots);
      r.Some? && r.value.count == j + 1 && r.value.out == st.out && Stored(r.value, hs, j)
    decreases j
  {
    if j > m {
      SectionFill(st, hs, m, j - 1, slots);
      assert hs[m..j][..j - 1 - m] == hs[m..j - 1];
      FillStep(HisSteps(st, hs[m..j - 1], slots).value, hs, j, slots);
    }
  }

  /**
   * What has been sent once a section has started: at counter 1 nothing
   * more; at counter `slots + 1` the section's first record has also flushed
   * the buffer left by the section before it.
   */
  function SectionBase(st: HisState): seq<Record>
    requires |st.buf| >= 1
  {
    if st.count == 1 then st.out else st.out + st.buf[1..]
  }

  /**
   * A section of `slots` full records with distinct point numbers, arriving
   * at counter 1 (the file's first section, or one after an 11-field
   * trigger) or at counter `slots + 1` (every later section of a 12-field
   * export, whose first record flushes the previous section), sends nothing
   * of its own and leaves the counter at `slots + 1`; the next 11- or
   * 12-field record sends it, each record at the position of its point
   * number.  The records of a section still in the buffer at the end are
   * never sent.
   */
  lemma HisSection(rows: seq<Record>, block: seq<Record>, trigger: Record, slots: nat, kind: Kind, format: string -> string)
    requires slots >= 1 && |block| == slots
    requires HisRun(rows, slots, kind, format).Some?
    requires HisRun(rows, slots, kind, format).value.count in {1, slots + 1}
    requires Section(Inputs(block, kind, format), slots)
    requires Classify(trigger, kind, format).Short? ||
      (Classify(trigger, kind, format).Full? && 0 <= Classify(trigger, kind, format).id <= slots)
    ensures var base := SectionBase(HisRun(rows, slots, kind, format).value);
      && HisOutput(rows + block, slots, kind, format) == Some(base)
      && HisRun(rows + block, slots, kind, format).value.count == slots + 1
    ensures var base, hs := SectionBase(HisRun(rows, slots, kind, format).value), Inputs(block, kind, format);
      var after := HisOutput(rows + block + [trigger], slots, kind, format);
      && after.Some? && |after.value| == |base| + slots && after.value[..|base|] == base
      && forall k | 0 <= k < slots :: after.value[|base| + hs[k].id - 1] == hs[k].r
  {
    var hs := Inputs(block, kind, format);
    var base := SectionBase(HisRun(rows, slots, kind, format).value);
    SectionStart(rows, block, hs, slots, kind, format);
    SectionTrigger(rows + block, trigger, hs, base, slots, kind, format);
  }

  /** The state once a whole section has arrived at counter 1 or `slots + 1`. */
  lemma SectionStart(rows: seq<Record>, block: seq<Record>, hs: seq<HisInput>, slots: nat, kind: Kind, format: string -> string)
    requires slots >= 1 && |block| == slots
    requires HisRun(rows, slots, kind, format).Some?
    requires HisRun(rows, slots, kind, format).value.count in {1, slots + 1}
    requires hs == Inputs(block, kind, format) && Section(hs, slots)
    ensures HisRun(rows + block, slots, kind, format).Some?
    ensures HisRun(rows + block, slots, kind, format).value.count == slots + 1
    ensures HisRun(rows + block, slots, kind, format).value.out == SectionBase(HisRun(rows, slots, kind, format).value)
    ensures Stored(HisRun(rows + block, slots, kind, format).value, hs, slots)
  {
    var st := HisRun(rows, slots, kind, format).value;
    if st.count == 1 {
      HisRunAppend(rows, block, slots, kind, format);
      SectionFill(st, hs, 0, slots, slots);
      assert hs[0..slots] == hs;
    } else {
      FlushedStart(rows, block, hs, slots, kind, format);
    }
  }

  /** A section arriving at counter `slots + 1`: its first record flushes, then the rest are stored. */
  lemma FlushedStart(rows: seq<Record>, block: seq<Record>, hs: seq<HisInput>, slots: nat, kind: Kind, format: string -> string)
    requires slots >= 1 && |block| == slots
    requires HisRun(rows, slots, kind, format).Some? && HisRun(rows, slots, kind, format).value.count == slots + 1
    requires hs == Inputs(block, kind, format) && Section(hs, slots)
    ensures HisRun(rows + block, slots, kind, format).Some?
    ensures HisRun(rows + block, slots, kind, format).value.count == slots + 1
    ensures HisRun(rows + block, slots, kind, format).value.out == SectionBase(HisRun(rows, slots, kind, format).value)
    ensures Stored(HisRun(rows + block, slots, kind, format).value, hs, slots)
  {
    var pre := rows + [block[0]];
    HisFlushStep(rows, block[0], slots, kind, format);
    var first := HisRun(pre, slots, kind, format).value;
    assert first.count == 1 + 1 && Stored(first, hs, 1);
    HisRunAppend(pre, block[1..], slots, kind, format);
    ConsSlice(rows, block);
    assert |block| == slots;
    InputsSuffix(block, 1, kind, format);
    SectionFill(first, hs, 1, slots, slots);
  }

  lemma ConsSlice<T>(a: seq<T>, b: seq<T>)
    requires |b| > 0
    ensures a + [b[0]] + b[1..] == a + b
  {
    assert [b[0]] + b[1..] == b;
  }

  lemma InputsSuffix(block: seq<Record>, i: nat, kind: Kind, format: string -> string)
    requires i <= |block|
    ensures Inputs(block[i..], kind, format) == Inputs(block, kind, format)[i..|block|]
  {
  }

  /** The record after a full section flushes it: each record lands at the position of its point number. */
  lemma SectionTrigger(pre: seq<Record>, trigger: Record, hs: seq<HisInput>, before: seq<Record>, slots: nat,
                       kind: Kind, format: string -> string)
    requires slots >= 1 && |hs| == slots && Section(hs, slots)
    requires HisRun(pre, slots, kind, format).Some? && HisRun(pre, slots, kind, format).value.count == slots + 1
    requires HisRun(pre, slots, kind, format).value.out == before
    requires Stored(HisRun(pre, slots, kind, format).value, hs, slots)
    requires Classify(trigger, kind, format).Short? ||
      (Classify(trigger, kind, format).Full? && 0 <= Classify(trigger, kind, format).id <= slots)
    ensures var after := HisOutput(pre + [trigger], slots, kind, format);
      && after.Some? && |after.value| == |before| + slots && after.value[..|before|] == before
      && forall k | 0 <= k < slots :: after.value[|before| + hs[k].id - 1] == hs[k].r
  {
    HisFlushStep(pre, trigger, slots, kind, format);
  }
}

=== FILE: wrappers.dfy ===
/** Failure-carrying wrappers used across the model. */
module Wrappers {

  /** A value that may be missing. */
  datatype Option<+T> = None | Some(value: T)

  /** A value, or the error that stood in its way. */
  datatype Result<+T, +E> = Success(value: T) | Failure(error: E)
}
